=== FILE: README.md ===
# Ad replacement system — a Dafny model

The system puts the operator's own banner images ("creatives") into the ad slots of
news pages and takes screenshots of the result. It has four parts, and each has a module here:

- **The replacement engine** (`website_template_complete.py`): modules `Inventory`, `Surface`, `Dom`, `DomLemmas` and `Engine`.
  - It loads the creatives from a folder, whose file names carry their sizes (`img_300x250.png`).
  - It scans a loaded page for visible elements of a creative's size.
  - It rewrites such an element with the browser scripts: images swapped, iframes covered, a background replaced, close and info buttons added.
  - It takes a screenshot and restores the element.
  - It goes on over article URLs until enough screenshots exist.
- **The image manager** (`src/image_manager_app.py`), module `ImageManager`: a small web application that uploads creatives under generated names and keeps a JSON list of records in step with the folder. It also serves the list (newest first) and statistics.
- **The configuration manager** (`config_manager.py`), module `ConfigManager`: it loads and saves the JSON settings, asks the settings questions one by one, and builds the runner's command line.
- **The runner** (`src/ad_replacer_runner.py`), module `Runner`: it parses the command line, merges it with the settings file, checks the folder and writes the engine's `config.py`.

`Pipeline` states how the parts fit together:

- the names the image manager writes against the names the engine and the runner accept;
- the command line the configuration manager builds against what the runner reads from it.

Support modules:

- `Common`: JSON-like values and `Option`.
- `Strings`: Python's `lower`, `strip`, `str(int)`, `int(str)`, `rsplit` and string ordering.
- `Sorting`: a stable `list.sort` with a key and `reverse`.

Everything outside the program is a parameter, as the table below says. That covers the browser's answers, the folder listing, files on disk, the clock, random draws and keyboard input.

The state that changes in place is in imperative form:

- The engine object is a class, `Engine.AdReplacer`. Its fields are the creative list, the configured button style and the page (a sequence of elements).
- Its methods have `modifies` clauses and are proved against specification functions.
- The scripts' loops, the loops of `process_website` and `main`, the upload loop, the synchronisation loop, the statistics loop and the prompt loops are `while` loops. Their invariants tie them to those functions.
- `build_command` has no loop. It builds its list in straight-line code, one optional pair at a time, and `AssembleCommand` is written the same way.

Where the documented behaviour and the code disagree, the model follows the code:

- The session loop of `main` checks the screenshot target only after a whole page. It does not check it after each screenshot.
- There is no per-size cap and no "maximum attempts" limit on a page. `max_attempts`, `page_timeout`, `wait_time` and `max_failures` are written to `config.py` but never read by the parts modelled.
- `get_button_style` falls back to `dots` for an unknown name.
- The defaults used when `config.py` cannot be imported (`website_template_complete.py` lines 41-61) define no `BUTTON_STYLE`. `get_button_style` then raises, and `replace_ad_content` reports failure. The model writes this case as "no style configured".

## Model

| member | source | states |
|---|---|---|
| Inventory.DigitRunEnd | website_template_complete.py:413 | the greedy `\d+` group: the run from `i` is all digits and is followed by a non-digit or the end |
| Inventory.SearchFromLeftmost | website_template_complete.py:413 | `re.search` finds the match at the leftmost matching position, and finds nothing only when no position matches |
| Inventory.CanonicalNameSize | website_template_complete.py:413 | a name `img_<w>x<h>` or `google_<w>x<h>` followed by a non-digit reads back the size (w, h) |
| Inventory.ParseAllMembers | website_template_complete.py:408-426 | a creative is collected exactly when some listed name yields it |
| Inventory.ParseAllLength | website_template_complete.py:408-426 | one creative is collected per name with an image extension and a size pattern |
| Inventory.InventoryCorrect | website_template_complete.py:400-431 | a missing folder gives no creatives; otherwise one per parsable name, sorted by filename, each with the extension, the size its name declares and the joined path, and nothing else |
| Sorting.SortByCorrect | website_template_complete.py:428 | the sort gives a result sorted by the key (ascending or, with `reverse`, descending) that is a permutation of its input, and it is stable: the elements sharing a key keep their input order |
| Sorting.InsertStable | src/image_manager_app.py:355 | an inserted element lands in front of every element with the same key, so the order among equal keys is kept |
| Sorting.InsertCorrect | src/image_manager_app.py:355 | inserting into a sorted list keeps it sorted and adds exactly the one element |
| Strings.Lower | src/image_manager_app.py:44 | `lower()` keeps the length and folds each ASCII capital to its small letter |
| Strings.Strip | config_manager.py:56 | `strip()` leaves neither leading nor trailing whitespace, and gives the empty string exactly for all-whitespace input |
| Strings.StripTrims | config_manager.py:56 | `strip()` returns the input with its leading and trailing whitespace removed: the left trim then the right trim, each a slice of its input that drops only whitespace |
| Strings.DecimalRoundTrip | config_manager.py:197 | reading back the digits of `str(n)` gives `n` |
| Strings.IntDecimalRoundTrip | config_manager.py:197 | `int(str(i)) == i` for every integer, negative ones included |
| Strings.LexLeTotal | src/image_manager_app.py:355 | Python's string order is total |
| Strings.LexLeTransitive | src/image_manager_app.py:355 | Python's string order is transitive |
| Strings.LexLeAntisymmetric | src/image_manager_app.py:355 | Python's string order is antisymmetric |
| Strings.AfterLast | src/image_manager_app.py:44 | `rsplit(c, 1)[1]`: the suffix after the last `c`, holding no `c`, and the whole string when there is no `c` |
| Surface.RoundHalfEven | website_template_complete.py:885 | Python's `round`: the result is within one half of `x`, and halves go to the even neighbour |
| Surface.Format0fReadsBack | website_template_complete.py:885 | the `:.0f` text of a position reads back as an integer within half a pixel of the offset, with a minus sign exactly for a negative offset |
| Surface.KeywordsCollapse | website_template_complete.py:855-877 | the seven ad keywords amount to testing `ad`, `banner` and `google` on the lowered class, id and source |
| Surface.VisibleDivIsReported | website_template_complete.py:849-877 | every visible `div` of the creative's rounded size is reported, keywords or not |
| Surface.SizeToleratesHalfPixel | website_template_complete.py:849-852 | a rendered size within half a pixel below (inclusive) to half a pixel above (exclusive) the target passes the size test |
| Surface.PositionOfWholeOffsets | website_template_complete.py:885 | whole-pixel offsets are shown as their plain decimals |
| Surface.NegativeZeroPosition | website_template_complete.py:885 | an offset of -0.4 is shown as `-0`, so positions that look alike can give different de-duplication keys |
| Dom.GetButtonStyle | website_template_complete.py:902-960 | no style when none is configured; the table entry for a known name; the `dots` entry for any other name |
| Dom.ImgPass | website_template_complete.py:1097-1200 | the image loop keeps the number of images and counts at most one replacement per image looked at |
| Dom.FramePass | website_template_complete.py:1204-1256 | the iframe loop keeps the iframes and adds one image per iframe it covers |
| Dom.ReplaceImages | website_template_complete.py:1097-1200 | the loop over the images the container held at the start computes the image pass |
| Dom.ReplaceImage | website_template_complete.py:1100-1198 | one turn of the image loop computes the image step |
| Dom.CoverFrames | website_template_complete.py:1204-1256 | the loop over iframes computes the iframe pass |
| Dom.MutateContainer | website_template_complete.py:1080-1299 | the whole replacement script, run statement by statement, gives the mutation and its success flag |
| Dom.RestoreContainer | website_template_complete.py:1429-1467 | the restore script, run statement by statement, gives the restored container |
| DomLemmas.OnlyNoneHidesButtons | website_template_complete.py:902-960 | every configured name yields a style, and it creates buttons exactly when the name is not `none` |
| DomLemmas.ImgPassEffect | website_template_complete.py:1097-1200 | the image loop replaces exactly the qualifying images, in place, leaves iframes and background alone, and counts something exactly when some image qualifies |
| DomLemmas.ImgStepEffect | website_template_complete.py:1100-1198 | one image turn changes only that image, only when it qualifies, and then clears and re-adds the buttons on its parent |
| DomLemmas.FrameStepEffect | website_template_complete.py:1204-1256 | one iframe turn hides that iframe, appends one overlay image, and re-adds the buttons on the container |
| DomLemmas.FramePassEffect | website_template_complete.py:1204-1256 | the iframe loop hides every iframe and appends one overlay per iframe after the existing images |
| DomLemmas.MutateSucceedsIff | website_template_complete.py:1138-1299 | replacement succeeds exactly when some image qualifies, there is an iframe, or there is a background image |
| DomLemmas.FailedMutationResidue | website_template_complete.py:1084-1091 | a failed replacement still leaves the container relative and cleared of its old buttons |
| DomLemmas.BareElementNeverReplaced | website_template_complete.py:1097-1299 | an element with no image, no iframe and no background image is never replaced |
| DomLemmas.RevertedImageStillCounts | website_template_complete.py:1138-1150 | an image whose creative did not decode at once gets its old source back and still counts as replaced |
| DomLemmas.NoneStyleAddsNoButtons | website_template_complete.py:948-957 | under the `none` style a replacement adds no button |
| DomLemmas.EmptyStyleAddsNoButtons | website_template_complete.py:1178-1195 | under any style with an empty glyph no button is added |
| DomLemmas.SuccessShowsButtons | website_template_complete.py:1178-1195 | under a style with buttons a successful replacement ends with an info button followed by a close button |
| DomLemmas.RestoreRemovesButtons | website_template_complete.py:1429-1467 | restore removes every injected button and every saved original source, keeps the images and iframes, and a second restore changes nothing |
| DomLemmas.UndoImg | website_template_complete.py:1126-1127 | restoring an untouched image after replacing it gives back the image |
| DomLemmas.ImageRoundTrip | website_template_complete.py:1097-1200 | on a container not touched before, with a qualifying image and no iframe, replace and then restore gives back the container, except that it stays relatively positioned |
| DomLemmas.FrameResidue | website_template_complete.py:1204-1256 | after replace and restore on a container with iframes, the overlay images stay, one per iframe, and the iframes become visible |
| DomLemmas.MutateWithFrames | website_template_complete.py:1204-1256 | with iframes present the replacement succeeds, and leaves the iframes hidden with one overlay each |
| DomLemmas.RestoreKeepsOverlays | website_template_complete.py:1429-1467 | restore leaves the overlay images alone and makes hidden iframes visible |
| DomLemmas.BackgroundResidue | website_template_complete.py:1259-1297 | when only the background was replaced, restore leaves the creative as the background image |
| Engine.AdReplacer.constructor | website_template_complete.py:317-321 | the new engine holds the loaded inventory, the configured style and an empty page |
| Engine.AdReplacer.LoadReplaceImages | website_template_complete.py:400-431 | the creative list becomes the loaded inventory; nothing else changes |
| Engine.AdReplacer.ScanEntirePageForAds | website_template_complete.py:775-900 | the walk over the page computes the scan function of the page |
| Engine.ScanSound | website_template_complete.py:775-900 | every match of the scan is a reported element, with the target size and its position text |
| Engine.ScanComplete | website_template_complete.py:775-900 | every reported element is matched |
| Engine.ScanOfMeaning | website_template_complete.py:775-900 | the scan's matches are exactly the reported elements, in document order, each once, with the target size and their position text |
| Engine.ScanFits | website_template_complete.py:1366 | the scan's matches for a creative fit the page layout |
| Engine.AdReplacer.ReplaceAdContent | website_template_complete.py:962-1311 | when the unrounded size is exact and a style is configured, the element's subtree becomes the mutation and the result is its flag; otherwise nothing changes and the result is false |
| Engine.AdReplacer.RestoreAd | website_template_complete.py:1429-1467 | only the given element changes, and it becomes its restored form |
| Engine.AdReplacer.ReplaceThenRestore | website_template_complete.py:1383-1467 | one replacement branch leaves the page as the attempt function says |
| Engine.AfterAttempt | website_template_complete.py:1383-1467 | a replacement attempt changes only what lies below the element, succeeds only on an exact size with a style, and otherwise changes nothing |
| Engine.AdReplacer.TryMatch | website_template_complete.py:1377-1479 | a match is skipped exactly when its key was already replaced for this creative; otherwise it is tried; either way the pass and page become the next turn of the pass function |
| Engine.AdReplacer.TryMatches | website_template_complete.py:1375-1479 | the loop over a creative's matches computes the pass function over all of them, on the page it started from; the count is the number replaced; the screenshots are the successful captures that followed them |
| Engine.TurnFits | website_template_complete.py:1377-1479 | one turn skips exactly a key replaced earlier in the pass, replaces only at an exact size, and changes only what lies below its element |
| Engine.PassUpToFits | website_template_complete.py:1375-1479 | every prefix of a pass fits the layout, keeps document order and the skip rule, and keeps the layout |
| Engine.AttemptMeaning | website_template_complete.py:1377-1479 | each attempt of a pass is for its match, is skipped exactly when its key was replaced earlier, and is otherwise replaced exactly when the replacement on the element as the earlier turns left it succeeds |
| Engine.FirstAttempt | website_template_complete.py:1377-1479 | the first match is never skipped, and is replaced exactly when the replacement on the untouched page succeeds |
| Engine.PassUpToPrefix | website_template_complete.py:1375-1479 | a pass over more matches extends the pass over fewer |
| Engine.AdReplacer.ProcessCreative | website_template_complete.py:1355-1479 | the creative's pass and the page it leaves are the creative pass function: nothing for an unreadable image, otherwise the pass over the scan's matches; the screenshots are the successful captures |
| Engine.CreativePassFits | website_template_complete.py:1355-1479 | a creative's pass fits the layout, keeps it, and is empty when its image cannot be read |
| Engine.AdReplacer.RecordCreative | website_template_complete.py:1355-1479 | one more creative extends the record of the loop over creatives by its pass, its replacements and its screenshots |
| Engine.AdReplacer.ProcessCreatives | website_template_complete.py:1355-1479 | the loop over creatives runs them in order on the loaded page up to the one whose scan raises, and reports whether one raised |
| Engine.CreativesUpToFits | website_template_complete.py:1355-1479 | every pass of the creatives run so far fits its creative on the layout, and the layout is kept |
| Engine.AdReplacer.ProcessWebsite | website_template_complete.py:1313-1499 | the paths returned are the visit's paths; a page that fails to load changes nothing; otherwise the creatives are run in order up to a raising scan, and the total is the number of replacements |
| Engine.VisitDone | website_template_complete.py:1313-1499 | after a visit the layout is kept, every creative's pass fits it, and an unreadable creative has an empty pass |
| Engine.VisitPathsMeaning | website_template_complete.py:1313-1499 | no paths when the page fails to load or a scan raises; otherwise at most one path per replacement, and exactly one each when every capture succeeds |
| Engine.PagesMeaning | website_template_complete.py:1355-1479 | each recorded pass fits its creative, and an unreadable creative has an empty pass |
| Engine.SomesLength | website_template_complete.py:1420-1425 | at most one path per capture attempted, and one each when every capture succeeds |
| Engine.SessionStep | website_template_complete.py:1717-1750 | a processed URL adds one page to the record, and the session stops there exactly when that page has screenshots and the total reaches the target |
| Engine.DistinctPrefix | website_template_complete.py:1717-1730 | the URLs visited so far are a prefix of the distinct URLs |
| Engine.SessionPagesAt | website_template_complete.py:1717-1767 | the v-th page recorded is what the v-th visit's answers make `process_website` return |
| Engine.AdReplacer.RunSession | website_template_complete.py:1717-1767 | URLs are visited at most once, in order; the v-th page is what `process_website` returns on the v-th visit; the total is the sum of the pages' screenshots; the session stops early only after a page with screenshots that reaches the target |
| ImageManager.AllowedFileIsListed | src/image_manager_app.py:41-44 | the upload filter and the synchronisation filter accept the same names |
| ImageManager.ExtensionIff | src/image_manager_app.py:44 | the lowered text after the last dot is `e` exactly when the lowered name ends with a dot and `e` |
| ImageManager.ExtensionOf | src/image_manager_app.py:72 | the extension of a generated name holds no dot |
| ImageManager.GeneratedNameSize | src/image_manager_app.py:69-84 | the engine's size pattern reads back the upload's size from any generated name |
| ImageManager.GeneratedNameExtension | src/image_manager_app.py:69-84 | a generated name keeps the upload's lowered extension, or `jpg` when it has none |
| ImageManager.GeneratedNameAllowed | src/image_manager_app.py:69-84 | a generated name passes the upload filter exactly when the upload's name did |
| ImageManager.LoaderSeesUpload | src/image_manager_app.py:69-84 | the engine loads a stored upload, with its size and path, exactly when its extension is png, jpg or jpeg |
| ImageManager.SuffixedNameReused | src/image_manager_app.py:76-82 | the suffixed name is not checked again, so a third upload of one size with the same draw reuses the second name |
| ImageManager.CreativeExtensionIff | website_template_complete.py:411 | the engine's extension test on a generated name holds exactly for png, jpg and jpeg |
| ImageManager.Without | src/image_manager_app.py:145 | the filter keeps exactly the records whose name is not deleted |
| ImageManager.WithoutAppend | src/image_manager_app.py:145 | the filter keeps the order of the records |
| ImageManager.WithoutTwice | src/image_manager_app.py:145 | deleting twice is deleting once |
| ImageManager.DeleteImageRecord | src/image_manager_app.py:112-179 | success unless the file is corrupt; a missing file is a success that writes nothing; a blank file writes an empty list; otherwise the list written is the old one without the name |
| ImageManager.SaveImageRecord | src/image_manager_app.py:86-110 | the new record is appended after the existing ones; a missing or unreadable file starts a new list |
| ImageManager.SaveThenDelete | src/image_manager_app.py:86-179 | deleting a name right after saving a record under it writes back the old list without that name |
| ImageManager.NewRecords | src/image_manager_app.py:302-322 | one new record for each readable added file, and nothing else |
| ImageManager.SyncFiles | src/image_manager_app.py:273-339 | an unreadable list fails; otherwise records of vanished files are dropped in order, image files without a record are added, and the new records follow the kept ones |
| ImageManager.SyncResult | src/image_manager_app.py:293-322 | nothing is both dropped and added, every record left names an image file of the folder, and every readable new image file gets a record |
| ImageManager.GetStats | src/image_manager_app.py:360-388 | the loop computes the statistics: every record counted, sizes and histogram taken up to the first record that raises |
| ImageManager.TallyCount | src/image_manager_app.py:372-380 | the histogram's counts add up to the number of records tallied |
| ImageManager.TallyKeys | src/image_manager_app.py:372-380 | a size appears in the histogram exactly when some record has it |
| ImageManager.TallySize | src/image_manager_app.py:372-380 | the loop's size total is the sum of the records' sizes |
| ImageManager.StatsCorrect | src/image_manager_app.py:360-388 | the record count is the whole list; the histogram covers exactly the records before the first one that raises; the total size is the sum when none raises |
| ImageManager.ApiImages | src/image_manager_app.py:342-357 | the records sorted newest first, as a permutation of the stored list; nothing when the file cannot be read |
| ImageManager.StoreUpload | src/image_manager_app.py:201-260 | an unlisted extension is unsupported, an unreadable image is an error, anything else is stored under a name generated against the names taken so far |
| ImageManager.UploadImage | src/image_manager_app.py:186-270 | no file chosen is rejected; otherwise one result per named file, in order, each file's outcome decided against the folder and the names the earlier files of the same request took, with its own draw; success and error counts add up, and the folder gains exactly the stored names |
| ImageManager.SameRequestCollision | src/image_manager_app.py:69-84 | two files of one size in one request: the first takes the plain name, and the second sees it and is stored under a different name |
| ImageManager.UploadCounts | src/image_manager_app.py:201-260 | every named file adds one result and an unnamed one adds none |
| ConfigManager.LoadConfig | config_manager.py:16-40 | a readable file gives its settings; otherwise the fallback settings, which carry every key shown |
| ConfigManager.SaveConfig | config_manager.py:42-46 | the saved settings are the given ones stamped with the time |
| ConfigManager.DecideKind | config_manager.py:55-85 | an accepted line gives the default or a value of the prompt's kind |
| ConfigManager.DecideEmpty | config_manager.py:58-67 | an empty line gives the default when there is one, even at a required prompt; it asks again only when there is none and the prompt is required |
| ConfigManager.DecideNonEmpty | config_manager.py:79-85 | a line with text at a text prompt gives that text; at an int prompt it gives the number, or asks again when the text is not one |
| ConfigManager.DecideNumber | config_manager.py:79-83 | typing the decimal form of a number at an int prompt gives that number |
| ConfigManager.DecideWords | config_manager.py:69-76 | at a bool prompt the yes words give true, the no words give false, and other text asks again |
| ConfigManager.EmptyUrlKept | config_manager.py:127 | the required url prompt accepts an empty line when the stored url is the empty string |
| ConfigManager.AskFirst | config_manager.py:55-85 | the prompt loop returns the first accepted line's value after asking again at every line before it |
| ConfigManager.AskKind | config_manager.py:55-85 | what the prompt loop returns is the default or a value of the prompt's kind |
| ConfigManager.AskText | config_manager.py:55-85 | a text prompt that is not required answers the first line: its text, or the default when it is empty |
| ConfigManager.GetUserInput | config_manager.py:48-85 | the loop reads lines until one is accepted and returns what the prompt loop returns |
| ConfigManager.AskSetting | config_manager.py:127-186 | one settings question is the prompt loop with that setting's default, kind and requiredness, and its answer is the default or of that kind |
| ConfigManager.AskStyle | config_manager.py:161 | one question of the style loop gives the typed text, or the current style when the line is empty |
| ConfigManager.ChooseButtonStyle | config_manager.py:159-166 | the loop ends with no style exactly when the input runs out first; otherwise the style is one of the five names, given by the first valid answer, and every earlier answer was invalid; ENTER keeps a valid current style |
| ConfigManager.AskUntilStyle | config_manager.py:159-166 | the `while` loop computes the prompt loop with the style menu as its question |
| ConfigManager.StyleLoopMeaning | config_manager.py:159-166 | the prompt loop over the style menu gives no style only at the end of the input, and otherwise the first valid answer after invalid ones |
| ConfigManager.StyleFirstIsAsk | config_manager.py:159-166 | a valid answer after only invalid ones is what the prompt loop over the style menu returns |
| ConfigManager.YesNo | config_manager.py:147 | the default shown at a yes/no prompt is the string `y` or `n`, `y` exactly when the stored value is truthy |
| ConfigManager.InteractiveConfig | config_manager.py:86-186 | fails when showing the loaded settings raises (a shown key missing, or a truthy `last_updated` that is not a string); otherwise it gives answers exactly when the eleven questions asked in turn all get one, and then the answers are theirs, in order; every answer is the setting's default or of the question's kind, and the style is one of the five |
| ConfigManager.NumericStampRaises | config_manager.py:103-104 | settings stamped with a number cannot be shown unless the number is 0, while a time string can |
| ConfigManager.AskTuning | config_manager.py:159-186 | the six questions from the button style on, after the first five: answers exactly when all eleven in turn get one, and then those answers in order |
| ConfigManager.AskNext | config_manager.py:107-186 | one more question asked in turn: its answer extends the answers so far, and no answer means the questions as a whole give none |
| ConfigManager.AskTurnsStuck | config_manager.py:107-186 | once a question gets no answer, the later questions give none either |
| ConfigManager.AskTurnsPrefix | config_manager.py:107-186 | the answers to the first questions are a prefix of the answers to more of them |
| ConfigManager.QuestionsAt | config_manager.py:127-186 | the eleven questions, in order, with the defaults shown from the loaded settings |
| ConfigManager.ApplyAnswers | config_manager.py:127-186 | the returned settings have the loaded keys and the eleven setting keys, hold each answer under its own key, and keep the loaded value of every other key |
| ConfigManager.BuildCommand | config_manager.py:188-207 | fails exactly when one of the four settings is missing; the command starts with the interpreter, the script and the url option, then one pair per count that differs from the runner's default |
| ConfigManager.AssembleCommand | config_manager.py:188-207 | building the list with `extend`, one optional pair at a time, gives the command |
| Runner.Apply | src/ad_replacer_runner.py:189-196 | a pair in front is accepted exactly for the url or a valid int option, and never overrides a value given later |
| Runner.ParseArgsLastWins | src/ad_replacer_runner.py:189-196 | the last value given for an option is the one kept, and an invalid int value is an error |
| Runner.LoadConfigIfExists | src/ad_replacer_runner.py:165-185 | the settings are available exactly when the file exists and parses |
| Runner.FullscreenOf | src/ad_replacer_runner.py:213-216 | a string fullscreen setting is on exactly when it is one of the five yes strings; other values are used unchanged |
| Runner.MergePrecedence | src/ad_replacer_runner.py:207-222 | for screenshots, articles and screen a given option wins, except that without settings an explicit 0 falls back to the default, and a missing option takes the stored value or the default; a non-empty url option wins, otherwise the stored url is used, and without settings the url option as given |
| Runner.FullscreenStrings | src/ad_replacer_runner.py:213-216 | with settings, fullscreen is on exactly when it is unset, true, or a yes string; the stored `y` and `n` both turn it off |
| Runner.CreateConfigFile | src/ad_replacer_runner.py:14-26 | each of the ten values comes from the data when present, or else from its own default: empty url, 30 screenshots, 20 articles, style `cross`, 50 attempts, timeout 15, wait 3, 3 failures, fullscreen on, debug mode on |
| Runner.ConfigData | src/ad_replacer_runner.py:247-258 | the data handed on carries the merged url, counts and fullscreen, has no debug mode, and leaves the screen out |
| Runner.RunnerImagesMembers | src/ad_replacer_runner.py:118-120 | the counted names are exactly the listed names starting `img_` with a jpg, jpeg or png ending |
| Runner.CheckRequirements | src/ad_replacer_runner.py:101-139 | collects the counted names in listing order and passes exactly when there is one and the engine module exists |
| Runner.MainExit | src/ad_replacer_runner.py:187-302 | the run exits 0 exactly when it starts and the engine does not raise; it starts exactly when a url source exists, the merged url is truthy and the requirements hold; otherwise it exits 1 |
| Runner.NoUrlNoFile | src/ad_replacer_runner.py:202-204 | with no url option and no settings file the run exits 1 and writes nothing |
| Runner.MainWrites | src/ad_replacer_runner.py:247-259 | the written configuration has debug mode on and the merged url, counts and fullscreen |
| Pipeline.NoSizeWithoutX | website_template_complete.py:413 | a name without `x` declares no size |
| Pipeline.CountedButNotLoaded | src/ad_replacer_runner.py:118-120 | the runner counts `img_.jpg` as a replacement image, but the engine loads nothing from it |
| Pipeline.LoadedButNotCounted | website_template_complete.py:411-413 | the engine loads `google_<w>x<h>.png` with its size, but the runner does not count it |
| Pipeline.UploadCounted | src/ad_replacer_runner.py:118-120 | an uploaded image is counted by the runner exactly when its extension is png, jpg or jpeg, which is exactly when the engine loads it |
| Pipeline.ParseFront | src/ad_replacer_runner.py:189-196 | what argparse makes of a command line with one more pair in front |
| Pipeline.FlagStep | config_manager.py:196-205 | the option written for a count is read back as that number, and is absent when the count is the runner's default |
| Pipeline.CommandTail | config_manager.py:188-207 | after the interpreter and the script come the url option and the three optional count pairs, in order |
| Pipeline.CountFlagsParsed | config_manager.py:196-205 | the runner reads each count option back as its number, and a missing one as not given |
| Pipeline.CommandArgs | config_manager.py:188-207 | the runner parses the built command into the url and the three counts that differ from its defaults |
| Pipeline.CommandRoundTrip | config_manager.py:188-207 | running the built command against the same settings gives the runner the saved url and counts |
| Pipeline.EnterTurnsFullscreenOff | config_manager.py:147 | pressing ENTER at the fullscreen question stores `y` or `n`, which the runner reads as fullscreen off |

## Left out

- The screen manager, browser start-up and window placement are not modelled, and neither are scrolling, sleeps, `remove_fullscreen_ads` or `debug_page_ads`. They only move or inspect the browser window.
- Screenshots are not modelled: each capture is an answer from outside, a path or a failure.
- Engine.Visit: `decoded` is one answer for the whole visit. The source checks `img.complete && naturalWidth` separately for every image of every replacement (website_template_complete.py line 1138), so the model cannot give one image a decoded creative and another a failed one in the same visit.
- The `<style id="google_ad_styles">` element that the replacement script adds to the page head (website_template_complete.py lines 990-1068) is not modelled. The page has no head, so it stays after restore without being shown in the model.
- Engine.AdReplacer.ProcessWebsite: only two failures raise inside the method's `try`: loading the page and the scan for a creative. Other exceptions would also end the method with no screenshots, such as one from the restore script. They are not modelled, because the scripts never fail in the model.
- `load_image_base64` is not modelled: the text of each creative is an answer from outside, or a failure.
- `get_random_news_urls` is not modelled: the article URLs are a parameter of the session.
- The page is a flat list of elements in document order, each with what lies below it. A layout reflow after a replacement is not modelled. Elements nested in one another are not modelled as sharing parts either.
- Floating-point values of element geometry are modelled as reals.
- JSON floats and lists in the settings file and the records file are not modelled: a setting or record field is null, a boolean, an integer or a string. A field such as `"file_size": 1.5` has no representation.
- Web framework plumbing is not modelled: routes, templates and JSON rendering.
- Image decoding is not modelled (`get_image_info`): format, colour mode and aspect ratio are left out, and the size is an answer from outside, or none.
- JSON text and file I/O are not modelled: a records file or settings file is a value that is present, blank, corrupt or missing.
- ImageManager.DeleteImageRecord: the file lock and its retries are not modelled; the function is what happens once the lock is held.
- ImageManager.UploadImage: temporary files are not modelled, and neither are exceptions raised inside its `try` beyond an unreadable image.
- The `delete_image` route is not modelled, nor the removal of the file on disk; `format_file_size` and `format_datetime` are display helpers and are left out too.
- Records are assumed to carry a `filename`; one without it raises `KeyError` in the source, which is not modelled.
- Runner.ParseArgs: a simplified argparse. It does not model `--opt=value`, option abbreviations, values starting with `-`, `-h`, or positional arguments. An unknown option is an error.
- Strings.Strip: only the ASCII characters that Python's `strip()` removes are stripped: space, `\t` to `\r`, and `\x1c` to `\x1f`. Non-ASCII whitespace such as `\x85` or `\xa0` is kept.
- Strings.Lower: only ASCII letters are folded.
- Strings.ParseInt: underscores in digits and non-ASCII digits are not accepted.
- Strings.IsDigit: only the ASCII digits are digits. Python's `\d` in the size pattern of `load_replace_images` also matches other Unicode decimal digits, so a file name using them is not parsed as a size here.
- The configuration manager's main menu and the `subprocess` call are not modelled. The printing in `show_current_config` is not modelled either, only whether it raises.
- The text of `config.py` is modelled as a record of its values, not as literal file text.
- `clean_for_release.py` and `config/default_config.py` are not part of this model.

=== FILE: common.dfy ===
/** Shared vocabulary: optional values and the JSON scalars that the configuration
    tools read from and write to their settings files. */
module Common {

  datatype Option<+T> = None | Some(value: T)

  /** A JSON scalar as loaded by `json.load`; `Null` also stands for Python's `None`
      (the value `dict.get` yields for a missing key without a default). */
  datatype Value = Null | Bool(b: bool) | Int(i: int) | Str(s: string)

  /** Python truthiness (`if v:` / `v or w` / `not v`). */
  predicate Truthy(v: Value) {
    match v
    case Null => false
    case Bool(b) => b
    case Int(i) => i != 0
    case Str(s) => s != ""
  }

  /** Python's `v == n` for an int literal `n`; `True == 1` and `False == 0` hold in Python. */
  predicate EqualsInt(v: Value, n: int) {
    match v
    case Int(i) => i == n
    case Bool(b) => (if b then 1 else 0) == n
    case _ => false
  }

  /** The settings file `ad_replacer_config.json` that the configuration manager writes
      and the runner reads: missing, not valid JSON, or a JSON object. */
  datatype ConfigFile = Missing | Malformed | Loaded(settings: map<string, Value>)

  /** `d.get(key, default)` on a JSON object. */
  function Get(d: map<string, Value>, key: string, default: Value): Value {
    if key in d then d[key] else default
  }
}

=== FILE: config_manager.dfy ===
/** The interactive configuration manager (`config_manager.py`): how one line typed at a
    prompt is turned into a setting, the prompt loop around it, the button-style loop, the
    whole question sequence of `interactive_config`, and the command line `build_command`
    makes for the runner. Keyboard input is a sequence of lines; running out of lines is
    the end of input. */
module ConfigManager {
  import opened Common
  import opened Strings

  // ---------------------------------------------------------------- loading and saving

  /** The settings `load_config` falls back to when the file is missing or not JSON. */
  const Defaults: map<string, Value> := map[
    "url" := Str(""), "screenshots" := Int(30), "articles" := Int(20), "screen" := Int(1),
    "button_style" := Str("cross"), "max_attempts" := Int(50), "page_timeout" := Int(15),
    "wait_time" := Int(3), "max_failures" := Int(3), "fullscreen" := Bool(true),
    "debug_mode" := Bool(true), "last_updated" := Str("")]

  /** `load_config`. */
  function LoadConfig(file: ConfigFile): (config: map<string, Value>)
    ensures file.Loaded? ==> config == file.settings
    ensures !file.Loaded? ==> Showable(config) && config.Keys == SettingKeys + {"last_updated"}
  {
    if file.Loaded? then file.settings else Defaults
  }

  /** `save_config`: what is written, stamped with the time `now`. */
  function SaveConfig(config: map<string, Value>, now: string): (saved: map<string, Value>)
    ensures saved.Keys == config.Keys + {"last_updated"} && saved["last_updated"] == Str(now)
    ensures forall k :: k in config && k != "last_updated" ==> saved[k] == config[k]
  {
    config["last_updated" := Str(now)]
  }

  // ---------------------------------------------------------------- one line of input

  /** `input_type` of a prompt: `str`, `bool` or `int`. */
  datatype InputKind = Text | Boolean | Integer

  /** What the prompt loop does with one line: return a value or ask again. */
  datatype Decision = Accept(v: Value) | Reprompt

  const TrueWords: seq<string> := ["y", "yes", "是", "1", "true"]
  const FalseWords: seq<string> := ["n", "no", "否", "0", "false"]

  /** One pass of the loop of `get_user_input`: the line is stripped; an empty line gives
      the default when there is one, asks again when the prompt is required, and otherwise
      gives the (absent) default; any other line is read as the prompt's kind. */
  function Decide(line: string, default: Value, kind: InputKind, required: bool): Decision {
    var s := Strip(line);
    if s == "" && default != Null then Accept(default)
    else if s == "" && required then Reprompt
    else if s == "" then Accept(default)
    else Typed(s, kind)
  }

  /** A stripped, non-empty line read as the prompt's kind: a bool prompt takes the yes and
      no words, case folded; an int prompt takes a decimal integer; a text prompt takes the
      line. */
  function Typed(s: string, kind: InputKind): Decision {
    match kind
    case Boolean => BoolWord(Lower(s))
    case Integer => (if ParseInt(s).Some? then Accept(Int(ParseInt(s).value)) else Reprompt)
    case Text => Accept(Str(s))
  }

  /** The answer of a bool prompt to a lowered word. */
  function BoolWord(word: string): Decision {
    if word in TrueWords then Accept(Bool(true))
    else if word in FalseWords then Accept(Bool(false))
    else Reprompt
  }

  /** A value the prompt can produce of its own kind. */
  predicate OfKind(v: Value, kind: InputKind) {
    match kind
    case Text => v.Str? && v.s != ""
    case Boolean => v.Bool?
    case Integer => v.Int?
  }

  /** Whatever a line gives is the default or a value of the prompt's kind; in particular
      a bool or int prompt can return the default unchanged, whatever its type. */
  lemma DecideKind(line: string, default: Value, kind: InputKind, required: bool)
    ensures Decide(line, default, kind, required).Accept? ==>
      var v := Decide(line, default, kind, required).v;
      v == default || OfKind(v, kind)
  {
  }

  /** An empty (or blank) line: the default when there is one, even for a required prompt;
      a new prompt only when the prompt is required and has no default. */
  lemma DecideEmpty(line: string, default: Value, kind: InputKind, required: bool)
    requires forall i :: 0 <= i < |line| ==> IsSpace(line[i])
    ensures Decide(line, default, kind, required) ==
      if default == Null && required then Reprompt else Accept(default)
  {
  }

  /** A line with text is never answered with the default of a text or int prompt: it is
      the text, the number, or a new prompt. */
  lemma DecideNonEmpty(line: string, default: Value, kind: InputKind, required: bool)
    requires exists i :: 0 <= i < |line| && !IsSpace(line[i])
    requires kind != Boolean
    ensures Decide(line, default, kind, required) ==
      if kind == Text then Accept(Str(Strip(line)))
      else if ParseInt(Strip(line)).Some? then Accept(Int(ParseInt(Strip(line)).value))
      else Reprompt
  {
  }

  lemma StripPlain(s: string)
    requires forall i :: 0 <= i < |s| ==> !IsSpace(s[i])
    ensures Strip(s) == s
  {
    assert s == [] || !IsSpace(s[0]);
    assert TrimLeft(s) == s;
    assert s == [] || !IsSpace(s[|s| - 1]);
  }

  /** `str(i)` has nothing for `strip()` to remove. */
  lemma DecimalStripped(i: int)
    ensures Strip(IntToDecimal(i)) == IntToDecimal(i) != ""
  {
    var s := IntToDecimal(i);
    var digits := NatToDecimal(if i < 0 then -i else i);
    assert forall j :: 0 <= j < |digits| ==> IsDigit(digits[j]);
    forall j | 0 <= j < |s| ensures !IsSpace(s[j]) {
      if i < 0 && j > 0 {
        assert s[j] == digits[j - 1];
      }
    }
    StripPlain(s);
  }

  /** Typing the decimal form of a number at an int prompt gives that number. */
  lemma DecideNumber(i: int, default: Value, required: bool)
    ensures Decide(IntToDecimal(i), default, Integer, required) == Accept(Int(i))
  {
    DecimalStripped(i);
    IntDecimalRoundTrip(i);
  }

  /** No word is both a yes word and a no word. */
  lemma WordsDisjoint(word: string)
    requires word in FalseWords
    ensures word !in TrueWords
  {
    var k :| 0 <= k < |FalseWords| && FalseWords[k] == word;
    assert word[0] in {'n', '否', '0', 'f'};
  }

  /** The word lists of a bool prompt share no word, so every yes word gives True and
      every no word False, in any letter case. */
  lemma DecideWords(line: string, default: Value, required: bool)
    requires Strip(line) != ""
    ensures Lower(Strip(line)) in TrueWords ==> Decide(line, default, Boolean, required) == Accept(Bool(true))
    ensures Lower(Strip(line)) in FalseWords ==> Decide(line, default, Boolean, required) == Accept(Bool(false))
    ensures Lower(Strip(line)) !in TrueWords + FalseWords ==> Decide(line, default, Boolean, required) == Reprompt
  {
    var word := Lower(Strip(line));
    assert Decide(line, default, Boolean, required) == BoolWord(word);
    if word in FalseWords {
      WordsDisjoint(word);
    }
  }

  /** The url prompt is required, but the stored url it shows as its default is a string,
      never `None`: pressing ENTER keeps an empty url. */
  lemma EmptyUrlKept(line: string)
    requires forall i :: 0 <= i < |line| ==> IsSpace(line[i])
    ensures Decide(line, Str(""), Text, true) == Accept(Str(""))
  {
  }

  // ---------------------------------------------------------------- the prompt loop

  /** The decision of one prompt, as a function of the line typed. */
  function Prompt(default: Value, kind: InputKind, required: bool): string -> Decision {
    line => Decide(line, default, kind, required)
  }

  /** The prompt loop read from line `pos` on, for any per-line decision: the value of the
      first accepted line and the index after it, or `None` and the end of the input. */
  function Ask(lines: seq<string>, pos: nat, decide: string -> Decision): (r: (Option<Value>, nat))
    requires pos <= |lines|
    ensures pos <= r.1 <= |lines|
    ensures r.0.Some? ==> pos < r.1
    decreases |lines| - pos
  {
    if pos == |lines| then (None, pos)
    else if decide(lines[pos]).Accept? then (Some(decide(lines[pos]).v), pos + 1)
    else Ask(lines, pos + 1, decide)
  }

  /** Every line before the one accepted asked again and the accepted one gave the answer;
      without an answer, every line asked again. */
  lemma {:induction false} AskFirst(lines: seq<string>, pos: nat, decide: string -> Decision)
    requires pos <= |lines|
    ensures var r := Ask(lines, pos, decide);
      && (r.0.Some? ==> decide(lines[r.1 - 1]) == Accept(r.0.value))
      && (r.0.None? ==> r.1 == |lines|)
      && forall j :: pos <= j < (if r.0.Some? then r.1 - 1 else |lines|) ==> decide(lines[j]).Reprompt?
    decreases |lines| - pos
  {
    if pos < |lines| && decide(lines[pos]).Reprompt? {
      AskFirst(lines, pos + 1, decide);
    }
  }

  /** What the prompt loop returns is the default or a value of the prompt's kind. */
  lemma {:induction false} AskKind(lines: seq<string>, pos: nat, default: Value, kind: InputKind, required: bool)
    requires pos <= |lines|
    ensures var r := Ask(lines, pos, Prompt(default, kind, required));
      r.0.Some? ==> AnswerOf(r.0.value, default, kind)
    decreases |lines| - pos
  {
    if pos < |lines| {
      var d := Decide(lines[pos], default, kind, required);
      assert Prompt(default, kind, required)(lines[pos]) == d;
      if d.Reprompt? {
        AskKind(lines, pos + 1, default, kind, required);
      } else {
        DecideKind(lines[pos], default, kind, required);
      }
    }
  }

  /** At a text prompt that is not required, the loop answers the first line: an empty
      line gives the default and any other its stripped text. */
  lemma AskText(lines: seq<string>, pos: nat, default: Value)
    requires pos < |lines|
    ensures Ask(lines, pos, Prompt(default, Text, false)) ==
      (Some(if Strip(lines[pos]) == "" then default else Str(Strip(lines[pos]))), pos + 1)
  {
  }

  /** `get_user_input`: reads lines from `pos` on until one is accepted. `None` means the
      input ended first (`input()` raises `EOFError`). `next` is the first line not read. */
  method GetUserInput(lines: seq<string>, pos: nat, default: Value, kind: InputKind, required: bool)
    returns (answer: Option<Value>, next: nat)
    requires pos <= |lines|
    ensures (answer, next) == Ask(lines, pos, Prompt(default, kind, required))
    ensures answer.Some? ==> AnswerOf(answer.value, default, kind)
  {
    var decide := Prompt(default, kind, required);
    AskKind(lines, pos, default, kind, required);
    next := pos;
    while next < |lines|
      invariant pos <= next <= |lines|
      invariant Ask(lines, next, decide) == Ask(lines, pos, decide)
    {
      var decision := decide(lines[next]);
      next := next + 1;
      if decision.Accept? {
        return Some(decision.v), next;
      }
    }
    return None, next;
  }

  // ---------------------------------------------------------------- button style

  const ButtonStyles: set<Value> :=
    {Str("cross"), Str("dots"), Str("adchoices"), Str("adchoices_dots"), Str("none")}

  /** What one line answers at the style prompt: the current style for an empty line,
      the stripped text otherwise. */
  function StyleAnswer(current: Value, line: string): Value {
    if Strip(line) == "" then current else Str(Strip(line))
  }

  /** The button-style loop as one prompt: a line is accepted when its answer is one of
      the five styles. */
  function StyleChoice(current: Value): string -> Decision {
    line => if StyleAnswer(current, line) in ButtonStyles then Accept(StyleAnswer(current, line)) else Reprompt
  }

  /** One question of the button-style loop: a text prompt that is not required, so the
      next line always answers it. */
  method AskStyle(current: Value, lines: seq<string>, pos: nat) returns (answer: Value, next: nat)
    requires pos < |lines|
    ensures answer == StyleAnswer(current, lines[pos])
    ensures next == pos + 1
  {
    var reply;
    reply, next := GetUserInput(lines, pos, current, Text, false);
    AskText(lines, pos, current);
    answer := reply.value;
  }

  /** The button-style loop of `interactive_config`: asks with the current style as the
      default until the answer is one of the five styles. */
  method ChooseButtonStyle(current: Value, lines: seq<string>, pos: nat)
    returns (style: Option<Value>, next: nat)
    requires pos <= |lines|
    ensures (style, next) == Ask(lines, pos, StyleChoice(current))
    ensures style.None? ==> next == |lines|
    ensures style.Some? ==> pos < next && style == Some(StyleAnswer(current, lines[next - 1]))
    ensures style.Some? ==> style.value in ButtonStyles
    ensures forall j :: pos <= j < (if style.Some? then next - 1 else |lines|) ==>
      StyleAnswer(current, lines[j]) !in ButtonStyles
    ensures pos < |lines| && Strip(lines[pos]) == "" && current in ButtonStyles ==>
              style == Some(current) && next == pos + 1
  {
    style, next := AskUntilStyle(current, lines, pos);
    StyleLoopMeaning(current, lines, pos, style, next);
    if pos < |lines| {
      ChoiceLine(current, lines[pos]);
    }
  }

  /** The loop itself: one `AskStyle` per line until an answer is one of the styles. */
  method AskUntilStyle(current: Value, lines: seq<string>, pos: nat)
    returns (style: Option<Value>, next: nat)
    requires pos <= |lines|
    ensures (style, next) == Ask(lines, pos, StyleChoice(current))
  {
    next, style := pos, None;
    while next < |lines| && style.None?
      invariant pos <= next <= |lines|
      invariant style.Some? ==> pos < next && style == Some(StyleAnswer(current, lines[next - 1]))
      invariant style.Some? ==> style.value in ButtonStyles
      invariant forall j :: pos <= j < (if style.Some? then next - 1 else next) ==>
        StyleAnswer(current, lines[j]) !in ButtonStyles
      decreases |lines| - next
    {
      var answer, after := AskStyle(current, lines, next);
      next := after;
      if answer in ButtonStyles {
        style := Some(answer);
      }
    }
    StyleFirstIsAsk(current, lines, pos, style, next);
  }

  /** The style loop stops at the first line whose answer is one of the five styles, and
      runs to the end of the input when there is none. */
  lemma StyleLoopMeaning(current: Value, lines: seq<string>, pos: nat, style: Option<Value>, next: nat)
    requires pos <= |lines| && (style, next) == Ask(lines, pos, StyleChoice(current))
    ensures style.None? ==> next == |lines|
    ensures style.Some? ==>
      pos < next && style.value == StyleAnswer(current, lines[next - 1]) && style.value in ButtonStyles
    ensures forall j :: pos <= j < (if style.Some? then next - 1 else |lines|) ==>
      StyleAnswer(current, lines[j]) !in ButtonStyles
  {
    var choice := StyleChoice(current);
    AskFirst(lines, pos, choice);
    forall j | pos <= j < (if style.Some? then next - 1 else |lines|)
      ensures StyleAnswer(current, lines[j]) !in ButtonStyles
    {
      assert choice(lines[j]).Reprompt?;
      ChoiceRejects(current, lines[j]);
    }
    if style.Some? {
      assert choice(lines[next - 1]) == Accept(style.value);
      ChoiceAccepts(current, lines[next - 1], style.value);
    }
  }

  /** Conversely, the first line whose answer is a style, or the end of the input when
      there is none, is where the style prompt stops. */
  lemma {:induction false} StyleFirstIsAsk(current: Value, lines: seq<string>, pos: nat,
                                           style: Option<Value>, next: nat)
    requires pos <= next <= |lines|
    requires style.None? ==> next == |lines|
    requires style.Some? ==> pos < next && style == Some(StyleAnswer(current, lines[next - 1]))
    requires style.Some? ==> style.value in ButtonStyles
    requires forall j :: pos <= j < (if style.Some? then next - 1 else |lines|) ==>
      StyleAnswer(current, lines[j]) !in ButtonStyles
    ensures (style, next) == Ask(lines, pos, StyleChoice(current))
    decreases |lines| - pos
  {
    if pos < |lines| {
      ChoiceLine(current, lines[pos]);
      if !(style.Some? && next == pos + 1) {
        StyleFirstIsAsk(current, lines, pos + 1, style, next);
      }
    }
  }

  /** A line the style prompt accepts answers one of the five styles. */
  lemma ChoiceAccepts(current: Value, line: string, v: Value)
    requires StyleChoice(current)(line) == Accept(v)
    ensures v == StyleAnswer(current, line) && v in ButtonStyles
  {
  }

  /** A line the style prompt asks again after answers none of the five styles. */
  lemma ChoiceRejects(current: Value, line: string)
    requires StyleChoice(current)(line).Reprompt?
    ensures StyleAnswer(current, line) !in ButtonStyles
  {
  }

  /** What the style prompt does with one line. */
  lemma ChoiceLine(current: Value, line: string)
    ensures StyleChoice(current)(line) ==
      if StyleAnswer(current, line) in ButtonStyles then Accept(StyleAnswer(current, line)) else Reprompt
  {
  }

  // ---------------------------------------------------------------- the question sequence

  /** The answers `interactive_config` collects, one per setting it asks for. */
  datatype Answers = Answers(
    url: Value, screenshots: Value, articles: Value, screen: Value, fullscreen: Value,
    buttonStyle: Value, maxAttempts: Value, pageTimeout: Value, waitTime: Value,
    maxFailures: Value, debugMode: Value)

  /** `show_current_config` runs without raising: it reads five keys with `config[...]`,
      so a loaded file without one of them raises `KeyError`, and it slices a truthy
      `last_updated`, so a number or `true` there raises `TypeError`; either happens
      before the first question. */
  predicate Showable(config: map<string, Value>) {
    "url" in config && "screenshots" in config && "articles" in config &&
    "screen" in config && "last_updated" in config &&
    (Truthy(config["last_updated"]) ==> config["last_updated"].Str?)
  }

  /** A settings file stamped with a number instead of a time string cannot be shown,
      unless the number is 0, which is falsy and is not sliced. */
  lemma NumericStampRaises(config: map<string, Value>, n: int)
    requires "url" in config && "screenshots" in config && "articles" in config && "screen" in config
    ensures Showable(config["last_updated" := Int(n)]) <==> n == 0
    ensures Showable(config["last_updated" := Str("2024-01-01T00:00:00")])
  {
  }

  /** The default shown at a yes/no prompt: the string `y` or `n`, not a bool. */
  function YesNo(v: Value): (r: Value)
    ensures r == Str("y") || r == Str("n")
    ensures r == Str("y") <==> Truthy(v)
  {
    if Truthy(v) then Str("y") else Str("n")
  }

  /** One answer of the sequence: a value of the prompt's kind, or its default. */
  predicate AnswerOf(v: Value, default: Value, kind: InputKind) {
    v == default || OfKind(v, kind)
  }

  /** One question of the sequence: what `GetUserInput` promises about its answer, without
      the prompt loop behind it. */
  method AskSetting(lines: seq<string>, pos: nat, default: Value, kind: InputKind, required: bool)
    returns (answer: Option<Value>, next: nat)
    requires pos <= |lines|
    ensures (answer, next) == Ask(lines, pos, Prompt(default, kind, required))
    ensures answer.Some? ==> AnswerOf(answer.value, default, kind)
  {
    answer, next := GetUserInput(lines, pos, default, kind, required);
  }

  /** A question of `interactive_config`: a `get_user_input` prompt, or the button-style
      prompt. */
  datatype Question = Input(default: Value, kind: InputKind, required: bool) | StyleMenu(current: Value)

  /** How a question decides on each line typed. */
  function Decider(q: Question): string -> Decision {
    match q
    case Input(default, kind, required) => Prompt(default, kind, required)
    case StyleMenu(current) => StyleChoice(current)
  }

  /** The eleven questions of `interactive_config`, in order, each with the default it
      shows. */
  function Questions(config: map<string, Value>): (qs: seq<Question>)
    requires Showable(config)
    ensures |qs| == 11
  {
    [Input(config["url"], Text, true),
     Input(config["screenshots"], Integer, false),
     Input(config["articles"], Integer, false),
     Input(config["screen"], Integer, false),
     Input(YesNo(Get(config, "fullscreen", Bool(true))), Boolean, false),
     StyleMenu(Get(config, "button_style", Str("cross"))),
     Input(Get(config, "max_attempts", Int(50)), Integer, false),
     Input(Get(config, "page_timeout", Int(15)), Integer, false),
     Input(Get(config, "wait_time", Int(3)), Integer, false),
     Input(Get(config, "max_failures", Int(3)), Integer, false),
     Input(YesNo(Get(config, "debug_mode", Bool(false))), Boolean, false)]
  }

  /** Each question of the sequence in turn. */
  lemma QuestionsAt(config: map<string, Value>)
    requires Showable(config)
    ensures var qs := Questions(config);
      && qs[0] == Input(config["url"], Text, true)
      && qs[1] == Input(config["screenshots"], Integer, false)
      && qs[2] == Input(config["articles"], Integer, false)
      && qs[3] == Input(config["screen"], Integer, false)
      && qs[4] == Input(YesNo(Get(config, "fullscreen", Bool(true))), Boolean, false)
      && qs[5] == StyleMenu(Get(config, "button_style", Str("cross")))
      && qs[6] == Input(Get(config, "max_attempts", Int(50)), Integer, false)
      && qs[7] == Input(Get(config, "page_timeout", Int(15)), Integer, false)
      && qs[8] == Input(Get(config, "wait_time", Int(3)), Integer, false)
      && qs[9] == Input(Get(config, "max_failures", Int(3)), Integer, false)
      && qs[10] == Input(YesNo(Get(config, "debug_mode", Bool(false))), Boolean, false)
  {
  }

  /** The answers in the order the questions are asked, one appended per question. */
  function Fields(a: Answers): seq<Value> {
    [] + [a.url] + [a.screenshots] + [a.articles] + [a.screen] + [a.fullscreen] + [a.buttonStyle]
    + [a.maxAttempts] + [a.pageTimeout] + [a.waitTime] + [a.maxFailures] + [a.debugMode]
  }

  /** The first `n` questions of `qs` asked in turn from the first line, each reading on
      from where the last one stopped: their answers and the first line not read, or
      `None` once the input ends before an answer. */
  function AskTurns(lines: seq<string>, qs: seq<Question>, n: nat): (r: (Option<seq<Value>>, nat))
    requires n <= |qs|
    ensures r.1 <= |lines|
    ensures r.0.Some? ==> |r.0.value| == n
  {
    if n == 0 then (Some([]), 0)
    else
      var prev := AskTurns(lines, qs, n - 1);
      if prev.0.None? then prev
      else
        var (answer, next) := Ask(lines, prev.1, Decider(qs[n - 1]));
        if answer.None? then (None, next) else (Some(prev.0.value + [answer.value]), next)
  }

  /** Once the input has ended, no later question is answered. */
  lemma {:induction false} AskTurnsStuck(lines: seq<string>, qs: seq<Question>, k: nat, n: nat)
    requires k <= n <= |qs|
    requires AskTurns(lines, qs, k).0.None?
    ensures AskTurns(lines, qs, n).0.None?
    decreases n
  {
    if k < n {
      AskTurnsStuck(lines, qs, k, n - 1);
    }
  }

  /** Question `k` answered, its answer follows the earlier ones. */
  lemma {:induction false} AskTurnsPrefix(lines: seq<string>, qs: seq<Question>, k: nat, n: nat)
    requires k <= n <= |qs|
    requires AskTurns(lines, qs, n).0.Some?
    ensures AskTurns(lines, qs, k).0.Some?
    ensures AskTurns(lines, qs, k).0.value == AskTurns(lines, qs, n).0.value[..k]
    decreases n
  {
    if k < n {
      AskTurnsPrefix(lines, qs, k, n - 1);
      var prev := AskTurns(lines, qs, n - 1).0.value;
      assert AskTurns(lines, qs, n).0.value[..n - 1] == prev;
    }
  }

  /** `interactive_config`: the eleven questions in order, each reading on from where the
      last stopped. `None` when the loaded settings lack a key read with `config[...]` or
      the input ends before the last answer. */
  method InteractiveConfig(file: ConfigFile, lines: seq<string>) returns (answers: Option<Answers>)
    ensures !Showable(LoadConfig(file)) ==> answers.None?
    ensures var config := LoadConfig(file);
      Showable(config) ==> (answers.Some? <==> AskTurns(lines, Questions(config), 11).0.Some?)
    ensures var config := LoadConfig(file);
      answers.Some? ==>
        Showable(config) && AskTurns(lines, Questions(config), 11).0 == Some(Fields(answers.value))
    ensures answers.Some? ==>
      var config := LoadConfig(file);
      var a := answers.value;
      && AnswerOf(a.url, config["url"], Text)
      && AnswerOf(a.screenshots, config["screenshots"], Integer)
      && AnswerOf(a.articles, config["articles"], Integer)
      && AnswerOf(a.screen, config["screen"], Integer)
      && AnswerOf(a.fullscreen, YesNo(Get(config, "fullscreen", Bool(true))), Boolean)
      && a.buttonStyle in ButtonStyles
      && AnswerOf(a.maxAttempts, Get(config, "max_attempts", Int(50)), Integer)
      && AnswerOf(a.pageTimeout, Get(config, "page_timeout", Int(15)), Integer)
      && AnswerOf(a.waitTime, Get(config, "wait_time", Int(3)), Integer)
      && AnswerOf(a.maxFailures, Get(config, "max_failures", Int(3)), Integer)
      && AnswerOf(a.debugMode, YesNo(Get(config, "debug_mode", Bool(false))), Boolean)
  {
    var config := LoadConfig(file);
    if !Showable(config) {
      return None;
    }
    ghost var qs := Questions(config);
    QuestionsAt(config);
    ghost var given: seq<Value> := [];
    var pos := 0;
    var url, screenshots, articles, screen, fullscreen;
    url, pos := AskNext(lines, qs, 0, Input(config["url"], Text, true), pos, given);
    if url.None? { AskTurnsStuck(lines, qs, 1, 11); return None; }
    given := given + [url.value];
    screenshots, pos := AskNext(lines, qs, 1, Input(config["screenshots"], Integer, false), pos, given);
    if screenshots.None? { AskTurnsStuck(lines, qs, 2, 11); return None; }
    given := given + [screenshots.value];
    articles, pos := AskNext(lines, qs, 2, Input(config["articles"], Integer, false), pos, given);
    if articles.None? { AskTurnsStuck(lines, qs, 3, 11); return None; }
    given := given + [articles.value];
    screen, pos := AskNext(lines, qs, 3, Input(config["screen"], Integer, false), pos, given);
    if screen.None? { AskTurnsStuck(lines, qs, 4, 11); return None; }
    given := given + [screen.value];
    fullscreen, pos :=
      AskNext(lines, qs, 4, Input(YesNo(Get(config, "fullscreen", Bool(true))), Boolean, false), pos, given);
    if fullscreen.None? { AskTurnsStuck(lines, qs, 5, 11); return None; }
    given := given + [fullscreen.value];
    answers := AskTuning(lines, config, qs, pos, given,
                         url.value, screenshots.value, articles.value, screen.value, fullscreen.value);
  }

  /** The last six questions of `interactive_config`, from the button style on, asked once
      the first five were answered with `url` … `fullscreen`: the complete answers, or `None`
      when the input ends first. */
  method AskTuning(lines: seq<string>, config: map<string, Value>, ghost qs: seq<Question>, pos: nat,
                   ghost given: seq<Value>, url: Value, screenshots: Value, articles: Value, screen: Value,
                   fullscreen: Value)
    returns (answers: Option<Answers>)
    requires Showable(config) && qs == Questions(config)
    requires AskTurns(lines, qs, 5) == (Some(given), pos)
    requires given == [] + [url] + [screenshots] + [articles] + [screen] + [fullscreen]
    ensures answers.Some? <==> AskTurns(lines, qs, 11).0.Some?
    ensures answers.Some? ==> AskTurns(lines, qs, 11).0 == Some(Fields(answers.value))
    ensures answers.Some? ==>
      var a := answers.value;
      && a.url == url && a.screenshots == screenshots && a.articles == articles
      && a.screen == screen && a.fullscreen == fullscreen
      && a.buttonStyle in ButtonStyles
      && AnswerOf(a.maxAttempts, Get(config, "max_attempts", Int(50)), Integer)
      && AnswerOf(a.pageTimeout, Get(config, "page_timeout", Int(15)), Integer)
      && AnswerOf(a.waitTime, Get(config, "wait_time", Int(3)), Integer)
      && AnswerOf(a.maxFailures, Get(config, "max_failures", Int(3)), Integer)
      && AnswerOf(a.debugMode, YesNo(Get(config, "debug_mode", Bool(false))), Boolean)
  {
    QuestionsAt(config);
    ghost var given := given;
    var pos := pos;
    var style;
    style, pos := AskNext(lines, qs, 5, StyleMenu(Get(config, "button_style", Str("cross"))), pos, given);
    if style.None? { AskTurnsStuck(lines, qs, 6, 11); return None; }
    given := given + [style.value];
    var maxAttempts, pageTimeout, waitTime, maxFailures, debugMode;
    maxAttempts, pos :=
      AskNext(lines, qs, 6, Input(Get(config, "max_attempts", Int(50)), Integer, false), pos, given);
    if maxAttempts.None? { AskTurnsStuck(lines, qs, 7, 11); return None; }
    given := given + [maxAttempts.value];
    pageTimeout, pos :=
      AskNext(lines, qs, 7, Input(Get(config, "page_timeout", Int(15)), Integer, false), pos, given);
    if pageTimeout.None? { AskTurnsStuck(lines, qs, 8, 11); return None; }
    given := given + [pageTimeout.value];
    waitTime, pos := AskNext(lines, qs, 8, Input(Get(config, "wait_time", Int(3)), Integer, false), pos, given);
    if waitTime.None? { AskTurnsStuck(lines, qs, 9, 11); return None; }
    given := given + [waitTime.value];
    maxFailures, pos :=
      AskNext(lines, qs, 9, Input(Get(config, "max_failures", Int(3)), Integer, false), pos, given);
    if maxFailures.None? { AskTurnsStuck(lines, qs, 10, 11); return None; }
    given := given + [maxFailures.value];
    debugMode, pos :=
      AskNext(lines, qs, 10, Input(YesNo(Get(config, "debug_mode", Bool(false))), Boolean, false), pos, given);
    if debugMode.None? { return None; }
    answers := Some(Answers(url, screenshots, articles, screen, fullscreen,
                            style.value, maxAttempts.value, pageTimeout.value, waitTime.value,
                            maxFailures.value, debugMode.value));
  }

  /** Question `k` of the sequence, read from where question `k - 1` stopped: through
      `get_user_input`, or through the button-style loop. */
  method AskNext(lines: seq<string>, ghost qs: seq<Question>, ghost k: nat, q: Question, pos: nat,
                 ghost given: seq<Value>)
    returns (answer: Option<Value>, next: nat)
    requires k < |qs| && qs[k] == q && AskTurns(lines, qs, k) == (Some(given), pos)
    ensures (answer, next) == Ask(lines, pos, Decider(q))
    ensures answer.Some? ==> AskTurns(lines, qs, k + 1) == (Some(given + [answer.value]), next)
    ensures answer.None? ==> AskTurns(lines, qs, k + 1).0.None?
    ensures answer.Some? && q.Input? ==> AnswerOf(answer.value, q.default, q.kind)
    ensures answer.Some? && q.StyleMenu? ==> answer.value in ButtonStyles
  {
    match q {
      case Input(default, kind, required) =>
        answer, next := AskSetting(lines, pos, default, kind, required);
      case StyleMenu(current) =>
        answer, next := ChooseButtonStyle(current, lines, pos);
    }
  }

  /** The settings `interactive_config` returns: the loaded ones with every answer stored
      under its key. */
  function ApplyAnswers(config: map<string, Value>, a: Answers): (updated: map<string, Value>)
    ensures updated.Keys == config.Keys + SettingKeys
    ensures updated["url"] == a.url && updated["screenshots"] == a.screenshots
    ensures updated["articles"] == a.articles && updated["screen"] == a.screen
    ensures updated["fullscreen"] == a.fullscreen && updated["debug_mode"] == a.debugMode
    ensures updated["button_style"] == a.buttonStyle && updated["max_attempts"] == a.maxAttempts
    ensures updated["page_timeout"] == a.pageTimeout && updated["wait_time"] == a.waitTime
    ensures updated["max_failures"] == a.maxFailures
    ensures forall k :: k in config && k !in SettingKeys ==> updated[k] == config[k]
  {
    config["url" := a.url]["screenshots" := a.screenshots]["articles" := a.articles]
          ["screen" := a.screen]["fullscreen" := a.fullscreen]["button_style" := a.buttonStyle]
          ["max_attempts" := a.maxAttempts]["page_timeout" := a.pageTimeout]
          ["wait_time" := a.waitTime]["max_failures" := a.maxFailures]["debug_mode" := a.debugMode]
  }

  const SettingKeys: set<string> := {"url", "screenshots", "articles", "screen", "fullscreen",
    "button_style", "max_attempts", "page_timeout", "wait_time", "max_failures", "debug_mode"}

  // ---------------------------------------------------------------- the runner's command line

  /** `--name value` when the setting differs from the runner's own default, nothing
      otherwise. */
  function Flag(name: string, v: Value, default: int): seq<Value> {
    if EqualsInt(v, default) then [] else [Str(name), Str(Show(v))]
  }

  /** `build_command`; `None` for the `KeyError` of a missing setting. */
  function BuildCommand(config: map<string, Value>): (cmd: Option<seq<Value>>)
    ensures cmd.None? <==> !("url" in config && "screenshots" in config && "articles" in config && "screen" in config)
    ensures cmd.Some? ==> |cmd.value| >= 4 && cmd.value[..4] == [Str("python"), Str("ad_replacer_runner.py"), Str("--url"), config["url"]]
    ensures cmd.Some? ==> |cmd.value| == 4 + 2 * (|Changed(config)|)
  {
    if "url" in config && "screenshots" in config && "articles" in config && "screen" in config then
      Some([Str("python"), Str("ad_replacer_runner.py"), Str("--url"), config["url"]]
           + Flag("--screenshots", config["screenshots"], 10)
           + Flag("--articles", config["articles"], 20)
           + Flag("--screen", config["screen"], 1))
    else None
  }

  /** `build_command` as written: the list is grown with `extend`, one optional pair at a
      time. */
  method AssembleCommand(config: map<string, Value>) returns (cmd: Option<seq<Value>>)
    ensures cmd == BuildCommand(config)
  {
    if !("url" in config && "screenshots" in config && "articles" in config && "screen" in config) {
      return None;
    }
    var c: seq<Value> := [Str("python"), Str("ad_replacer_runner.py")];
    c := c + [Str("--url"), config["url"]];
    ghost var built := [Str("python"), Str("ad_replacer_runner.py"), Str("--url"), config["url"]];
    assert c == built;
    if !EqualsInt(config["screenshots"], 10) {
      c := c + [Str("--screenshots"), Str(Show(config["screenshots"]))];
    }
    built := built + Flag("--screenshots", config["screenshots"], 10);
    assert c == built;
    if !EqualsInt(config["articles"], 20) {
      c := c + [Str("--articles"), Str(Show(config["articles"]))];
    }
    built := built + Flag("--articles", config["articles"], 20);
    assert c == built;
    if !EqualsInt(config["screen"], 1) {
      c := c + [Str("--screen"), Str(Show(config["screen"]))];
    }
    built := built + Flag("--screen", config["screen"], 1);
    assert c == built;
    cmd := Some(c);
  }

  /** The settings of the three that differ from the runner's defaults. */
  function Changed(config: map<string, Value>): set<string>
    requires "screenshots" in config && "articles" in config && "screen" in config
  {
    (if EqualsInt(config["screenshots"], 10) then {} else {"screenshots"}) +
    (if EqualsInt(config["articles"], 20) then {} else {"articles"}) +
    (if EqualsInt(config["screen"], 1) then {} else {"screen"})
  }
}

=== FILE: dom.dfy ===
/** The part of the page one replacement touches: the matched element ("container") with
    its descendant images, iframes and the buttons the engine injects, together with the
    two scripts that `replace_ad_content` and `process_website` run on it: the mutation
    (swap image sources, cover iframes with an image, or rewrite the background image) and
    the restore that follows each screenshot. Also the overlay-button styles
    (`get_button_style`). */
module Dom {
  import opened Common
  import opened Strings

  // ---------------------------------------------------------------- button styles

  /** The markup of an overlay button, named instead of spelled out; `NoGlyph` is the empty
      HTML string of the `none` style. */
  datatype Glyph = NoGlyph | DotsSvg | CrossSvg | InfoSvg | AdChoicesLogo

  datatype ButtonSpec = ButtonSpec(html: Glyph, css: string)

  /** One entry of the style table: the close button (`#close_button`) and the info
      button (`#abgb`). */
  datatype ButtonStyle = ButtonStyle(close: ButtonSpec, info: ButtonSpec)

  const CloseCss := "position:absolute;top:0px;right:0px;width:15px;height:15px;z-index:101;display:block;background-color:rgba(255,255,255,1);border-radius:2px;cursor:pointer;"
  const InfoCss := "position:absolute;top:0px;right:17px;width:15px;height:15px;z-index:100;display:block;background-color:rgba(255,255,255,1);border-radius:2px;cursor:pointer;"
  const AdChoicesCss := "position:absolute;top:0px;right:17px;width:15px;height:15px;z-index:100;display:block;cursor:pointer;"
  const HiddenCss := "display:none;"

  const StyleTable: map<string, ButtonStyle> := map[
    "dots" := ButtonStyle(ButtonSpec(DotsSvg, CloseCss), ButtonSpec(InfoSvg, InfoCss)),
    "cross" := ButtonStyle(ButtonSpec(CrossSvg, CloseCss), ButtonSpec(InfoSvg, InfoCss)),
    "adchoices" := ButtonStyle(ButtonSpec(CrossSvg, CloseCss), ButtonSpec(AdChoicesLogo, AdChoicesCss)),
    "adchoices_dots" := ButtonStyle(ButtonSpec(DotsSvg, CloseCss), ButtonSpec(AdChoicesLogo, AdChoicesCss)),
    "none" := ButtonStyle(ButtonSpec(NoGlyph, HiddenCss), ButtonSpec(NoGlyph, HiddenCss))
  ]

  /** `get_button_style`: the configured entry of the table, `dots` for an unknown name,
      and no style at all (the `NameError` of an undefined `BUTTON_STYLE`) when nothing is
      configured. */
  function GetButtonStyle(configured: Option<string>): (r: Option<ButtonStyle>)
    ensures r.None? <==> configured.None?
    ensures configured.Some? && configured.value in StyleTable ==> r == Some(StyleTable[configured.value])
    ensures configured.Some? && configured.value !in StyleTable ==> r == Some(StyleTable["dots"])
  {
    match configured
    case None => None
    case Some(name) => Some(if name in StyleTable then StyleTable[name] else StyleTable["dots"])
  }

  /** The scripts create buttons only when both HTML strings are non-empty. */
  predicate CreatesButtons(style: ButtonStyle) {
    style.close.html != NoGlyph && style.info.html != NoGlyph
  }

  // ---------------------------------------------------------------- the container

  /** The element an injected node is appended to: the container itself or an inner
      element (an image's parent), named by a number. */
  datatype Host = Root | Inner(k: nat)

  datatype ButtonId = CloseButton | InfoButton

  /** An injected `div#close_button` or `div#abgb`. */
  datatype Button = Button(id: ButtonId, host: Host, html: Glyph)

  /** An `<img>` below the container: its source, its `data-original-src` attribute (absent
      as `None`), the inline style properties that are set, its rendered size, the
      attributes the control-button test reads, whether one of its ancestors is an ad
      control (`#abgcp`, `.abgc`, `#cbb`, `[data-vars-label*="feedback"]`, ...), and its
      parent element. */
  datatype Img = Img(src: string, originalSrc: Option<string>, style: map<string, Css>,
                     width: real, height: real, className: string, id: string, alt: string,
                     inControl: bool, parent: Host)

  /** An inline style value: a keyword or length written as text, or `<n>px`. */
  datatype Css = Text(text: string) | Px(n: int)

  /** An `<iframe>` below the container: its inline `visibility` ("" when unset) and its
      rendered size. */
  datatype Frame = Frame(visibility: string, width: real, height: real)

  /** The container: its descendant images (document order, overlays last), iframes and
      injected buttons; the hosts whose computed position is `static`; its computed
      background image and the inline background properties the scripts set. */
  datatype Container = Container(imgs: seq<Img>, frames: seq<Frame>, buttons: seq<Button>,
                                 staticHosts: set<Host>, background: string,
                                 backgroundStyle: map<string, Css>)

  /** JavaScript's `Math.round`: halves round up. */
  function JsRound(x: real): int {
    (x + 0.5).Floor
  }

  /** `backgroundImage && backgroundImage !== 'none'`. */
  predicate HasBackground(background: string) {
    background != "" && background != "none"
  }

  function NewImageSrc(imageBase64: string): string {
    "data:image/png;base64," + imageBase64
  }

  /** The twelve inline properties the image branch sets, and their values. */
  const ReplacedImgStyle: map<string, Css> := map[
    "objectFit" := Text("contain"), "width" := Text("100%"), "height" := Text("auto"),
    "maxWidth" := Text("none"), "maxHeight" := Text("none"), "minWidth" := Text("auto"),
    "minHeight" := Text("auto"), "display" := Text("block"), "margin" := Text("0"),
    "padding" := Text("0"), "border" := Text("none"), "outline" := Text("none")
  ]

  const BackgroundProps: map<string, Css> := map[
    "backgroundSize" := Text("contain"), "backgroundRepeat" := Text("no-repeat"),
    "backgroundPosition" := Text("center")
  ]

  /** Images that look like ad controls are never replaced. */
  predicate IsControlButton(img: Img) {
    img.width < 50.0 || img.height < 50.0 ||
    Contains(img.className, "abg") || Contains(img.id, "abg") ||
    Contains(img.src, "googleads") || Contains(img.src, "googlesyndication") ||
    Contains(img.src, "adchoices") || Contains(img.src, "zh_tw.png") ||
    img.inControl ||
    Contains(img.alt, "關閉") || Contains(img.alt, "close")
  }

  /** The image branch handles an image iff it is no control and has a non-data source. */
  predicate Qualifies(img: Img) {
    !IsControlButton(img) && img.src != "" && !StartsWith(img.src, "data:")
  }

  /** The `<img>` appended over an iframe (its pixel offsets are not modelled). */
  function Overlay(frame: Frame, newSrc: string): Img {
    var w, h := JsRound(frame.width), JsRound(frame.height);
    Img(newSrc, None,
        map["position" := Text("absolute"), "width" := Px(w), "height" := Px(h),
            "objectFit" := Text("contain"), "zIndex" := Text("1")],
        w as real, h as real, "", "", "", false, Root)
  }

  // ---------------------------------------------------------------- mutation steps

  /** `if (getComputedStyle(host).position === 'static') host.style.position = 'relative'`. */
  function MakeRelative(c: Container, h: Host): Container {
    c.(staticHosts := c.staticHosts - {h})
  }

  predicate InScope(h: Host, scope: Host) {
    scope == Root || h == scope
  }

  /** `scope.querySelector('#id')?.remove()`: drops the first such button below `scope`. */
  function RemoveFirst(buttons: seq<Button>, id: ButtonId, scope: Host): seq<Button> {
    if buttons == [] then []
    else if buttons[0].id == id && InScope(buttons[0].host, scope) then buttons[1..]
    else [buttons[0]] + RemoveFirst(buttons[1..], id, scope)
  }

  /** The `['close_button', 'abgb'].forEach(... old.remove())` idiom. */
  function ClearOldButtons(buttons: seq<Button>, scope: Host): seq<Button> {
    RemoveFirst(RemoveFirst(buttons, CloseButton, scope), InfoButton, scope)
  }

  /** Appends `#abgb` and then `#close_button` to `host`, unless the style is `none`. */
  function AddButtons(buttons: seq<Button>, host: Host, style: ButtonStyle): seq<Button> {
    if CreatesButtons(style) then
      buttons + [Button(InfoButton, host, style.info.html), Button(CloseButton, host, style.close.html)]
    else buttons
  }

  /** Clear old buttons below `host`, then add new ones there. */
  function Rebutton(c: Container, host: Host, style: ButtonStyle): Container {
    c.(buttons := AddButtons(ClearOldButtons(c.buttons, host), host, style))
  }

  /** What the image branch does to one qualifying image: `data-original-src` is written only
      when it is absent or empty; the source becomes the creative, or goes back to the old
      source when the creative did not decode at once (`decoded` false); the twelve style
      properties are set. */
  function ReplacedImg(img: Img, newSrc: string, decoded: bool): Img {
    var saved := if img.originalSrc.Some? && img.originalSrc.value != "" then img.originalSrc else Some(img.src);
    img.(originalSrc := saved, src := if decoded then newSrc else img.src,
         style := img.style + ReplacedImgStyle)
  }

  /** An image after the image loop: replaced when it qualifies, untouched otherwise. */
  function MutatedImg(img: Img, newSrc: string, decoded: bool): Img {
    if Qualifies(img) then ReplacedImg(img, newSrc, decoded) else img
  }

  /** One turn of the image loop, on image `i`: the new container and whether it counted. */
  function ImgStep(c: Container, i: nat, newSrc: string, decoded: bool, style: ButtonStyle): (Container, bool)
    requires i < |c.imgs|
  {
    var img := c.imgs[i];
    if !Qualifies(img) then (c, false)
    else
      var c1 := c.(imgs := c.imgs[i := ReplacedImg(img, newSrc, decoded)]);
      (Rebutton(MakeRelative(c1, img.parent), img.parent, style), true)
  }

  /** The first `k` turns of the image loop over the images the container had when it began,
      with the number of images replaced. */
  function ImgPass(c: Container, k: nat, newSrc: string, decoded: bool, style: ButtonStyle): (r: (Container, nat))
    requires k <= |c.imgs|
    ensures |r.0.imgs| == |c.imgs| && r.1 <= k
  {
    if k == 0 then (c, 0)
    else
      var prev := ImgPass(c, k - 1, newSrc, decoded, style);
      var step := ImgStep(prev.0, k - 1, newSrc, decoded, style);
      (step.0, prev.1 + if step.1 then 1 else 0)
  }

  /** One turn of the iframe loop, on iframe `j`: hide it, lay the creative over it, re-add
      the buttons on the container. It always counts. */
  function FrameStep(c: Container, j: nat, newSrc: string, style: ButtonStyle): Container
    requires j < |c.frames|
  {
    var f := c.frames[j];
    var c1 := c.(frames := c.frames[j := f.(visibility := "hidden")]);
    var c2 := MakeRelative(c1, Root);
    Rebutton(c2.(imgs := c2.imgs + [Overlay(f, newSrc)]), Root, style)
  }

  /** The first `k` turns of the iframe loop. */
  function FramePass(c: Container, k: nat, newSrc: string, style: ButtonStyle): (r: Container)
    requires k <= |c.frames|
    ensures |r.frames| == |c.frames| && |r.imgs| == |c.imgs| + k
  {
    if k == 0 then c
    else
      var prev := FramePass(c, k - 1, newSrc, style);
      FrameStep(prev, k - 1, newSrc, style)
  }

  /** The background branch, taken only when nothing else counted. */
  function BackgroundStep(c: Container, newSrc: string, style: ButtonStyle): (Container, bool) {
    if !HasBackground(c.background) then (c, false)
    else
      var c1 := c.(background := "url(" + newSrc + ")",
                   backgroundStyle := c.backgroundStyle + BackgroundProps);
      (Rebutton(MakeRelative(c1, Root), Root, style), true)
  }

  /** The whole mutation script (`replace_ad_content`'s JavaScript): the container made
      relative and cleared of old buttons, then the image loop, the iframe loop, and the
      background branch when neither replaced anything; the flag is `replacedCount > 0`. */
  function Mutate(c: Container, imageBase64: string, decoded: bool, style: ButtonStyle): (Container, bool) {
    var newSrc := NewImageSrc(imageBase64);
    var c0 := Rebutton(MakeRelative(c, Root), Root, ButtonStyle(ButtonSpec(NoGlyph, ""), ButtonSpec(NoGlyph, "")));
    var p1 := ImgPass(c0, |c0.imgs|, newSrc, decoded, style);
    var c2 := FramePass(p1.0, |p1.0.frames|, newSrc, style);
    var count := p1.1 + |p1.0.frames|;
    if count == 0 then BackgroundStep(c2, newSrc, style) else (c2, true)
  }

  // ---------------------------------------------------------------- restore

  /** An image with a non-empty `data-original-src` gets that source back, loses the
      attribute and the twelve style properties; other images are left alone. */
  function RestoredImg(img: Img): Img {
    if img.originalSrc.Some? && img.originalSrc.value != "" then
      img.(src := img.originalSrc.value, originalSrc := None, style := img.style - ReplacedImgStyle.Keys)
    else img
  }

  /** Iframes whose inline visibility is `hidden` are made `visible`. */
  function RestoredFrame(f: Frame): Frame {
    if f.visibility == "hidden" then f.(visibility := "visible") else f
  }

  /** The restore script of `process_website`. */
  function Restore(c: Container): Container {
    c.(buttons := [],
       imgs := seq(|c.imgs|, i requires 0 <= i < |c.imgs| => RestoredImg(c.imgs[i])),
       frames := seq(|c.frames|, i requires 0 <= i < |c.frames| => RestoredFrame(c.frames[i])))
  }

  // ---------------------------------------------------------------- the scripts as loops

  /** The image loop of the mutation script, over the images the container held when the
      loop began, counting replacements in `replaced`. */
  method ReplaceImages(c: Container, newSrc: string, decoded: bool, style: ButtonStyle)
    returns (r: Container, replaced: nat)
    ensures (r, replaced) == ImgPass(c, |c.imgs|, newSrc, decoded, style)
  {
    r, replaced := c, 0;
    var i := 0;
    while i < |c.imgs|
      invariant 0 <= i <= |c.imgs|
      invariant (r, replaced) == ImgPass(c, i, newSrc, decoded, style)
    {
      var counted;
      r, counted := ReplaceImage(r, i, newSrc, decoded, style);
      if counted {
        replaced := replaced + 1;
      }
      i := i + 1;
    }
  }

  /** The body of the image loop for image `i`: a qualifying image gets the creative, its
      parent becomes relative and gets the buttons. */
  method ReplaceImage(c: Container, i: nat, newSrc: string, decoded: bool, style: ButtonStyle)
    returns (r: Container, counted: bool)
    requires i < |c.imgs|
    ensures (r, counted) == ImgStep(c, i, newSrc, decoded, style)
  {
    var img := c.imgs[i];
    if !Qualifies(img) {
      return c, false;
    }
    r := c.(imgs := c.imgs[i := ReplacedImg(img, newSrc, decoded)]);
    r := MakeRelative(r, img.parent);
    r := Rebutton(r, img.parent, style);
    counted := true;
  }

  /** The iframe loop of the mutation script. */
  method CoverFrames(c: Container, newSrc: string, style: ButtonStyle) returns (r: Container)
    ensures r == FramePass(c, |c.frames|, newSrc, style)
  {
    r := c;
    var j := 0;
    while j < |c.frames|
      invariant 0 <= j <= |c.frames|
      invariant r == FramePass(c, j, newSrc, style)
    {
      var f := r.frames[j];
      r := r.(frames := r.frames[j := f.(visibility := "hidden")]);
      r := MakeRelative(r, Root);
      r := r.(imgs := r.imgs + [Overlay(f, newSrc)]);
      r := Rebutton(r, Root, style);
      j := j + 1;
    }
  }

  /** The mutation script as the browser runs it, statement by statement. */
  method MutateContainer(c: Container, imageBase64: string, decoded: bool, style: ButtonStyle)
    returns (r: Container, ok: bool)
    ensures (r, ok) == Mutate(c, imageBase64, decoded, style)
  {
    var newSrc := NewImageSrc(imageBase64);
    r := MakeRelative(c, Root);
    r := Rebutton(r, Root, ButtonStyle(ButtonSpec(NoGlyph, ""), ButtonSpec(NoGlyph, "")));
    var replaced;
    r, replaced := ReplaceImages(r, newSrc, decoded, style);
    var frameCount := |r.frames|;
    r := CoverFrames(r, newSrc, style);
    replaced := replaced + frameCount;
    if replaced == 0 && HasBackground(r.background) {
      r := r.(background := "url(" + newSrc + ")", backgroundStyle := r.backgroundStyle + BackgroundProps);
      replaced := 1;
      r := MakeRelative(r, Root);
      r := Rebutton(r, Root, style);
    }
    ok := replaced > 0;
  }

  /** The restore script as the browser runs it: remove the buttons, then walk the images
      and the iframes. */
  method RestoreContainer(c: Container) returns (r: Container)
    ensures r == Restore(c)
  {
    var imgs: seq<Img> := [];
    var i := 0;
    while i < |c.imgs|
      invariant 0 <= i <= |c.imgs|
      invariant imgs == seq(i, k requires 0 <= k < i => RestoredImg(c.imgs[k]))
    {
      imgs := imgs + [RestoredImg(c.imgs[i])];
      i := i + 1;
    }
    var frames: seq<Frame> := [];
    var j := 0;
    while j < |c.frames|
      invariant 0 <= j <= |c.frames|
      invariant frames == seq(j, k requires 0 <= k < j => RestoredFrame(c.frames[k]))
    {
      frames := frames + [RestoredFrame(c.frames[j])];
      j := j + 1;
    }
    r := c.(buttons := [], imgs := imgs, frames := frames);
  }
}

=== FILE: dom_lemmas.dfy ===
/** What the mutation and restore scripts of `Dom` guarantee, and what they leave behind. */
module DomLemmas {
  import opened Common
  import opened Strings
  import opened Dom

  // ---------------------------------------------------------------- button styles

  /** `none` is the only style under which the scripts add no buttons; every other name,
      known or not, yields buttons. */
  lemma OnlyNoneHidesButtons(name: string)
    ensures GetButtonStyle(Some(name)).Some?
    ensures CreatesButtons(GetButtonStyle(Some(name)).value) <==> name != "none"
  {
    if name !in StyleTable {
      assert name != "none";
    }
  }

  // ---------------------------------------------------------------- the two loops

  /** The image loop replaces exactly the qualifying images, in place, leaves iframes and
      background alone, never makes a host static, and reports a replacement iff some image
      qualified; when none did it changed nothing. */
  lemma ImgPassEffect(c: Container, k: nat, newSrc: string, decoded: bool, style: ButtonStyle)
    requires k <= |c.imgs|
    ensures var r := ImgPass(c, k, newSrc, decoded, style);
      r.0.frames == c.frames && r.0.background == c.background &&
      r.0.backgroundStyle == c.backgroundStyle && r.0.staticHosts <= c.staticHosts &&
      (forall j :: k <= j < |c.imgs| ==> r.0.imgs[j] == c.imgs[j]) &&
      (forall j :: 0 <= j < k ==> r.0.imgs[j] == MutatedImg(c.imgs[j], newSrc, decoded)) &&
      (r.1 > 0 <==> exists j :: 0 <= j < k && Qualifies(c.imgs[j])) &&
      (r.1 == 0 ==> r.0 == c)
  {
    ImgPassImgs(c, k, newSrc, decoded, style);
    ImgPassCount(c, k, newSrc, decoded, style);
  }

  /** One turn of the image loop changes image `i` alone, and only when it qualifies. */
  lemma ImgStepEffect(c: Container, i: nat, newSrc: string, decoded: bool, style: ButtonStyle)
    requires i < |c.imgs|
    ensures var r := ImgStep(c, i, newSrc, decoded, style);
      r.0.frames == c.frames && r.0.background == c.background &&
      r.0.backgroundStyle == c.backgroundStyle && r.0.staticHosts <= c.staticHosts &&
      r.0.imgs == c.imgs[i := MutatedImg(c.imgs[i], newSrc, decoded)] &&
      (r.1 <==> Qualifies(c.imgs[i])) && (!r.1 ==> r.0 == c) &&
      (r.1 ==> r.0.buttons == AddButtons(ClearOldButtons(c.buttons, c.imgs[i].parent), c.imgs[i].parent, style))
  {
  }

  /** One turn of the iframe loop: iframe `j` hidden, one overlay appended, the container
      made relative and re-buttoned. */
  lemma FrameStepEffect(c: Container, j: nat, newSrc: string, style: ButtonStyle)
    requires j < |c.frames|
    ensures var r := FrameStep(c, j, newSrc, style);
      r.background == c.background && r.backgroundStyle == c.backgroundStyle &&
      r.staticHosts == c.staticHosts - {Root} &&
      r.frames == c.frames[j := c.frames[j].(visibility := "hidden")] &&
      r.imgs == c.imgs + [Overlay(c.frames[j], newSrc)] &&
      r.buttons == AddButtons(ClearOldButtons(c.buttons, Root), Root, style)
  {
  }

  lemma {:induction false} ImgPassImgs(c: Container, k: nat, newSrc: string, decoded: bool, style: ButtonStyle)
    requires k <= |c.imgs|
    ensures var r := ImgPass(c, k, newSrc, decoded, style);
      r.0.frames == c.frames && r.0.background == c.background &&
      r.0.backgroundStyle == c.backgroundStyle && r.0.staticHosts <= c.staticHosts &&
      (forall j :: k <= j < |c.imgs| ==> r.0.imgs[j] == c.imgs[j]) &&
      (forall j :: 0 <= j < k ==> r.0.imgs[j] == MutatedImg(c.imgs[j], newSrc, decoded))
  {
    ImgPassFields(c, k, newSrc, decoded, style);
    ImgPassList(c, k, newSrc, decoded, style);
  }

  lemma {:induction false} ImgPassFields(c: Container, k: nat, newSrc: string, decoded: bool, style: ButtonStyle)
    requires k <= |c.imgs|
    ensures var r := ImgPass(c, k, newSrc, decoded, style);
      r.0.frames == c.frames && r.0.background == c.background &&
      r.0.backgroundStyle == c.backgroundStyle && r.0.staticHosts <= c.staticHosts
  {
    if k > 0 {
      ImgPassFields(c, k - 1, newSrc, decoded, style);
      var prev := ImgPass(c, k - 1, newSrc, decoded, style);
      ImgStepEffect(prev.0, k - 1, newSrc, decoded, style);
    }
  }

  lemma {:induction false} ImgPassList(c: Container, k: nat, newSrc: string, decoded: bool, style: ButtonStyle)
    requires k <= |c.imgs|
    ensures var r := ImgPass(c, k, newSrc, decoded, style);
      (forall j :: k <= j < |c.imgs| ==> r.0.imgs[j] == c.imgs[j]) &&
      (forall j :: 0 <= j < k ==> r.0.imgs[j] == MutatedImg(c.imgs[j], newSrc, decoded))
  {
    if k > 0 {
      ImgPassList(c, k - 1, newSrc, decoded, style);
      var prev := ImgPass(c, k - 1, newSrc, decoded, style);
      ImgStepEffect(prev.0, k - 1, newSrc, decoded, style);
      var r := ImgPass(c, k, newSrc, decoded, style);
      assert r.0 == ImgStep(prev.0, k - 1, newSrc, decoded, style).0;
      assert r.0.imgs == prev.0.imgs[k - 1 := MutatedImg(c.imgs[k - 1], newSrc, decoded)];
    }
  }

  lemma {:induction false} ImgPassCount(c: Container, k: nat, newSrc: string, decoded: bool, style: ButtonStyle)
    requires k <= |c.imgs|
    ensures var r := ImgPass(c, k, newSrc, decoded, style);
      (r.1 > 0 <==> exists j :: 0 <= j < k && Qualifies(c.imgs[j])) &&
      (r.1 == 0 ==> r.0 == c)
  {
    if k > 0 {
      ImgPassCount(c, k - 1, newSrc, decoded, style);
      ImgPassImgs(c, k - 1, newSrc, decoded, style);
      var prev := ImgPass(c, k - 1, newSrc, decoded, style);
      ImgStepEffect(prev.0, k - 1, newSrc, decoded, style);
      assert prev.0.imgs[k - 1] == c.imgs[k - 1];
      if !Qualifies(c.imgs[k - 1]) && prev.1 > 0 {
        var j :| 0 <= j < k - 1 && Qualifies(c.imgs[j]);
      }
    }
  }

  /** The iframe loop hides every iframe, appends one overlay image per iframe after the
      existing images, makes the container relative and touches no image or background. */
  lemma FramePassEffect(c: Container, k: nat, newSrc: string, style: ButtonStyle)
    requires k <= |c.frames|
    ensures var r := FramePass(c, k, newSrc, style);
      r.background == c.background && r.backgroundStyle == c.backgroundStyle &&
      r.staticHosts <= c.staticHosts && (k > 0 ==> Root !in r.staticHosts) &&
      (forall j :: 0 <= j < k ==> r.frames[j] == c.frames[j].(visibility := "hidden")) &&
      (forall j :: k <= j < |c.frames| ==> r.frames[j] == c.frames[j]) &&
      r.imgs[..|c.imgs|] == c.imgs &&
      (forall j :: 0 <= j < k ==> r.imgs[|c.imgs| + j] == Overlay(c.frames[j], newSrc)) &&
      (k == 0 ==> r == c)
  {
    FramePassFrames(c, k, newSrc, style);
    FramePassImgs(c, k, newSrc, style);
  }

  lemma {:induction false} FramePassFrames(c: Container, k: nat, newSrc: string, style: ButtonStyle)
    requires k <= |c.frames|
    ensures var r := FramePass(c, k, newSrc, style);
      r.background == c.background && r.backgroundStyle == c.backgroundStyle &&
      r.staticHosts <= c.staticHosts && (k > 0 ==> Root !in r.staticHosts) &&
      (forall j :: 0 <= j < k ==> r.frames[j] == c.frames[j].(visibility := "hidden")) &&
      (forall j :: k <= j < |c.frames| ==> r.frames[j] == c.frames[j])
  {
    if k > 0 {
      FramePassFrames(c, k - 1, newSrc, style);
      var prev := FramePass(c, k - 1, newSrc, style);
      FrameStepEffect(prev, k - 1, newSrc, style);
      assert FramePass(c, k, newSrc, style) == FrameStep(prev, k - 1, newSrc, style);
    }
  }

  lemma {:induction false} FramePassImgs(c: Container, k: nat, newSrc: string, style: ButtonStyle)
    requires k <= |c.frames|
    ensures var r := FramePass(c, k, newSrc, style);
      r.imgs[..|c.imgs|] == c.imgs &&
      (forall j :: 0 <= j < k ==> r.imgs[|c.imgs| + j] == Overlay(c.frames[j], newSrc))
  {
    if k > 0 {
      FramePassImgs(c, k - 1, newSrc, style);
      FramePassFrames(c, k - 1, newSrc, style);
      var prev := FramePass(c, k - 1, newSrc, style);
      FrameStepEffect(prev, k - 1, newSrc, style);
      var r := FramePass(c, k, newSrc, style);
      assert r == FrameStep(prev, k - 1, newSrc, style);
      assert prev.frames[k - 1] == c.frames[k - 1];
      assert r.imgs[..|c.imgs|] == prev.imgs[..|c.imgs|];
    }
  }

  // ---------------------------------------------------------------- outcome

  /** `replace_ad_content` reports success iff the container has a qualifying image, an
      iframe, or a background image. */
  lemma MutateSucceedsIff(c: Container, imageBase64: string, decoded: bool, style: ButtonStyle)
    ensures Mutate(c, imageBase64, decoded, style).1 <==>
      (exists j :: 0 <= j < |c.imgs| && Qualifies(c.imgs[j])) || |c.frames| > 0 || HasBackground(c.background)
  {
    var newSrc := NewImageSrc(imageBase64);
    var c0 := Rebutton(MakeRelative(c, Root), Root, ButtonStyle(ButtonSpec(NoGlyph, ""), ButtonSpec(NoGlyph, "")));
    ImgPassEffect(c0, |c0.imgs|, newSrc, decoded, style);
    var p1 := ImgPass(c0, |c0.imgs|, newSrc, decoded, style);
    FramePassEffect(p1.0, |p1.0.frames|, newSrc, style);
  }

  /** A failed replacement still leaves the container relative and without its own old
      buttons; nothing else changes. */
  lemma FailedMutationResidue(c: Container, imageBase64: string, decoded: bool, style: ButtonStyle)
    requires !Mutate(c, imageBase64, decoded, style).1
    ensures Mutate(c, imageBase64, decoded, style).0 ==
      c.(staticHosts := c.staticHosts - {Root}, buttons := ClearOldButtons(c.buttons, Root))
  {
    var newSrc := NewImageSrc(imageBase64);
    var c0 := Rebutton(MakeRelative(c, Root), Root, ButtonStyle(ButtonSpec(NoGlyph, ""), ButtonSpec(NoGlyph, "")));
    ImgPassEffect(c0, |c0.imgs|, newSrc, decoded, style);
    var p1 := ImgPass(c0, |c0.imgs|, newSrc, decoded, style);
    FramePassEffect(p1.0, |p1.0.frames|, newSrc, style);
  }

  /** An element with no image or iframe below it and no background image can be matched by
      the scan (an `<img>` or `<iframe>` is ad-like by its tag) yet is never replaced: the
      scripts only look at its descendants. */
  lemma BareElementNeverReplaced(c: Container, imageBase64: string, decoded: bool, style: ButtonStyle)
    requires c.imgs == [] && c.frames == [] && !HasBackground(c.background)
    ensures !Mutate(c, imageBase64, decoded, style).1
  {
    MutateSucceedsIff(c, imageBase64, decoded, style);
  }

  /** When the creative has not decoded at once the image source is put back, yet the image
      still counts as replaced (the counter tests the creative's own `data:` prefix). */
  lemma RevertedImageStillCounts(c: Container, imageBase64: string, style: ButtonStyle, j: nat)
    requires j < |c.imgs| && Qualifies(c.imgs[j])
    ensures var m := Mutate(c, imageBase64, false, style);
      m.1 && m.0.imgs[j].src == c.imgs[j].src
  {
    var newSrc := NewImageSrc(imageBase64);
    var c0 := Rebutton(MakeRelative(c, Root), Root, ButtonStyle(ButtonSpec(NoGlyph, ""), ButtonSpec(NoGlyph, "")));
    ImgPassEffect(c0, |c0.imgs|, newSrc, false, style);
    var p1 := ImgPass(c0, |c0.imgs|, newSrc, false, style);
    FramePassEffect(p1.0, |p1.0.frames|, newSrc, style);
    assert FramePass(p1.0, |p1.0.frames|, newSrc, style).imgs[j] == p1.0.imgs[j];
  }

  // ---------------------------------------------------------------- buttons

  lemma {:induction false} RemoveFirstShrinks(buttons: seq<Button>, id: ButtonId, scope: Host)
    ensures multiset(RemoveFirst(buttons, id, scope)) <= multiset(buttons)
  {
    if buttons != [] {
      RemoveFirstShrinks(buttons[1..], id, scope);
      assert buttons == [buttons[0]] + buttons[1..];
    }
  }

  lemma ClearShrinks(buttons: seq<Button>, scope: Host)
    ensures multiset(ClearOldButtons(buttons, scope)) <= multiset(buttons)
  {
    RemoveFirstShrinks(buttons, CloseButton, scope);
    RemoveFirstShrinks(RemoveFirst(buttons, CloseButton, scope), InfoButton, scope);
  }

  lemma {:induction false} ImgPassAddsNoButtons(c: Container, k: nat, newSrc: string, decoded: bool, style: ButtonStyle)
    requires k <= |c.imgs| && !CreatesButtons(style)
    ensures multiset(ImgPass(c, k, newSrc, decoded, style).0.buttons) <= multiset(c.buttons)
  {
    if k > 0 {
      ImgPassAddsNoButtons(c, k - 1, newSrc, decoded, style);
      var prev := ImgPass(c, k - 1, newSrc, decoded, style);
      ImgStepEffect(prev.0, k - 1, newSrc, decoded, style);
      ClearShrinks(prev.0.buttons, prev.0.imgs[k - 1].parent);
    }
  }

  lemma FramePassAddsNoButtons(c: Container, k: nat, newSrc: string, style: ButtonStyle)
    requires k <= |c.frames| && !CreatesButtons(style)
    ensures multiset(FramePass(c, k, newSrc, style).buttons) <= multiset(c.buttons)
  {
    FramePassButtons(c, k, newSrc, style);
    RebuttonedShrinks(c.buttons, k, style);
  }

  /** The buttons after `k` turns of the iframe loop: each turn clears and re-adds them on
      the container. */
  function Rebuttoned(buttons: seq<Button>, k: nat, style: ButtonStyle): seq<Button> {
    if k == 0 then buttons else AddButtons(ClearOldButtons(Rebuttoned(buttons, k - 1, style), Root), Root, style)
  }

  lemma {:induction false} FramePassButtons(c: Container, k: nat, newSrc: string, style: ButtonStyle)
    requires k <= |c.frames|
    ensures FramePass(c, k, newSrc, style).buttons == Rebuttoned(c.buttons, k, style)
  {
    if k > 0 {
      FramePassButtons(c, k - 1, newSrc, style);
      FrameStepButtons(FramePass(c, k - 1, newSrc, style), k - 1, newSrc, style);
    }
  }

  lemma {:induction false} RebuttonedShrinks(buttons: seq<Button>, k: nat, style: ButtonStyle)
    requires !CreatesButtons(style)
    ensures multiset(Rebuttoned(buttons, k, style)) <= multiset(buttons)
  {
    if k > 0 {
      RebuttonedShrinks(buttons, k - 1, style);
      ClearShrinks(Rebuttoned(buttons, k - 1, style), Root);
    }
  }

  lemma FrameStepButtons(c: Container, j: nat, newSrc: string, style: ButtonStyle)
    requires j < |c.frames|
    ensures FrameStep(c, j, newSrc, style).buttons == AddButtons(ClearOldButtons(c.buttons, Root), Root, style)
  {
  }

  /** Under the `none` style a replacement creates no buttons at all: every button left in
      the container was there before. */
  lemma NoneStyleAddsNoButtons(c: Container, imageBase64: string, decoded: bool)
    ensures multiset(Mutate(c, imageBase64, decoded, StyleTable["none"]).0.buttons) <= multiset(c.buttons)
  {
    assert !CreatesButtons(StyleTable["none"]);
    EmptyStyleAddsNoButtons(c, imageBase64, decoded, StyleTable["none"]);
  }

  lemma EmptyStyleAddsNoButtons(c: Container, imageBase64: string, decoded: bool, style: ButtonStyle)
    requires !CreatesButtons(style)
    ensures multiset(Mutate(c, imageBase64, decoded, style).0.buttons) <= multiset(c.buttons)
  {
    var newSrc := NewImageSrc(imageBase64);
    var c0 := Rebutton(MakeRelative(c, Root), Root, ButtonStyle(ButtonSpec(NoGlyph, ""), ButtonSpec(NoGlyph, "")));
    var p1 := ImgPass(c0, |c0.imgs|, newSrc, decoded, style);
    var c2 := FramePass(p1.0, |p1.0.frames|, newSrc, style);
    MutateButtonsAre(c, imageBase64, decoded, style);
    ClearShrinks(c.buttons, Root);
    ImgPassAddsNoButtons(c0, |c0.imgs|, newSrc, decoded, style);
    FramePassAddsNoButtons(p1.0, |p1.0.frames|, newSrc, style);
    ClearShrinks(c2.buttons, Root);
    ShrinkChain(c.buttons, c0.buttons, p1.0.buttons, c2.buttons, BackgroundStep(c2, newSrc, style).0.buttons);
  }

  /** The buttons after the mutation script are those after the iframe loop, or those after
      the background branch. */
  lemma MutateButtonsAre(c: Container, imageBase64: string, decoded: bool, style: ButtonStyle)
    ensures var newSrc := NewImageSrc(imageBase64);
      var c0 := Rebutton(MakeRelative(c, Root), Root, ButtonStyle(ButtonSpec(NoGlyph, ""), ButtonSpec(NoGlyph, "")));
      var p1 := ImgPass(c0, |c0.imgs|, newSrc, decoded, style);
      var c2 := FramePass(p1.0, |p1.0.frames|, newSrc, style);
      Mutate(c, imageBase64, decoded, style).0.buttons == c2.buttons ||
      Mutate(c, imageBase64, decoded, style).0.buttons == BackgroundStep(c2, newSrc, style).0.buttons
  {
  }

  lemma ShrinkChain(a: seq<Button>, b: seq<Button>, c: seq<Button>, d: seq<Button>, e: seq<Button>)
    requires multiset(b) <= multiset(a) && multiset(c) <= multiset(b) && multiset(d) <= multiset(c)
    requires multiset(e) <= multiset(d)
    ensures multiset(d) <= multiset(a) && multiset(e) <= multiset(a)
  {
  }

  /** The pair of buttons the scripts append last: `#abgb`, then `#close_button`. */
  predicate EndsWithPair(buttons: seq<Button>) {
    |buttons| >= 2 && buttons[|buttons| - 2].id == InfoButton && buttons[|buttons| - 1].id == CloseButton
  }

  lemma {:induction false} ImgPassButtons(c: Container, k: nat, newSrc: string, decoded: bool, style: ButtonStyle)
    requires k <= |c.imgs| && CreatesButtons(style) && ImgPass(c, k, newSrc, decoded, style).1 > 0
    ensures EndsWithPair(ImgPass(c, k, newSrc, decoded, style).0.buttons)
  {
    var prev := ImgPass(c, k - 1, newSrc, decoded, style);
    if !Qualifies(prev.0.imgs[k - 1]) {
      ImgPassButtons(c, k - 1, newSrc, decoded, style);
    }
  }

  /** Under any style but `none`, a successful replacement ends with a close button and an
      info button in the container. */
  lemma SuccessShowsButtons(c: Container, imageBase64: string, decoded: bool, style: ButtonStyle)
    requires CreatesButtons(style) && Mutate(c, imageBase64, decoded, style).1
    ensures EndsWithPair(Mutate(c, imageBase64, decoded, style).0.buttons)
  {
    var newSrc := NewImageSrc(imageBase64);
    var c0 := Rebutton(MakeRelative(c, Root), Root, ButtonStyle(ButtonSpec(NoGlyph, ""), ButtonSpec(NoGlyph, "")));
    var p1 := ImgPass(c0, |c0.imgs|, newSrc, decoded, style);
    if |p1.0.frames| == 0 {
      FramePassEffect(p1.0, 0, newSrc, style);
      if p1.1 > 0 {
        ImgPassButtons(c0, |c0.imgs|, newSrc, decoded, style);
      }
    }
  }

  // ---------------------------------------------------------------- restore

  /** Restore removes every injected button and every saved source, keeps the number of
      images and iframes, and running it a second time changes nothing. */
  lemma RestoreRemovesButtons(c: Container)
    ensures Restore(c).buttons == []
    ensures |Restore(c).imgs| == |c.imgs| && |Restore(c).frames| == |c.frames|
    ensures forall i :: 0 <= i < |c.imgs| ==> Restore(c).imgs[i].originalSrc.None? || Restore(c).imgs[i].originalSrc == Some("")
    ensures Restore(Restore(c)) == Restore(c)
  {
    var r := Restore(c);
    assert Restore(r).imgs == r.imgs;
    assert Restore(r).frames == r.frames;
  }

  /** A container the engine has not touched before: no injected buttons, no
      `data-original-src`, none of the twelve style properties set inline. */
  predicate Pristine(c: Container) {
    c.buttons == [] &&
    forall i :: 0 <= i < |c.imgs| ==> c.imgs[i].originalSrc.None? && c.imgs[i].style.Keys !! ReplacedImgStyle.Keys
  }

  lemma UndoStyle(style: map<string, Css>)
    requires style.Keys !! ReplacedImgStyle.Keys
    ensures (style + ReplacedImgStyle) - ReplacedImgStyle.Keys == style
  {
  }

  lemma UndoImg(img: Img, newSrc: string, decoded: bool)
    requires img.originalSrc.None? && img.style.Keys !! ReplacedImgStyle.Keys
    ensures RestoredImg(MutatedImg(img, newSrc, decoded)) == img
  {
    if Qualifies(img) {
      UndoStyle(img.style);
    }
  }

  /** Round trip: on a pristine container without iframes whose images include a qualifying
      one, mutation succeeds and restore gives back the images, buttons, iframes and
      background exactly; only the `position: relative` written on static hosts stays. */
  lemma ImageRoundTrip(c: Container, imageBase64: string, decoded: bool, style: ButtonStyle)
    requires Pristine(c) && c.frames == []
    requires exists j :: 0 <= j < |c.imgs| && Qualifies(c.imgs[j])
    ensures var m := Mutate(c, imageBase64, decoded, style);
      m.1 && Root !in m.0.staticHosts && Restore(m.0) == c.(staticHosts := m.0.staticHosts)
  {
    var newSrc := NewImageSrc(imageBase64);
    var c0 := Rebutton(MakeRelative(c, Root), Root, ButtonStyle(ButtonSpec(NoGlyph, ""), ButtonSpec(NoGlyph, "")));
    ImgPassEffect(c0, |c0.imgs|, newSrc, decoded, style);
    var p1 := ImgPass(c0, |c0.imgs|, newSrc, decoded, style);
    FramePassEffect(p1.0, 0, newSrc, style);
    var m := Mutate(c, imageBase64, decoded, style);
    assert m.0 == p1.0;
    forall i | 0 <= i < |c.imgs|
      ensures Restore(m.0).imgs[i] == c.imgs[i]
    {
      UndoImg(c.imgs[i], newSrc, decoded);
    }
    assert Restore(m.0).imgs == c.imgs;
  }

  /** Iframe residue: after restore the overlay images stay in the container, one per
      iframe, and every iframe ends `visible` whatever its visibility was before. */
  lemma FrameResidue(c: Container, imageBase64: string, decoded: bool, style: ButtonStyle)
    requires |c.frames| > 0
    ensures var m := Mutate(c, imageBase64, decoded, style);
      var after := Restore(m.0);
      m.1 && |after.imgs| == |c.imgs| + |c.frames| &&
      (forall j :: 0 <= j < |c.frames| ==>
         after.imgs[|c.imgs| + j] == Overlay(c.frames[j], NewImageSrc(imageBase64)) &&
         after.frames[j].visibility == "visible")
  {
    MutateWithFrames(c, imageBase64, decoded, style);
    RestoreKeepsOverlays(Mutate(c, imageBase64, decoded, style).0, c, NewImageSrc(imageBase64));
  }

  /** With iframes present the replacement succeeds and leaves one overlay per iframe after
      the container's images. */
  lemma MutateWithFrames(c: Container, imageBase64: string, decoded: bool, style: ButtonStyle)
    requires |c.frames| > 0
    ensures var m := Mutate(c, imageBase64, decoded, style);
      m.1 && |m.0.imgs| == |c.imgs| + |c.frames| && |m.0.frames| == |c.frames| &&
      forall j :: 0 <= j < |c.frames| ==>
        m.0.imgs[|c.imgs| + j] == Overlay(c.frames[j], NewImageSrc(imageBase64)) &&
        m.0.frames[j].visibility == "hidden"
  {
    var newSrc := NewImageSrc(imageBase64);
    var c0 := Rebutton(MakeRelative(c, Root), Root, ButtonStyle(ButtonSpec(NoGlyph, ""), ButtonSpec(NoGlyph, "")));
    ImgPassEffect(c0, |c0.imgs|, newSrc, decoded, style);
    var p1 := ImgPass(c0, |c0.imgs|, newSrc, decoded, style);
    FramePassEffect(p1.0, |p1.0.frames|, newSrc, style);
    assert p1.0.frames == c.frames;
  }

  /** Restore leaves overlay images alone and makes every hidden iframe visible. */
  lemma RestoreKeepsOverlays(x: Container, c: Container, newSrc: string)
    requires |x.imgs| == |c.imgs| + |c.frames| && |x.frames| == |c.frames|
    requires forall j :: 0 <= j < |c.frames| ==>
      x.imgs[|c.imgs| + j] == Overlay(c.frames[j], newSrc) && x.frames[j].visibility == "hidden"
    ensures var after := Restore(x);
      |after.imgs| == |c.imgs| + |c.frames| &&
      forall j :: 0 <= j < |c.frames| ==>
        after.imgs[|c.imgs| + j] == Overlay(c.frames[j], newSrc) && after.frames[j].visibility == "visible"
  {
    var after := Restore(x);
    forall j | 0 <= j < |c.frames|
      ensures after.imgs[|c.imgs| + j] == Overlay(c.frames[j], newSrc)
      ensures after.frames[j].visibility == "visible"
    {
      assert after.imgs[|c.imgs| + j] == RestoredImg(x.imgs[|c.imgs| + j]);
      assert after.frames[j] == RestoredFrame(x.frames[j]);
    }
  }

  /** Background residue: when only the background image was replaced, restore leaves the
      creative as the background, with the three background properties still set. */
  lemma BackgroundResidue(c: Container, imageBase64: string, decoded: bool, style: ButtonStyle)
    requires c.frames == [] && HasBackground(c.background)
    requires forall j :: 0 <= j < |c.imgs| ==> !Qualifies(c.imgs[j])
    ensures var m := Mutate(c, imageBase64, decoded, style);
      var after := Restore(m.0);
      m.1 && after.background == "url(" + NewImageSrc(imageBase64) + ")" &&
      after.backgroundStyle == c.backgroundStyle + BackgroundProps
  {
    var newSrc := NewImageSrc(imageBase64);
    var c0 := Rebutton(MakeRelative(c, Root), Root, ButtonStyle(ButtonSpec(NoGlyph, ""), ButtonSpec(NoGlyph, "")));
    ImgPassEffect(c0, |c0.imgs|, newSrc, decoded, style);
    var p1 := ImgPass(c0, |c0.imgs|, newSrc, decoded, style);
    FramePassEffect(p1.0, 0, newSrc, style);
  }
}

=== FILE: engine.dfy ===
/** The replacement engine (`WebsiteAdReplacer`): the creative inventory, the page scan, one
    replacement, the per-page loop over creatives and matches with its de-duplication and
    screenshots, and the session loop over article URLs. The browser, the disk and the
    screenshot backends are answers passed in (`Visit`); a missing answer is a failure. */
module Engine {
  import opened Common
  import opened Strings
  import opened Sorting
  import opened Inventory
  import opened Dom
  import opened Surface

  // ---------------------------------------------------------------- outside answers

  /** The i-th answer of an outside call; a missing answer is a failure. */
  function At<T>(answers: seq<Option<T>>, i: nat): Option<T> {
    if i < |answers| then answers[i] else None
  }

  /** What the outside world answers while one URL is processed: the page after navigation
      (`None` when loading it or preparing it for the scan raises), the base64 text of each
      creative (`None` when it cannot be read), whether a swapped image has decoded at once
      (`img.complete && naturalWidth`), the path each successive screenshot returns (`None`
      when capturing fails), and the creative whose page scan raises, if one does. */
  datatype Visit = Visit(page: Option<seq<Element>>, imageData: seq<Option<string>>,
                         decoded: bool, captures: seq<Option<string>>, scanRaises: Option<nat>)

  function VisitAt(visits: seq<Visit>, i: nat): Visit {
    if i < |visits| then visits[i] else Visit(None, [], false, [], None)
  }

  // ---------------------------------------------------------------- the record of a page

  /** `f"{position}_{width}x{height}"`. */
  function DedupKey(position: string, width: nat, height: nat): string {
    position + "_" + NatToDecimal(width) + "x" + NatToDecimal(height)
  }

  /** Two pages that differ at most in what lies below their elements. */
  predicate SameLayout(p: seq<Element>, q: seq<Element>) {
    |p| == |q| && forall i :: 0 <= i < |p| ==> p[i] == q[i].(box := p[i].box)
  }

  /** The rectangle `replace_ad_content` measures is exactly the creative's size. */
  predicate ExactSize(e: Element, width: nat, height: nat) {
    e.rect.Some? && e.rect.value.width == width as real && e.rect.value.height == height as real
  }

  datatype Outcome = Skipped | Failed | Replaced

  /** One match of one creative: the element, its de-duplication key and what happened. */
  datatype Attempt = Attempt(handle: nat, key: string, outcome: Outcome)

  predicate KeyTakenBefore(pass: seq<Attempt>, j: nat, key: string)
    requires j <= |pass|
  {
    exists i :: 0 <= i < j && pass[i].outcome == Replaced && pass[i].key == key
  }

  /** Within one creative's pass a match is skipped exactly when an earlier match with the
      same key was replaced. */
  predicate SkipRule(pass: seq<Attempt>) {
    forall j :: 0 <= j < |pass| ==> (pass[j].outcome == Skipped <==> KeyTakenBefore(pass, j, pass[j].key))
  }

  /** An attempt for creative `c` concerns a visible element of the creative's rounded size,
      its key is built from that element's position, and a replacement happened only where
      the unrounded size was exact. */
  predicate AttemptFits(a: Attempt, layout: seq<Element>, c: Creative) {
    a.handle < |layout| && layout[a.handle].rect.Some? &&
    WalkerAccepts(layout[a.handle]) && SizeMatches(layout[a.handle].rect.value, c.width, c.height) &&
    a.key == DedupKey(Position(layout[a.handle].rect.value), c.width, c.height) &&
    (a.outcome == Replaced ==> ExactSize(layout[a.handle], c.width, c.height))
  }

  predicate PassFits(pass: seq<Attempt>, layout: seq<Element>, c: Creative) {
    (forall j :: 0 <= j < |pass| ==> AttemptFits(pass[j], layout, c)) &&
    (forall a, b :: 0 <= a < b < |pass| ==> pass[a].handle < pass[b].handle) &&
    SkipRule(pass)
  }

  function ReplacedIn(pass: seq<Attempt>): nat {
    if pass == [] then 0
    else ReplacedIn(pass[..|pass| - 1]) + (if pass[|pass| - 1].outcome == Replaced then 1 else 0)
  }

  function ReplacedInAll(passes: seq<seq<Attempt>>): nat {
    if passes == [] then 0 else ReplacedInAll(passes[..|passes| - 1]) + ReplacedIn(passes[|passes| - 1])
  }

  /** The answers of `n` successive screenshots, the first being number `from`. */
  function CaptureRun(captures: seq<Option<string>>, from: nat, n: nat): (r: seq<Option<string>>)
    ensures |r| == n && forall i :: 0 <= i < n ==> r[i] == At(captures, from + i)
  {
    seq(n, i requires 0 <= i < n => At(captures, from + i))
  }

  /** The paths of the screenshots that succeeded, in order. */
  function Somes(s: seq<Option<string>>): seq<string> {
    if s == [] then []
    else Somes(s[..|s| - 1]) + (if s[|s| - 1].Some? then [s[|s| - 1].value] else [])
  }

  // ---------------------------------------------------------------- URLs

  /** The URLs in first-occurrence order, each once. */
  function Distinct(urls: seq<string>): seq<string> {
    if urls == [] then []
    else
      var rest := urls[..|urls| - 1];
      Distinct(rest) + (if urls[|urls| - 1] in rest then [] else [urls[|urls| - 1]])
  }

  function SumLengths(pages: seq<seq<string>>): nat {
    if pages == [] then 0 else SumLengths(pages[..|pages| - 1]) + |pages[|pages| - 1]|
  }

  /** The session stops after page `p`: it produced screenshots and the running total has
      reached the target. */
  predicate StopsAt(pages: seq<seq<string>>, p: nat, target: int)
    requires p < |pages|
  {
    |pages[p]| > 0 && SumLengths(pages[..p + 1]) >= target
  }

  // ---------------------------------------------------------------- the engine

  class AdReplacer {
    /** `self.replace_images`. */
    var replaceImages: seq<Creative>
    /** `BUTTON_STYLE` from the configuration; `None` when it is not defined. */
    var buttonStyle: Option<string>
    /** The document the browser shows. */
    var page: seq<Element>

    /** `__init__` without the browser: the creatives are loaded at once. */
    constructor (folderExists: bool, folder: string, listing: seq<string>, configuredStyle: Option<string>)
      ensures replaceImages == LoadedInventory(folderExists, folder, listing)
      ensures buttonStyle == configuredStyle && page == []
    {
      replaceImages := [];
      buttonStyle := configuredStyle;
      page := [];
      new;
      LoadReplaceImages(folderExists, folder, listing);
    }

    /** `load_replace_images`: one creative per name with an image extension and the size
        pattern, in listing order, then sorted by filename. */
    method LoadReplaceImages(folderExists: bool, folder: string, listing: seq<string>)
      modifies this
      ensures replaceImages == LoadedInventory(folderExists, folder, listing)
      ensures buttonStyle == old(buttonStyle) && page == old(page)
    {
      replaceImages := [];
      if !folderExists {
        return;
      }
      var i := 0;
      while i < |listing|
        invariant 0 <= i <= |listing|
        invariant replaceImages == ParseAll(folder, listing[..i])
        invariant buttonStyle == old(buttonStyle) && page == old(page)
      {
        var filename := listing[i];
        ParseAllSnoc(folder, listing[..i], filename);
        assert listing[..i + 1] == listing[..i] + [filename];
        if HasCreativeExtension(filename) {
          var size := SizeInName(filename);
          if size.Some? {
            replaceImages := replaceImages + [Creative(folder + "/" + filename, filename, size.value.0, size.value.1)];
          }
        }
        i := i + 1;
      }
      assert listing[..|listing|] == listing;
      replaceImages := SortBy(replaceImages, FilenameOf, false);
    }

    /** `scan_entire_page_for_ads`: the elements the walker visits, in document order, that
        are visible, of the target size once rounded, and ad-like. */
    method ScanEntirePageForAds(width: int, height: int) returns (matches: seq<Match>)
      ensures matches == ScanOf(page, width, height)
    {
      matches := [];
      var i := 0;
      while i < |page|
        invariant 0 <= i <= |page|
        invariant matches == ScanUpTo(page, width, height, i)
      {
        var e := page[i];
        if WalkerAccepts(e) && e.rect.Some? {
          var r := e.rect.value;
          var w, h := JsRound(r.width), JsRound(r.height);
          if r.width > 0.0 && r.height > 0.0 && w == width && h == height && IsAdLike(e) {
            matches := matches + [Match(i, w, h, Position(r))];
          }
        }
        i := i + 1;
      }
    }

    /** `replace_ad_content`: measure the element (unrounded), pick the button style, run the
        mutation script. Nothing changes when the size is not exact or no style is
        configured. */
    method ReplaceAdContent(handle: nat, imageData: string, decoded: bool, width: nat, height: nat)
      returns (ok: bool)
      requires handle < |page|
      modifies this
      ensures replaceImages == old(replaceImages) && buttonStyle == old(buttonStyle)
      ensures ok ==> ExactSize(old(page[handle]), width, height) && buttonStyle.Some?
      ensures var e := old(page[handle]);
        var style := GetButtonStyle(buttonStyle);
        if ExactSize(e, width, height) && style.Some? then
          var m := Mutate(e.box, imageData, decoded, style.value);
          ok == m.1 && page == old(page)[handle := e.(box := m.0)]
        else !ok && page == old(page)
    {
      var e := page[handle];
      if e.rect.None? {
        return false;
      }
      if e.rect.value.width != width as real || e.rect.value.height != height as real {
        return false;
      }
      var style := GetButtonStyle(buttonStyle);
      if style.None? {
        return false;
      }
      var box;
      box, ok := MutateContainer(e.box, imageData, decoded, style.value);
      page := page[handle := e.(box := box)];
    }

    /** The restore script `process_website` runs on an element after its screenshot. */
    method RestoreAd(handle: nat)
      requires handle < |page|
      modifies this
      ensures replaceImages == old(replaceImages) && buttonStyle == old(buttonStyle)
      ensures page == old(page)[handle := old(page[handle]).(box := Restore(old(page[handle]).box))]
    {
      var box := RestoreContainer(page[handle].box);
      page := page[handle := page[handle].(box := box)];
    }

    /** The replacement branch of `process_website` for one match: replace, and when that
        succeeds (the screenshot being taken in between) restore the element. */
    method ReplaceThenRestore(handle: nat, imageData: string, decoded: bool, width: nat, height: nat)
      returns (ok: bool)
      requires handle < |page|
      modifies this
      ensures replaceImages == old(replaceImages) && buttonStyle == old(buttonStyle)
      ensures AttemptLeft(old(page), page, handle, ok, imageData, decoded, width, height, buttonStyle)
    {
      ok := ReplaceAdContent(handle, imageData, decoded, width, height);
      if ok {
        RestoreAd(handle);
      }
    }

    /** `process_website`: load the page, then run every creative over it; the screenshot
        paths are returned when anything was replaced, otherwise nothing, and nothing either
        when a scan raises. */
    method ProcessWebsite(visit: Visit) returns (paths: seq<string>, ghost passes: seq<seq<Attempt>>, ghost total: nat)
      modifies this
      ensures replaceImages == old(replaceImages) && buttonStyle == old(buttonStyle)
      ensures paths == VisitPaths(visit, replaceImages, buttonStyle)
      ensures visit.page.None? ==> passes == [] && total == 0 && page == old(page)
      ensures visit.page.Some? ==>
        && |passes| == StopAt(replaceImages, visit.imageData, visit.scanRaises)
        && (passes, page) == CreativesUpTo(visit.page.value, replaceImages, visit.imageData, visit.decoded,
                                           buttonStyle, |passes|)
        && total == ReplacedInAll(passes)
    {
      if visit.page.None? {
        return [], [], 0;
      }
      page := visit.page.value;
      var screenshots, totalReplacements, raised;
      screenshots, totalReplacements, raised, passes :=
        ProcessCreatives(visit.imageData, visit.decoded, visit.captures, visit.scanRaises);
      total := totalReplacements;
      if raised {
        paths := [];
      } else {
        if totalReplacements == 0 {
          assert CaptureRun(visit.captures, 0, 0) == [];
        }
        paths := if totalReplacements > 0 then screenshots else [];
      }
    }

    /** The loop over creatives of `process_website` on a freshly loaded page: a creative
        whose image cannot be read is passed over; screenshots are numbered across creatives;
        a scan that raises ends the loop. */
    method ProcessCreatives(imageData: seq<Option<string>>, decoded: bool, captures: seq<Option<string>>,
                            scanRaises: Option<nat>)
      returns (screenshots: seq<string>, total: nat, raised: bool, ghost passes: seq<seq<Attempt>>)
      modifies this
      ensures replaceImages == old(replaceImages) && buttonStyle == old(buttonStyle)
      ensures |passes| == StopAt(replaceImages, imageData, scanRaises)
      ensures raised <==> |passes| < |replaceImages|
      ensures CreativesSoFar(old(page), passes, page, replaceImages, imageData, decoded, buttonStyle,
                             total, screenshots, captures)
    {
      passes, screenshots, total := [], [], 0;
      CreativesStart(page, replaceImages, imageData, decoded, buttonStyle, captures);
      var k := 0;
      while k < |replaceImages| && !(scanRaises == Some(k) && At(imageData, k).Some?)
        invariant |passes| == k && k <= StopAt(replaceImages, imageData, scanRaises)
        invariant replaceImages == old(replaceImages) && buttonStyle == old(buttonStyle)
        invariant CreativesSoFar(old(page), passes, page, replaceImages, imageData, decoded, buttonStyle,
                                 total, screenshots, captures)
      {
        var count, shots, pass := RecordCreative(k, imageData, decoded, captures, old(page), total, passes, screenshots);
        total := total + count;
        screenshots := screenshots + shots;
        passes := passes + [pass];
        k := k + 1;
      }
      raised := k < |replaceImages|;
    }

    /** The body of the loop over creatives for creative `k`, together with the bookkeeping
        that extends the loop's invariant by this creative's pass. */
    method RecordCreative(k: nat, imageData: seq<Option<string>>, decoded: bool, captures: seq<Option<string>>,
                          ghost page0: seq<Element>, done: nat, ghost passes: seq<seq<Attempt>>,
                          ghost screenshots: seq<string>)
      returns (count: nat, shots: seq<string>, ghost pass: seq<Attempt>)
      requires k < |replaceImages| && |passes| == k
      requires CreativesSoFar(page0, passes, page, replaceImages, imageData, decoded, buttonStyle,
                              done, screenshots, captures)
      modifies this
      ensures replaceImages == old(replaceImages) && buttonStyle == old(buttonStyle)
      ensures CreativesSoFar(page0, passes + [pass], page, replaceImages, imageData, decoded, buttonStyle,
                             done + count, screenshots + shots, captures)
    {
      ghost var before := page;
      count, shots, pass := ProcessCreative(k, imageData, decoded, captures, done);
      CreativeStep(page0, passes, before, pass, page, replaceImages, imageData, decoded, buttonStyle,
                   captures, done, screenshots, count, shots);
    }

    /** One creative on the loaded page: when its image text cannot be read the creative is
        passed over, otherwise the page is scanned for its size and the matches are tried. */
    method ProcessCreative(k: nat, imageData: seq<Option<string>>, decoded: bool, captures: seq<Option<string>>,
                           done: nat)
      returns (count: nat, shots: seq<string>, ghost pass: seq<Attempt>)
      requires k < |replaceImages|
      modifies this
      ensures replaceImages == old(replaceImages) && buttonStyle == old(buttonStyle)
      ensures (pass, page) == CreativePass(old(page), replaceImages[k], At(imageData, k), decoded, buttonStyle)
      ensures count == ReplacedIn(pass) && shots == Somes(CaptureRun(captures, done, count))
    {
      var data := At(imageData, k);
      if data.None? {
        assert CaptureRun(captures, done, 0) == [];
        return 0, [], [];
      }
      var c := replaceImages[k];
      var matches := ScanEntirePageForAds(c.width, c.height);
      count, shots, pass := TryMatches(c, matches, data.value, decoded, captures, done);
    }

    /** The loop over one creative's matches: skip a key already replaced for this
        creative, otherwise replace; each replacement is followed by screenshot number
        `done + count` and the restore. */
    method TryMatches(c: Creative, matches: seq<Match>, imageData: string, decoded: bool,
                      captures: seq<Option<string>>, done: nat)
      returns (count: nat, shots: seq<string>, ghost pass: seq<Attempt>)
      requires forall i :: 0 <= i < |matches| ==> matches[i].handle < |page|
      modifies this
      ensures replaceImages == old(replaceImages) && buttonStyle == old(buttonStyle)
      ensures (pass, page) == PassUpTo(old(page), c, matches, |matches|, imageData, decoded, buttonStyle)
      ensures count == ReplacedIn(pass) && shots == Somes(CaptureRun(captures, done, count))
    {
      count, shots, pass := 0, [], [];
      var processed: set<string> := {};
      assert CaptureRun(captures, done, 0) == [];
      var j := 0;
      while j < |matches|
        invariant replaceImages == old(replaceImages) && buttonStyle == old(buttonStyle)
        invariant TriedSoFar(old(page), page, pass, matches, j, c, imageData, decoded, buttonStyle,
                             processed, count, shots, captures, done)
      {
        var m := matches[j];
        var key := DedupKey(m.position, c.width, c.height);
        ghost var before := page;
        var outcome := TryMatch(c, matches, j, key, processed, imageData, decoded, old(page), pass);
        TryStep(old(page), before, page, pass, matches, j, c, imageData, decoded, buttonStyle,
                processed, count, shots, captures, done, outcome);
        if outcome == Replaced {
          var shot := At(captures, done + count);
          if shot.Some? {
            shots := shots + [shot.value];
          }
          count := count + 1;
          processed := processed + {key};
        }
        pass := pass + [Attempt(m.handle, key, outcome)];
        j := j + 1;
      }
    }

    /** Turn `j` of the loop over matches, up to its screenshot: skipped when its key was
        already replaced for this creative, otherwise replaced and restored. */
    method TryMatch(c: Creative, matches: seq<Match>, j: nat, key: string, processed: set<string>,
                    imageData: string, decoded: bool, ghost page0: seq<Element>, ghost pass: seq<Attempt>)
      returns (outcome: Outcome)
      requires j < |matches| && forall i :: 0 <= i < |matches| ==> matches[i].handle < |page0|
      requires (pass, page) == PassUpTo(page0, c, matches, j, imageData, decoded, buttonStyle)
      requires processed == ReplacedKeys(pass) && key == DedupKey(matches[j].position, c.width, c.height)
      modifies this
      ensures replaceImages == old(replaceImages) && buttonStyle == old(buttonStyle)
      ensures outcome == Skipped <==> key in processed
      ensures (pass + [Attempt(matches[j].handle, key, outcome)], page) ==
              PassTurn(page0, c, matches, j + 1, imageData, decoded, buttonStyle)
    {
      if key in processed {
        return Skipped;
      }
      var ok := ReplaceThenRestore(matches[j].handle, imageData, decoded, c.width, c.height);
      outcome := if ok then Replaced else Failed;
      assert TurnAttempt(page0, c, matches, j + 1, imageData, decoded, buttonStyle) ==
             AfterAttempt(old(page)[matches[j].handle], imageData, decoded, c.width, c.height, buttonStyle);
    }

    /** `main`'s loop over article URLs: each URL at most once, in order; after a page that
        produced screenshots, stop once the running total reaches `target`. `visits[v]`
        answers for the v-th URL processed. */
    method RunSession(urls: seq<string>, target: int, visits: seq<Visit>)
      returns (total: nat, ghost visited: seq<string>, ghost pages: seq<seq<string>>)
      modifies this
      ensures replaceImages == old(replaceImages) && buttonStyle == old(buttonStyle)
      ensures visited <= Distinct(urls) && |pages| == |visited|
      ensures forall v :: 0 <= v < |pages| ==> pages[v] == VisitPaths(VisitAt(visits, v), replaceImages, buttonStyle)
      ensures total == SumLengths(pages)
      ensures forall p :: 0 <= p < |pages| - 1 ==> !StopsAt(pages, p, target)
      ensures visited != Distinct(urls) ==> |pages| > 0 && StopsAt(pages, |pages| - 1, target)
    {
      total, visited, pages := 0, [], [];
      var processed: set<string> := {};
      var visitCount := 0;
      var i := 0;
      while i < |urls|
        invariant replaceImages == old(replaceImages) && buttonStyle == old(buttonStyle)
        invariant SessionSoFar(urls, i, visited, pages, total, target) && visitCount == |visited|
        invariant pages == SessionPages(visits, |pages|, replaceImages, buttonStyle)
        invariant forall u :: u in processed <==> u in urls[..i]
      {
        var url := urls[i];
        DistinctStep(urls, i);
        if url in processed {
          i := i + 1;
          continue;
        }
        var paths, _, _ := ProcessWebsite(VisitAt(visits, visitCount));
        SessionStep(urls, i, visited, pages, total, target, paths);
        processed := processed + {url};
        visited, pages := visited + [url], pages + [paths];
        visitCount := visitCount + 1;
        total := total + |paths|;
        if |paths| > 0 && total >= target {
          DistinctPrefix(urls, i + 1);
          SessionPagesAt(visits, |pages|, replaceImages, buttonStyle);
          return;
        }
        i := i + 1;
      }
      assert urls[..|urls|] == urls;
      SessionPagesAt(visits, |pages|, replaceImages, buttonStyle);
    }
  }

  /** The element as one replacement branch leaves it, and whether the replacement
      succeeded: a successful mutation is followed by the restore script, a failed one
      leaves whatever the mutation script had already done, and an element of the wrong
      size or a missing button style is not touched. Only the element's subtree changes. */
  function AfterAttempt(e: Element, imageData: string, decoded: bool, width: nat, height: nat,
                        buttonStyle: Option<string>): (r: (Element, bool))
    ensures r.0 == e.(box := r.0.box)
    ensures r.1 ==> ExactSize(e, width, height) && buttonStyle.Some?
    ensures !ExactSize(e, width, height) || buttonStyle.None? ==> r == (e, false)
  {
    var style := GetButtonStyle(buttonStyle);
    if ExactSize(e, width, height) && style.Some? then
      var m := Mutate(e.box, imageData, decoded, style.value);
      (e.(box := if m.1 then Restore(m.0) else m.0), m.1)
    else (e, false)
  }

  /** `after` is `before` with element `h` as one replacement branch leaves it, and `ok`
      says whether the replacement succeeded. */
  predicate AttemptLeft(before: seq<Element>, after: seq<Element>, h: nat, ok: bool, imageData: string,
                        decoded: bool, width: nat, height: nat, buttonStyle: Option<string>)
    requires h < |before|
  {
    var r := AfterAttempt(before[h], imageData, decoded, width, height, buttonStyle);
    ok == r.1 && after == before[h := r.0]
  }

  // ---------------------------------------------------------------- what a visit does

  /** The scan's answer over the first `i` elements of `page`: the reported ones, in
      document order, with the target size and their position text. */
  function ScanUpTo(page: seq<Element>, width: int, height: int, i: nat): (r: seq<Match>)
    requires i <= |page|
    ensures forall k :: 0 <= k < |r| ==> r[k].handle < i
    ensures forall a, b :: 0 <= a < b < |r| ==> r[a].handle < r[b].handle
  {
    if i == 0 then []
    else
      var e := page[i - 1];
      ScanUpTo(page, width, height, i - 1) +
        (if Reported(e, width, height) then [Match(i - 1, width, height, Position(e.rect.value))] else [])
  }

  /** What `scan_entire_page_for_ads` returns on `page`. */
  function ScanOf(page: seq<Element>, width: int, height: int): seq<Match> {
    ScanUpTo(page, width, height, |page|)
  }

  /** The loop over the first `j` matches of creative `c`, started on `page0`, as a value:
      the record of each attempt and the page it leaves. */
  function PassUpTo(page0: seq<Element>, c: Creative, matches: seq<Match>, j: nat, imageData: string,
                    decoded: bool, style: Option<string>): (r: (seq<Attempt>, seq<Element>))
    requires j <= |matches| && forall i :: 0 <= i < |matches| ==> matches[i].handle < |page0|
    ensures |r.0| == j && |r.1| == |page0|
    decreases j, 2
  {
    if j == 0 then ([], page0) else PassTurn(page0, c, matches, j, imageData, decoded, style)
  }

  /** The `j`-th turn of that loop: a match whose key was replaced earlier in this pass is
      skipped; any other is tried as one replacement branch. */
  function PassTurn(page0: seq<Element>, c: Creative, matches: seq<Match>, j: nat, imageData: string,
                    decoded: bool, style: Option<string>): (r: (seq<Attempt>, seq<Element>))
    requires 0 < j <= |matches| && forall i :: 0 <= i < |matches| ==> matches[i].handle < |page0|
    ensures |r.0| == j && |r.1| == |page0|
    decreases j, 1
  {
    var prev := PassUpTo(page0, c, matches, j - 1, imageData, decoded, style);
    var m := matches[j - 1];
    var key := DedupKey(m.position, c.width, c.height);
    if key in ReplacedKeys(prev.0) then (prev.0 + [Attempt(m.handle, key, Skipped)], prev.1)
    else
      var after := TurnAttempt(page0, c, matches, j, imageData, decoded, style);
      (prev.0 + [Attempt(m.handle, key, if after.1 then Replaced else Failed)], prev.1[m.handle := after.0])
  }

  /** The replacement branch of the `j`-th turn, on its match's element as the earlier turns
      left it. */
  function TurnAttempt(page0: seq<Element>, c: Creative, matches: seq<Match>, j: nat, imageData: string,
                       decoded: bool, style: Option<string>): (Element, bool)
    requires 0 < j <= |matches| && forall i :: 0 <= i < |matches| ==> matches[i].handle < |page0|
    decreases j, 0
  {
    var prev := PassUpTo(page0, c, matches, j - 1, imageData, decoded, style);
    AfterAttempt(prev.1[matches[j - 1].handle], imageData, decoded, c.width, c.height, style)
  }

  /** One creative on the current page: nothing when its image text cannot be read,
      otherwise the pass over what the scan of the page finds for its size. */
  function CreativePass(page: seq<Element>, c: Creative, data: Option<string>, decoded: bool,
                        style: Option<string>): (r: (seq<Attempt>, seq<Element>))
    ensures |r.1| == |page|
  {
    if data.None? then ([], page)
    else
      var matches := ScanOf(page, c.width, c.height);
      PassUpTo(page, c, matches, |matches|, data.value, decoded, style)
  }

  /** The first `n` creatives run one after another, starting on `page0`: their passes and
      the page they leave. */
  function CreativesUpTo(page0: seq<Element>, creatives: seq<Creative>, imageData: seq<Option<string>>,
                         decoded: bool, style: Option<string>, n: nat): (r: (seq<seq<Attempt>>, seq<Element>))
    requires n <= |creatives|
    ensures |r.0| == n && |r.1| == |page0|
    decreases n, 1
  {
    if n == 0 then ([], page0) else CreativeTurn(page0, creatives, imageData, decoded, style, n)
  }

  /** The `n`-th creative, run on the page the earlier ones left. */
  function CreativeTurn(page0: seq<Element>, creatives: seq<Creative>, imageData: seq<Option<string>>,
                        decoded: bool, style: Option<string>, n: nat): (r: (seq<seq<Attempt>>, seq<Element>))
    requires 0 < n <= |creatives|
    ensures |r.0| == n && |r.1| == |page0|
    decreases n, 0
  {
    var prev := CreativesUpTo(page0, creatives, imageData, decoded, style, n - 1);
    var run := CreativePass(prev.1, creatives[n - 1], At(imageData, n - 1), decoded, style);
    (prev.0 + [run.0], run.1)
  }

  /** How many creatives are run: all of them, unless the scan for a creative whose image
      was read raises, which ends the loop there. */
  function StopAt(creatives: seq<Creative>, imageData: seq<Option<string>>, scanRaises: Option<nat>): (n: nat)
    ensures n <= |creatives|
  {
    if scanRaises.Some? && scanRaises.value < |creatives| && At(imageData, scanRaises.value).Some?
    then scanRaises.value else |creatives|
  }

  /** What `process_website` returns for a visit: nothing when the page cannot be loaded or a
      scan raises; otherwise the screenshots that succeeded, one attempted per replacement. */
  function VisitPaths(visit: Visit, creatives: seq<Creative>, style: Option<string>): seq<string> {
    if visit.page.None? then []
    else
      var n := StopAt(creatives, visit.imageData, visit.scanRaises);
      if n < |creatives| then []
      else
        var passes := CreativesUpTo(visit.page.value, creatives, visit.imageData, visit.decoded, style, n).0;
        Somes(CaptureRun(visit.captures, 0, ReplacedInAll(passes)))
  }

  // ---------------------------------------------------------------- loop invariants

  /** A scan match for creative `c`, stated over a page's layout. */
  predicate MatchFits(m: Match, layout: seq<Element>, c: Creative) {
    m.handle < |layout| && layout[m.handle].rect.Some? &&
    WalkerAccepts(layout[m.handle]) && SizeMatches(layout[m.handle].rect.value, c.width, c.height) &&
    m.position == Position(layout[m.handle].rect.value)
  }

  function ReplacedKeys(pass: seq<Attempt>): set<string> {
    set i | 0 <= i < |pass| && pass[i].outcome == Replaced :: pass[i].key
  }

  /** The scan's matches for creative `c`, in document order. */
  predicate MatchesFit(matches: seq<Match>, layout: seq<Element>, c: Creative) {
    (forall i :: 0 <= i < |matches| ==> matches[i].handle < |layout|) &&
    (forall i :: 0 <= i < |matches| ==> MatchFits(matches[i], layout, c)) &&
    (forall a, b :: 0 <= a < b < |matches| ==> matches[a].handle < matches[b].handle)
  }

  /** The first `j` matches have been tried, in order. */
  predicate PassSoFar(pass: seq<Attempt>, matches: seq<Match>, j: nat, layout: seq<Element>, c: Creative) {
    |pass| == j && j <= |matches| &&
    (forall i :: 0 <= i < |matches| ==> matches[i].handle < |layout|) &&
    (forall i :: 0 <= i < j ==>
       pass[i].handle == matches[i].handle &&
       pass[i].key == DedupKey(matches[i].position, c.width, c.height) &&
       (pass[i].outcome == Replaced ==> ExactSize(layout[pass[i].handle], c.width, c.height))) &&
    SkipRule(pass)
  }

  /** The first `j` matches have been tried from `page0`, leaving `page`, with the keys
      replaced so far, the number of replacements and the screenshots they produced. */
  predicate TriedSoFar(page0: seq<Element>, page: seq<Element>, pass: seq<Attempt>, matches: seq<Match>, j: nat,
                       c: Creative, imageData: string, decoded: bool, style: Option<string>,
                       processed: set<string>, count: nat, shots: seq<string>,
                       captures: seq<Option<string>>, done: nat) {
    j <= |matches| && (forall i :: 0 <= i < |matches| ==> matches[i].handle < |page0|) &&
    (pass, page) == PassUpTo(page0, c, matches, j, imageData, decoded, style) &&
    processed == ReplacedKeys(pass) && count == ReplacedIn(pass) &&
    shots == Somes(CaptureRun(captures, done, count))
  }

  /** The first `|passes|` creatives have been run from `page0`, leaving `page`, with the
      replacements and the screenshots of all of them. */
  predicate CreativesSoFar(page0: seq<Element>, passes: seq<seq<Attempt>>, page: seq<Element>,
                           creatives: seq<Creative>, imageData: seq<Option<string>>, decoded: bool,
                           style: Option<string>, total: nat, screenshots: seq<string>,
                           captures: seq<Option<string>>) {
    |passes| <= |creatives| &&
    (passes, page) == CreativesUpTo(page0, creatives, imageData, decoded, style, |passes|) &&
    total == ReplacedInAll(passes) && screenshots == Somes(CaptureRun(captures, 0, total))
  }

  /** The first `|passes|` creatives' passes fit them. */
  predicate PagesSoFar(passes: seq<seq<Attempt>>, layout: seq<Element>, creatives: seq<Creative>,
                       imageData: seq<Option<string>>) {
    |passes| <= |creatives| &&
    (passes != [] ==>
       var k := |passes| - 1;
       PagesSoFar(passes[..k], layout, creatives, imageData) &&
       PassFits(passes[k], layout, creatives[k]) && (At(imageData, k).None? ==> passes[k] == []))
  }

  // ---------------------------------------------------------------- loop steps

  /** One turn of the loop over matches keeps its invariant. */
  lemma TryStep(page0: seq<Element>, page: seq<Element>, page': seq<Element>, pass: seq<Attempt>,
                matches: seq<Match>, j: nat, c: Creative, imageData: string, decoded: bool,
                style: Option<string>, processed: set<string>, count: nat, shots: seq<string>,
                captures: seq<Option<string>>, done: nat, outcome: Outcome)
    requires TriedSoFar(page0, page, pass, matches, j, c, imageData, decoded, style, processed, count, shots,
                        captures, done) && j < |matches|
    requires var key := DedupKey(matches[j].position, c.width, c.height);
      (outcome == Skipped <==> key in processed) &&
      (pass + [Attempt(matches[j].handle, key, outcome)], page') == PassTurn(page0, c, matches, j + 1, imageData, decoded, style)
    ensures var key := DedupKey(matches[j].position, c.width, c.height);
      var replaced := outcome == Replaced;
      var shot := At(captures, done + count);
      TriedSoFar(page0, page', pass + [Attempt(matches[j].handle, key, outcome)], matches, j + 1, c, imageData,
                 decoded, style,
                 if replaced then processed + {key} else processed,
                 if replaced then count + 1 else count,
                 if replaced && shot.Some? then shots + [shot.value] else shots,
                 captures, done)
  {
    var key := DedupKey(matches[j].position, c.width, c.height);
    ReplacedSnoc(pass, Attempt(matches[j].handle, key, outcome));
    SomesStep(captures, done, count);
  }

  lemma CreativesStart(page0: seq<Element>, creatives: seq<Creative>, imageData: seq<Option<string>>,
                       decoded: bool, style: Option<string>, captures: seq<Option<string>>)
    ensures CreativesSoFar(page0, [], page0, creatives, imageData, decoded, style, 0, [], captures)
  {
    assert CaptureRun(captures, 0, 0) == [];
  }

  /** One turn of the loop over creatives keeps its invariant. */
  lemma CreativeStep(page0: seq<Element>, passes: seq<seq<Attempt>>, page: seq<Element>, pass: seq<Attempt>,
                     page': seq<Element>, creatives: seq<Creative>, imageData: seq<Option<string>>,
                     decoded: bool, style: Option<string>, captures: seq<Option<string>>, done: nat,
                     screenshots: seq<string>, count: nat, shots: seq<string>)
    requires CreativesSoFar(page0, passes, page, creatives, imageData, decoded, style, done, screenshots, captures)
    requires |passes| < |creatives|
    requires (pass, page') == CreativePass(page, creatives[|passes|], At(imageData, |passes|), decoded, style)
    requires count == ReplacedIn(pass) && shots == Somes(CaptureRun(captures, done, count))
    ensures CreativesSoFar(page0, passes + [pass], page', creatives, imageData, decoded, style, done + count,
                           screenshots + shots, captures)
  {
    ReplacedInAllSnoc(passes, pass);
    SomesAppend(captures, done, count);
  }

  // ---------------------------------------------------------------- what a visit amounts to

  /** The scan finds every reported element: `k` is its place in the scan's answer. */
  lemma {:induction false} ScanComplete(page: seq<Element>, width: int, height: int, i: nat, x: nat)
    returns (k: nat)
    requires x < i <= |page| && Reported(page[x], width, height)
    ensures k < |ScanUpTo(page, width, height, i)| && ScanUpTo(page, width, height, i)[k].handle == x
    decreases i
  {
    var prev := ScanUpTo(page, width, height, i - 1);
    var r := ScanUpTo(page, width, height, i);
    if x < i - 1 {
      k := ScanComplete(page, width, height, i - 1, x);
      assert r[k] == prev[k];
    } else {
      k := |prev|;
    }
  }

  /** The scan reports only what the size and ad-likeness tests accept, each with the
      rounded size and the position text of its rectangle. */
  lemma {:induction false} ScanSound(page: seq<Element>, width: int, height: int, i: nat, k: nat)
    requires i <= |page| && k < |ScanUpTo(page, width, height, i)|
    ensures var m := ScanUpTo(page, width, height, i)[k];
      && Reported(page[m.handle], width, height)
      && m == Match(m.handle, width, height, Position(page[m.handle].rect.value))
    decreases i
  {
    var prev := ScanUpTo(page, width, height, i - 1);
    if k < |prev| {
      ScanSound(page, width, height, i - 1, k);
      assert ScanUpTo(page, width, height, i)[k] == prev[k];
    }
  }

  /** The scan's answer: exactly the reported elements, each once with its rounded size and
      position text, in document order. */
  lemma ScanOfMeaning(page: seq<Element>, width: int, height: int)
    ensures var r := ScanOf(page, width, height);
      && (forall k :: 0 <= k < |r| ==>
            r[k].handle < |page| && Reported(page[r[k].handle], width, height) &&
            r[k].width == width && r[k].height == height && r[k].position == Position(page[r[k].handle].rect.value))
      && (forall x :: 0 <= x < |page| && Reported(page[x], width, height) ==>
            exists k :: 0 <= k < |r| && r[k].handle == x)
      && (forall a, b :: 0 <= a < b < |r| ==> r[a].handle < r[b].handle)
  {
    forall k | 0 <= k < |ScanOf(page, width, height)| {
      ScanSound(page, width, height, |page|, k);
    }
    forall x | 0 <= x < |page| && Reported(page[x], width, height)
      ensures exists k :: 0 <= k < |ScanOf(page, width, height)| && ScanOf(page, width, height)[k].handle == x
    {
      var k := ScanComplete(page, width, height, |page|, x);
      assert 0 <= k < |ScanOf(page, width, height)| && ScanOf(page, width, height)[k].handle == x;
    }
  }

  /** The scan's matches, as the layout of a page shows them. */
  lemma ScanFits(page: seq<Element>, layout: seq<Element>, c: Creative)
    requires SameLayout(page, layout)
    ensures MatchesFit(ScanOf(page, c.width, c.height), layout, c)
  {
    var matches := ScanOf(page, c.width, c.height);
    forall i | 0 <= i < |matches|
      ensures MatchFits(matches[i], layout, c)
    {
      var m := matches[i];
      ScanSound(page, c.width, c.height, |page|, i);
      assert page[m.handle] == layout[m.handle].(box := page[m.handle].box);
    }
  }

  /** The pass over a creative's matches, run on a page with a given layout, tries each
      match in order under the skip rule, replaces only where the size is exact, and keeps
      the layout. */
  lemma {:induction false} PassUpToFits(page0: seq<Element>, layout: seq<Element>, c: Creative, matches: seq<Match>,
                                        j: nat, imageData: string, decoded: bool, style: Option<string>)
    requires SameLayout(page0, layout) && MatchesFit(matches, layout, c) && j <= |matches|
    ensures var r := PassUpTo(page0, c, matches, j, imageData, decoded, style);
      PassSoFar(r.0, matches, j, layout, c) && SameLayout(r.1, layout)
    decreases j
  {
    if j == 0 {
      assert SkipRule([]);
    } else {
      PassUpToFits(page0, layout, c, matches, j - 1, imageData, decoded, style);
      var prev := PassUpTo(page0, c, matches, j - 1, imageData, decoded, style);
      var r := PassTurn(page0, c, matches, j, imageData, decoded, style);
      TurnFits(page0, layout, c, matches, j, imageData, decoded, style);
      PassStep(prev.0, matches, j - 1, layout, c, r.0[j - 1]);
      SameLayoutUpdate(prev.1, layout, matches[j - 1].handle, r.1);
    }
  }

  /** One turn of the pass records its match, skips exactly a key already replaced,
      replaces only an element of the exact size, and changes only that element's
      subtree. */
  lemma TurnFits(page0: seq<Element>, layout: seq<Element>, c: Creative, matches: seq<Match>, j: nat,
                 imageData: string, decoded: bool, style: Option<string>)
    requires 0 < j <= |matches| && forall i :: 0 <= i < |matches| ==> matches[i].handle < |page0|
    requires SameLayout(PassUpTo(page0, c, matches, j - 1, imageData, decoded, style).1, layout)
    ensures var prev := PassUpTo(page0, c, matches, j - 1, imageData, decoded, style);
      var r := PassTurn(page0, c, matches, j, imageData, decoded, style);
      var m := matches[j - 1];
      var key := DedupKey(m.position, c.width, c.height);
      && r.0 == prev.0 + [r.0[j - 1]]
      && r.0[j - 1].handle == m.handle && r.0[j - 1].key == key
      && (r.0[j - 1].outcome == Skipped <==> key in ReplacedKeys(prev.0))
      && (r.0[j - 1].outcome == Replaced ==> ExactSize(layout[m.handle], c.width, c.height))
      && (forall i :: 0 <= i < |r.1| && i != m.handle ==> r.1[i] == prev.1[i])
      && r.1[m.handle] == prev.1[m.handle].(box := r.1[m.handle].box)
  {
    var prev := PassUpTo(page0, c, matches, j - 1, imageData, decoded, style).1;
    var h := matches[j - 1].handle;
    assert prev[h].rect == layout[h].rect;
    var after := TurnAttempt(page0, c, matches, j, imageData, decoded, style);
    assert after == AfterAttempt(prev[h], imageData, decoded, c.width, c.height, style);
  }

  /** One creative's pass fits it and keeps the layout; an unreadable creative has none. */
  lemma CreativePassFits(page: seq<Element>, layout: seq<Element>, c: Creative, data: Option<string>,
                         decoded: bool, style: Option<string>)
    requires SameLayout(page, layout)
    ensures var r := CreativePass(page, c, data, decoded, style);
      PassFits(r.0, layout, c) && SameLayout(r.1, layout) && (data.None? ==> r.0 == [])
  {
    if data.Some? {
      var matches := ScanOf(page, c.width, c.height);
      ScanFits(page, layout, c);
      PassUpToFits(page, layout, c, matches, |matches|, data.value, decoded, style);
      FinishPass(PassUpTo(page, c, matches, |matches|, data.value, decoded, style).0, matches, layout, c);
    } else {
      assert SkipRule([]);
    }
  }

  /** The creatives run one after another on a page keep its layout, and each pass fits its
      creative. */
  lemma {:induction false} CreativesUpToFits(page0: seq<Element>, layout: seq<Element>, creatives: seq<Creative>,
                                             imageData: seq<Option<string>>, decoded: bool, style: Option<string>,
                                             n: nat)
    requires SameLayout(page0, layout) && n <= |creatives|
    ensures var r := CreativesUpTo(page0, creatives, imageData, decoded, style, n);
      PagesSoFar(r.0, layout, creatives, imageData) && SameLayout(r.1, layout)
    decreases n
  {
    if n > 0 {
      CreativesUpToFits(page0, layout, creatives, imageData, decoded, style, n - 1);
      var prev := CreativesUpTo(page0, creatives, imageData, decoded, style, n - 1);
      CreativePassFits(prev.1, layout, creatives[n - 1], At(imageData, n - 1), decoded, style);
      var run := CreativePass(prev.1, creatives[n - 1], At(imageData, n - 1), decoded, style);
      assert CreativesUpTo(page0, creatives, imageData, decoded, style, n) == (prev.0 + [run.0], run.1);
      PagesStep(prev.0, run.0, layout, creatives, imageData);
    }
  }

  /** What the finished loop over creatives of a loaded page amounts to. */
  lemma VisitDone(visit: Visit, creatives: seq<Creative>, style: Option<string>, passes: seq<seq<Attempt>>,
                  page: seq<Element>)
    requires visit.page.Some? && |passes| <= |creatives|
    requires (passes, page) == CreativesUpTo(visit.page.value, creatives, visit.imageData, visit.decoded, style, |passes|)
    ensures SameLayout(page, visit.page.value)
    ensures forall k :: 0 <= k < |passes| ==> PassFits(passes[k], visit.page.value, creatives[k])
    ensures forall k :: 0 <= k < |passes| && At(visit.imageData, k).None? ==> passes[k] == []
  {
    var layout := visit.page.value;
    CreativesUpToFits(layout, layout, creatives, visit.imageData, visit.decoded, style, |passes|);
    PagesMeaning(passes, layout, creatives, visit.imageData);
  }

  /** Earlier turns of the loop over matches are not changed by later ones. */
  lemma {:induction false} PassUpToPrefix(page0: seq<Element>, c: Creative, matches: seq<Match>, i: nat, j: nat,
                                          imageData: string, decoded: bool, style: Option<string>)
    requires i <= j <= |matches| && forall k :: 0 <= k < |matches| ==> matches[k].handle < |page0|
    ensures PassUpTo(page0, c, matches, j, imageData, decoded, style).0[..i] ==
            PassUpTo(page0, c, matches, i, imageData, decoded, style).0
    decreases j
  {
    var r := PassUpTo(page0, c, matches, j, imageData, decoded, style).0;
    if i < j {
      PassUpToPrefix(page0, c, matches, i, j - 1, imageData, decoded, style);
      TurnExtends(page0, c, matches, j, imageData, decoded, style);
      var prev := PassUpTo(page0, c, matches, j - 1, imageData, decoded, style).0;
      assert r[..j - 1] == prev;
      assert r[..i] == prev[..i];
    } else {
      assert r[..i] == r;
    }
  }

  /** A turn adds one attempt to the record of the earlier ones. */
  lemma TurnExtends(page0: seq<Element>, c: Creative, matches: seq<Match>, j: nat, imageData: string,
                    decoded: bool, style: Option<string>)
    requires 0 < j <= |matches| && forall i :: 0 <= i < |matches| ==> matches[i].handle < |page0|
    ensures var r := PassUpTo(page0, c, matches, j, imageData, decoded, style).0;
      r == PassUpTo(page0, c, matches, j - 1, imageData, decoded, style).0 + [r[j - 1]]
  {
    assert PassUpTo(page0, c, matches, j, imageData, decoded, style) ==
           PassTurn(page0, c, matches, j, imageData, decoded, style);
  }

  /** What each attempt of a pass records: the match it concerns; a skip exactly when an
      earlier attempt of the pass replaced the same key; otherwise a replacement exactly
      when the replacement branch succeeds on the page as the earlier attempts left it. */
  lemma AttemptMeaning(page0: seq<Element>, c: Creative, matches: seq<Match>, i: nat,
                       imageData: string, decoded: bool, style: Option<string>)
    requires i < |matches| && forall k :: 0 <= k < |matches| ==> matches[k].handle < |page0|
    ensures var pass := PassUpTo(page0, c, matches, |matches|, imageData, decoded, style).0;
      var before := PassUpTo(page0, c, matches, i, imageData, decoded, style);
      var m := matches[i];
      && pass[i].handle == m.handle && pass[i].key == DedupKey(m.position, c.width, c.height)
      && (pass[i].outcome == Skipped <==> pass[i].key in ReplacedKeys(pass[..i]))
      && (pass[i].outcome != Skipped ==>
            (pass[i].outcome == Replaced <==>
               AfterAttempt(before.1[m.handle], imageData, decoded, c.width, c.height, style).1))
  {
    PassUpToPrefix(page0, c, matches, i, |matches|, imageData, decoded, style);
    PassUpToPrefix(page0, c, matches, i + 1, |matches|, imageData, decoded, style);
    var pass := PassUpTo(page0, c, matches, |matches|, imageData, decoded, style).0;
    var next := PassUpTo(page0, c, matches, i + 1, imageData, decoded, style).0;
    assert pass[i] == pass[..i + 1][i] == next[i];
    assert TurnAttempt(page0, c, matches, i + 1, imageData, decoded, style) ==
           AfterAttempt(PassUpTo(page0, c, matches, i, imageData, decoded, style).1[matches[i].handle],
                        imageData, decoded, c.width, c.height, style);
  }

  /** The first match of a pass is never skipped, and is replaced exactly when the
      replacement branch succeeds on the page as it was loaded. */
  lemma FirstAttempt(page0: seq<Element>, c: Creative, matches: seq<Match>, imageData: string, decoded: bool,
                     style: Option<string>)
    requires 0 < |matches| && forall k :: 0 <= k < |matches| ==> matches[k].handle < |page0|
    ensures var pass := PassUpTo(page0, c, matches, |matches|, imageData, decoded, style).0;
      pass[0].outcome != Skipped &&
      (pass[0].outcome == Replaced <==>
         AfterAttempt(page0[matches[0].handle], imageData, decoded, c.width, c.height, style).1)
  {
    AttemptMeaning(page0, c, matches, 0, imageData, decoded, style);
    var pass := PassUpTo(page0, c, matches, |matches|, imageData, decoded, style).0;
    assert ReplacedKeys(pass[..0]) == {};
  }

  /** What a visit returns: nothing when the page cannot be loaded or a scan raises;
      otherwise at most one path per replacement, and exactly one per replacement when every
      screenshot succeeds. */
  lemma VisitPathsMeaning(visit: Visit, creatives: seq<Creative>, style: Option<string>)
    ensures visit.page.None? ==> VisitPaths(visit, creatives, style) == []
    ensures StopAt(creatives, visit.imageData, visit.scanRaises) < |creatives| ==> VisitPaths(visit, creatives, style) == []
    ensures visit.page.Some? && StopAt(creatives, visit.imageData, visit.scanRaises) == |creatives| ==>
      var total := ReplacedInAll(CreativesUpTo(visit.page.value, creatives, visit.imageData, visit.decoded,
                                               style, |creatives|).0);
      && |VisitPaths(visit, creatives, style)| <= total
      && ((forall n :: 0 <= n < total ==> At(visit.captures, n).Some?) ==>
            |VisitPaths(visit, creatives, style)| == total)
  {
    if visit.page.Some? && StopAt(creatives, visit.imageData, visit.scanRaises) == |creatives| {
      var total := ReplacedInAll(CreativesUpTo(visit.page.value, creatives, visit.imageData, visit.decoded,
                                               style, |creatives|).0);
      SomesLength(CaptureRun(visit.captures, 0, total));
    }
  }

  /** The paths kept are at most the answers, and all of them when every answer is one. */
  lemma {:induction false} SomesLength(s: seq<Option<string>>)
    ensures |Somes(s)| <= |s|
    ensures (forall i :: 0 <= i < |s| ==> s[i].Some?) ==> |Somes(s)| == |s|
  {
    if s != [] {
      SomesLength(s[..|s| - 1]);
    }
  }

  // ---------------------------------------------------------------- helper lemmas

  /** A finished pass over fitting matches fits the creative. */
  lemma FinishPass(pass: seq<Attempt>, matches: seq<Match>, layout: seq<Element>, c: Creative)
    requires PassSoFar(pass, matches, |matches|, layout, c) && MatchesFit(matches, layout, c)
    ensures PassFits(pass, layout, c)
  {
    forall i | 0 <= i < |pass|
      ensures AttemptFits(pass[i], layout, c)
    {
      assert MatchFits(matches[i], layout, c);
    }
  }

  lemma KeyTakenExtend(pass: seq<Attempt>, a: Attempt, j: nat, key: string)
    requires j <= |pass|
    ensures KeyTakenBefore(pass + [a], j, key) <==> KeyTakenBefore(pass, j, key)
  {
    if KeyTakenBefore(pass + [a], j, key) {
      var i :| 0 <= i < j && (pass + [a])[i].outcome == Replaced && (pass + [a])[i].key == key;
      assert pass[i] == (pass + [a])[i];
    }
    if KeyTakenBefore(pass, j, key) {
      var i :| 0 <= i < j && pass[i].outcome == Replaced && pass[i].key == key;
      assert pass[i] == (pass + [a])[i];
    }
  }

  lemma SkipRuleSnoc(pass: seq<Attempt>, a: Attempt)
    requires SkipRule(pass)
    requires a.outcome == Skipped <==> KeyTakenBefore(pass, |pass|, a.key)
    ensures SkipRule(pass + [a])
  {
    var p := pass + [a];
    forall j | 0 <= j < |p|
      ensures p[j].outcome == Skipped <==> KeyTakenBefore(p, j, p[j].key)
    {
      KeyTakenExtend(pass, a, j, p[j].key);
      if j < |pass| {
        assert p[j] == pass[j];
      }
    }
  }

  lemma ReplacedKeysMeaning(pass: seq<Attempt>, key: string)
    ensures key in ReplacedKeys(pass) <==> KeyTakenBefore(pass, |pass|, key)
  {
    if KeyTakenBefore(pass, |pass|, key) {
      var i :| 0 <= i < |pass| && pass[i].outcome == Replaced && pass[i].key == key;
      assert pass[i].key in ReplacedKeys(pass);
    }
  }

  /** One more attempt keeps the record of the loop over matches. */
  lemma PassStep(pass: seq<Attempt>, matches: seq<Match>, j: nat, layout: seq<Element>, c: Creative, a: Attempt)
    requires PassSoFar(pass, matches, j, layout, c) && j < |matches|
    requires a.handle == matches[j].handle && a.key == DedupKey(matches[j].position, c.width, c.height)
    requires a.outcome == Skipped <==> a.key in ReplacedKeys(pass)
    requires a.outcome == Replaced ==> ExactSize(layout[a.handle], c.width, c.height)
    ensures PassSoFar(pass + [a], matches, j + 1, layout, c)
  {
    ReplacedKeysMeaning(pass, a.key);
    SkipRuleSnoc(pass, a);
    var p := pass + [a];
    forall i | 0 <= i < j
      ensures p[i] == pass[i]
    {
    }
  }

  lemma ReplacedSnoc(pass: seq<Attempt>, a: Attempt)
    ensures ReplacedKeys(pass + [a]) == ReplacedKeys(pass) + (if a.outcome == Replaced then {a.key} else {})
    ensures ReplacedIn(pass + [a]) == ReplacedIn(pass) + (if a.outcome == Replaced then 1 else 0)
  {
    var p := pass + [a];
    assert p[..|pass|] == pass;
    forall key | key in ReplacedKeys(p)
      ensures key in ReplacedKeys(pass) + (if a.outcome == Replaced then {a.key} else {})
    {
      var i :| 0 <= i < |p| && p[i].outcome == Replaced && p[i].key == key;
      if i < |pass| {
        assert p[i] == pass[i];
      }
    }
    forall key | key in ReplacedKeys(pass)
      ensures key in ReplacedKeys(p)
    {
      var i :| 0 <= i < |pass| && pass[i].outcome == Replaced && pass[i].key == key;
      assert p[i] == pass[i];
    }
    if a.outcome == Replaced {
      assert p[|pass|] == a;
    }
  }

  lemma PagesStep(passes: seq<seq<Attempt>>, pass: seq<Attempt>, layout: seq<Element>,
                  creatives: seq<Creative>, imageData: seq<Option<string>>)
    requires PagesSoFar(passes, layout, creatives, imageData) && |passes| < |creatives|
    requires PassFits(pass, layout, creatives[|passes|])
    requires At(imageData, |passes|).None? ==> pass == []
    ensures PagesSoFar(passes + [pass], layout, creatives, imageData)
  {
    assert (passes + [pass])[..|passes|] == passes;
  }

  /** What the record of the loop over creatives says about each creative. */
  lemma {:induction false} PagesMeaning(passes: seq<seq<Attempt>>, layout: seq<Element>, creatives: seq<Creative>,
                                        imageData: seq<Option<string>>)
    requires PagesSoFar(passes, layout, creatives, imageData)
    ensures forall k :: 0 <= k < |passes| ==> PassFits(passes[k], layout, creatives[k])
    ensures forall k :: 0 <= k < |passes| && At(imageData, k).None? ==> passes[k] == []
  {
    if passes != [] {
      var k := |passes| - 1;
      PagesMeaning(passes[..k], layout, creatives, imageData);
      forall i | 0 <= i < k
        ensures passes[i] == passes[..k][i]
      {
      }
    }
  }

  lemma ReplacedInAllSnoc(passes: seq<seq<Attempt>>, pass: seq<Attempt>)
    ensures ReplacedInAll(passes + [pass]) == ReplacedInAll(passes) + ReplacedIn(pass)
  {
    assert (passes + [pass])[..|passes|] == passes;
  }

  lemma SameLayoutUpdate(p: seq<Element>, q: seq<Element>, h: nat, p': seq<Element>)
    requires SameLayout(p, q) && h < |p| && |p'| == |p|
    requires forall i :: 0 <= i < |p| && i != h ==> p'[i] == p[i]
    requires p'[h] == p[h].(box := p'[h].box)
    ensures SameLayout(p', q)
  {
  }

  lemma StopsAtPrefix(pages: seq<seq<string>>, x: seq<string>, target: int)
    ensures forall p :: 0 <= p < |pages| ==> (StopsAt(pages + [x], p, target) <==> StopsAt(pages, p, target))
    ensures SumLengths(pages + [x]) == SumLengths(pages) + |x|
  {
    var q := pages + [x];
    assert q[..|pages|] == pages;
    forall p | 0 <= p < |pages|
      ensures StopsAt(q, p, target) <==> StopsAt(pages, p, target)
    {
      assert q[..p + 1] == pages[..p + 1];
    }
  }

  lemma CaptureRunSnoc(captures: seq<Option<string>>, from: nat, n: nat)
    ensures CaptureRun(captures, from, n + 1) == CaptureRun(captures, from, n) + [At(captures, from + n)]
  {
  }

  lemma SomesStep(captures: seq<Option<string>>, from: nat, n: nat)
    ensures Somes(CaptureRun(captures, from, n + 1)) ==
      Somes(CaptureRun(captures, from, n)) +
      (if At(captures, from + n).Some? then [At(captures, from + n).value] else [])
  {
    CaptureRunSnoc(captures, from, n);
    var run := CaptureRun(captures, from, n + 1);
    assert run[..n] == CaptureRun(captures, from, n);
  }

  lemma {:induction false} SomesAppend(captures: seq<Option<string>>, from: nat, n: nat)
    ensures Somes(CaptureRun(captures, 0, from)) + Somes(CaptureRun(captures, from, n)) ==
            Somes(CaptureRun(captures, 0, from + n))
  {
    if n > 0 {
      SomesAppend(captures, from, n - 1);
      SomesStep(captures, from, n - 1);
      SomesStep(captures, 0, from + n - 1);
    } else {
      assert CaptureRun(captures, from, 0) == [];
    }
  }

  /** What the first `n` visits of a session return. */
  function SessionPages(visits: seq<Visit>, n: nat, creatives: seq<Creative>, style: Option<string>)
    : (r: seq<seq<string>>)
    ensures |r| == n
  {
    if n == 0 then [] else SessionPages(visits, n - 1, creatives, style) + [VisitPaths(VisitAt(visits, n - 1), creatives, style)]
  }

  lemma {:induction false} SessionPagesAt(visits: seq<Visit>, n: nat, creatives: seq<Creative>, style: Option<string>)
    ensures forall v :: 0 <= v < n ==>
      SessionPages(visits, n, creatives, style)[v] == VisitPaths(VisitAt(visits, v), creatives, style)
  {
    if n > 0 {
      SessionPagesAt(visits, n - 1, creatives, style);
      var prev := SessionPages(visits, n - 1, creatives, style);
      var r := SessionPages(visits, n, creatives, style);
      forall v | 0 <= v < n - 1
        ensures r[v] == prev[v]
      {
      }
    }
  }

  /** The session loop has looked at the first `i` URLs without stopping. */
  predicate SessionSoFar(urls: seq<string>, i: nat, visited: seq<string>, pages: seq<seq<string>>,
                         total: nat, target: int) {
    i <= |urls| && visited == Distinct(urls[..i]) && |pages| == |visited| &&
    total == SumLengths(pages) && forall p :: 0 <= p < |pages| ==> !StopsAt(pages, p, target)
  }

  /** One processed URL: the record grows by one page, and the session stops here exactly
      when that page has screenshots and the total reaches the target. */
  lemma SessionStep(urls: seq<string>, i: nat, visited: seq<string>, pages: seq<seq<string>>,
                    total: nat, target: int, paths: seq<string>)
    requires SessionSoFar(urls, i, visited, pages, total, target) && i < |urls|
    requires urls[i] !in urls[..i]
    ensures var pages' := pages + [paths];
      var total' := total + |paths|;
      visited + [urls[i]] == Distinct(urls[..i + 1]) && |pages'| == |visited| + 1 &&
      total' == SumLengths(pages') &&
      (forall p :: 0 <= p < |pages| ==> !StopsAt(pages', p, target)) &&
      (StopsAt(pages', |pages|, target) <==> |paths| > 0 && total' >= target) &&
      (!StopsAt(pages', |pages|, target) ==> SessionSoFar(urls, i + 1, visited + [urls[i]], pages', total', target))
  {
    DistinctStep(urls, i);
    StopsAtPrefix(pages, paths, target);
    var pages' := pages + [paths];
    assert pages'[..|pages| + 1] == pages';
  }

  lemma DistinctStep(urls: seq<string>, i: nat)
    requires i < |urls|
    ensures Distinct(urls[..i + 1]) == Distinct(urls[..i]) + (if urls[i] in urls[..i] then [] else [urls[i]])
    ensures forall u :: u in urls[..i + 1] <==> u in urls[..i] || u == urls[i]
  {
    assert urls[..i + 1][..i] == urls[..i];
    assert urls[..i + 1] == urls[..i] + [urls[i]];
  }

  lemma {:induction false} DistinctPrefix(urls: seq<string>, i: nat)
    requires i <= |urls|
    ensures Distinct(urls[..i]) <= Distinct(urls)
  {
    if i < |urls| {
      DistinctPrefix(urls[..|urls| - 1], i);
      assert urls[..|urls| - 1][..i] == urls[..i];
    } else {
      assert urls[..i] == urls;
    }
  }
}

=== FILE: image_manager.dfy ===
/** The image management web application (`src/image_manager_app.py`): which uploads are
    accepted, the canonical `img_<w>x<h>.<ext>` names given to them, and the operations on
    the list of image records behind the delete, synchronise, statistics, listing and
    upload endpoints. The request, the image library, the folder listing, the clock and the
    random numbers are answers passed in as values. */
module ImageManager {
  import opened Common
  import opened Strings
  import Sorting
  import Inventory

  // ---------------------------------------------------------------- extensions

  /** The extensions both filters list, in the order the synchronisation filter lists them. */
  const ImageExtensions: seq<string> := ["png", "jpg", "jpeg", "gif", "bmp", "webp"]

  const AllowedExtensions: set<string> := {"png", "jpg", "jpeg", "gif", "bmp", "webp"}

  /** `allowed_file`: the name has a '.', and the text after the last one, lowered, is an
      allowed extension. */
  predicate AllowedFile(filename: string) {
    '.' in filename && Lower(AfterLast(filename, '.')) in AllowedExtensions
  }

  /** The test `sync_files` applies to a directory entry: the lowered name ends with '.' and
      one of the extensions. */
  predicate ListedAsImage(filename: string) {
    exists k :: 0 <= k < |ImageExtensions| && EndsWith(Lower(filename), "." + ImageExtensions[k])
  }

  lemma ExtensionTable()
    ensures forall e :: e in AllowedExtensions <==> e in ImageExtensions
    ensures forall k :: 0 <= k < |ImageExtensions| ==> '.' !in ImageExtensions[k]
  {
  }

  lemma LowerCharDot(c: char)
    ensures LowerChar(c) == '.' <==> c == '.'
  {
  }

  lemma LowerDotFree(s: string)
    requires '.' !in s
    ensures '.' !in Lower(s)
  {
    forall i | 0 <= i < |s| ensures Lower(s)[i] != '.' {
      assert s[i] in s;
      LowerCharDot(s[i]);
    }
  }

  lemma LowerTwice(s: string)
    ensures Lower(Lower(s)) == Lower(s)
  {
  }

  /** `s.rsplit(c, 1)[1]` is what follows an occurrence of `c` with none after it. */
  lemma AfterLastAt(s: string, c: char, p: nat)
    requires p < |s| && s[p] == c
    requires forall q :: p < q < |s| ==> s[q] != c
    ensures AfterLast(s, c) == s[p + 1..]
  {
    assert c in s;
  }

  /** Whatever follows the last `c` of `head`, when it holds no `c`, is what comes after the
      last `c`. */
  lemma {:induction false} AfterLastAppend(head: string, tail: string, c: char)
    requires head != [] && head[|head| - 1] == c && c !in tail
    ensures AfterLast(head + tail, c) == tail
    decreases |tail|
  {
    var s := head + tail;
    if tail != [] {
      var init := tail[..|tail| - 1];
      assert s[..|s| - 1] == head + init;
      assert tail[|tail| - 1] in tail;
      AfterLastAppend(head, init, c);
      assert init + [tail[|tail| - 1]] == tail;
    } else {
      assert s == head;
    }
  }

  lemma LowerAppend(a: string, b: string)
    ensures Lower(a + b) == Lower(a) + Lower(b)
  {
    assert forall i :: |a| <= i < |a| + |b| ==> (a + b)[i] == b[i - |a|];
  }

  /** A name whose lowered text after the last '.' is `e` ends, lowered, with '.' and `e`. */
  lemma ExtensionEnds(f: string, e: string)
    requires '.' in f && Lower(AfterLast(f, '.')) == e
    ensures EndsWith(Lower(f), "." + e)
  {
    var r := AfterLast(f, '.');
    var p := |f| - |r| - 1;
    var low := Lower(f);
    assert f[p] == '.' && low[p] == '.';
    forall i | 0 <= i < |r| ensures low[p + 1 + i] == e[i] {
      assert f[p + 1 + i] == r[i];
    }
    DotThen(low, p, e);
  }

  /** A string holding '.' at `p` and then the characters of `e` up to its end ends with
      '.' and `e`. */
  lemma DotThen(s: string, p: nat, e: string)
    requires p < |s| && s[p] == '.' && |s| == p + 1 + |e|
    requires forall i :: 0 <= i < |e| ==> s[p + 1 + i] == e[i]
    ensures s[p..] == "." + e
  {
    assert forall i :: 0 < i <= |e| ==> s[p..][i] == s[p + 1 + (i - 1)];
  }

  /** A name ending, lowered, with '.' and a dot-free `e` has `e` as its lowered text after
      the last '.'. */
  lemma EndsExtension(f: string, e: string)
    requires '.' !in e && EndsWith(Lower(f), "." + e)
    ensures '.' in f && Lower(AfterLast(f, '.')) == e
  {
    var l := Lower(f);
    var n := |f|;
    var p := n - |e| - 1;
    var tail := "." + e;
    assert l[p..] == tail;
    assert l[p] == tail[0];
    LowerCharDot(f[p]);
    forall q | p < q < n ensures f[q] != '.' {
      assert l[q] == tail[q - p] == e[q - p - 1];
      assert e[q - p - 1] in e;
      LowerCharDot(f[q]);
    }
    AfterLastAt(f, '.', p);
    SplitAt(f, p + 1);
    LowerAppend(f[..p + 1], f[p + 1..]);
    assert l[p + 1..] == tail[1..] == e;
  }

  lemma SplitAt(s: string, i: nat)
    requires i <= |s|
    ensures s[..i] + s[i..] == s
  {
  }

  /** The lowered text after the last '.' is `e` exactly when the lowered name ends with
      '.' followed by `e`. */
  lemma ExtensionIff(f: string, e: string)
    requires '.' !in e
    ensures ('.' in f && Lower(AfterLast(f, '.')) == e) <==> EndsWith(Lower(f), "." + e)
  {
    if '.' in f && Lower(AfterLast(f, '.')) == e {
      ExtensionEnds(f, e);
    }
    if EndsWith(Lower(f), "." + e) {
      EndsExtension(f, e);
    }
  }

  /** The upload filter and the synchronisation filter accept the same names. */
  lemma AllowedFileIsListed(f: string)
    ensures AllowedFile(f) <==> ListedAsImage(f)
  {
    ExtensionTable();
    if AllowedFile(f) {
      var e := Lower(AfterLast(f, '.'));
      LowerDotFree(AfterLast(f, '.'));
      ExtensionIff(f, e);
      var k :| 0 <= k < |ImageExtensions| && ImageExtensions[k] == e;
    }
    if ListedAsImage(f) {
      var k :| 0 <= k < |ImageExtensions| && EndsWith(Lower(f), "." + ImageExtensions[k]);
      ExtensionIff(f, ImageExtensions[k]);
    }
  }

  // ---------------------------------------------------------------- canonical names

  /** `random.randint(100, 999)`. */
  type Suffix = n: int | 100 <= n <= 999 witness 100

  /** The lowered text after the last '.', or `jpg` for a name without one. */
  function ExtensionOf(original: string): (ext: string)
    ensures '.' !in ext
  {
    if '.' in original then
      LowerDotFree(AfterLast(original, '.'));
      Lower(AfterLast(original, '.'))
    else "jpg"
  }

  /** `f"img_{width}x{height}"`. */
  function Stem(width: nat, height: nat): string {
    "img_" + NatToDecimal(width) + "x" + NatToDecimal(height)
  }

  /** `generate_filename`: `img_<w>x<h>.<ext>`, or `img_<w>x<h>_<n>.<ext>` with the random
      `draw` when the plain name is among the `taken` names of the folder. */
  function GenerateFilename(original: string, width: nat, height: nat, taken: set<string>,
                            draw: Suffix): string
  {
    var ext := ExtensionOf(original);
    var mark := if Stem(width, height) + "." + ext in taken then "_" + NatToDecimal(draw) else "";
    Stem(width, height) + mark + "." + ext
  }

  /** A name ending in '.' + `ext` ends in '.' + `e` only when the two extensions agree. */
  lemma EndsWithExtension(x: string, ext: string, e: string)
    requires '.' !in ext && '.' !in e
    ensures EndsWith(x + "." + ext, "." + e) <==> ext == e
  {
    var s := x + "." + ext;
    var d := |x|;
    assert s[d] == '.';
    assert s[d + 1..] == ext;
    if EndsWith(s, "." + e) {
      var p := |s| - |e| - 1;
      assert e == ("." + e)[1..] == s[p..][1..];
    }
  }

  /** The loader's extension test on a name ending in '.' + `ext`. */
  lemma CreativeExtensionIff(x: string, ext: string)
    requires '.' !in ext
    ensures Inventory.HasCreativeExtension(x + "." + ext) <==> ext in {"png", "jpg", "jpeg"}
  {
    assert "." + "jpg" == ".jpg" && "." + "jpeg" == ".jpeg" && "." + "png" == ".png";
    EndsWithExtension(x, ext, "jpg");
    EndsWithExtension(x, ext, "jpeg");
    EndsWithExtension(x, ext, "png");
  }

  /** The size pattern the replacement engine searches for reads back, from a generated
      name, the image's own width and height. */
  lemma GeneratedNameSize(original: string, width: nat, height: nat, taken: set<string>, draw: Suffix)
    ensures Inventory.SizeInName(GenerateFilename(original, width, height, taken, draw)) == Some((width, height))
  {
    var ext := ExtensionOf(original);
    var mark := if Stem(width, height) + "." + ext in taken then "_" + NatToDecimal(draw) else "";
    var rest := mark + "." + ext;
    assert GenerateFilename(original, width, height, taken, draw) ==
           "img_" + NatToDecimal(width) + "x" + NatToDecimal(height) + rest;
    Inventory.CanonicalNameSize("img_", width, height, rest);
  }

  /** A generated name keeps the upload's extension. */
  lemma GeneratedNameExtension(original: string, width: nat, height: nat, taken: set<string>, draw: Suffix)
    ensures AfterLast(GenerateFilename(original, width, height, taken, draw), '.') == ExtensionOf(original)
  {
    var name := GenerateFilename(original, width, height, taken, draw);
    var ext := ExtensionOf(original);
    var mark := if Stem(width, height) + "." + ext in taken then "_" + NatToDecimal(draw) else "";
    var head := Stem(width, height) + mark + ".";
    assert name == head + ext;
    AfterLastAppend(head, ext, '.');
  }

  /** A generated name passes the upload filter exactly when the upload's own name did. */
  lemma GeneratedNameAllowed(original: string, width: nat, height: nat, taken: set<string>, draw: Suffix)
    requires '.' in original
    ensures AllowedFile(GenerateFilename(original, width, height, taken, draw)) <==> AllowedFile(original)
  {
    var name := GenerateFilename(original, width, height, taken, draw);
    GeneratedNameExtension(original, width, height, taken, draw);
    LowerTwice(AfterLast(original, '.'));
    assert name[|name| - |ExtensionOf(original)| - 1] == '.';
  }

  /** The replacement engine picks a stored upload up exactly when its extension is png,
      jpg or jpeg, with the image's own size: gif, bmp and webp uploads are kept but never
      used. */
  lemma LoaderSeesUpload(folder: string, original: string, width: nat, height: nat,
                         taken: set<string>, draw: Suffix)
    ensures var name := GenerateFilename(original, width, height, taken, draw);
      Inventory.ParseCreative(folder, name) ==
        if ExtensionOf(original) in {"png", "jpg", "jpeg"}
        then Some(Inventory.Creative(folder + "/" + name, name, width, height))
        else None
  {
    var ext := ExtensionOf(original);
    var mark := if Stem(width, height) + "." + ext in taken then "_" + NatToDecimal(draw) else "";
    GeneratedNameSize(original, width, height, taken, draw);
    CreativeExtensionIff(Stem(width, height) + mark, ext);
  }

  /** The suffixed name is not checked again: a third upload of the same size, drawing the
      same number as the second, is given the second one's name and replaces its file. */
  lemma SuffixedNameReused(original: string, width: nat, height: nat, draw: Suffix)
    ensures var first := GenerateFilename(original, width, height, {}, draw);
      var second := GenerateFilename(original, width, height, {first}, draw);
      && second != first
      && GenerateFilename(original, width, height, {first, second}, draw) == second
  {
    var stem, ext := Stem(width, height), ExtensionOf(original);
    var first := GenerateFilename(original, width, height, {}, draw);
    assert first == stem + "." + ext by {
      assert stem + "" == stem;
    }
    var second := GenerateFilename(original, width, height, {first}, draw);
    assert second == stem + ("_" + NatToDecimal(draw)) + "." + ext;
    assert |second| > |first|;
  }

  // ---------------------------------------------------------------- records

  /** One entry of `image_records.json`. `info` is its `image_info` object, `None` for a
      JSON null; an entry without that key reads as the empty object. */
  datatype Record = Record(filename: string, originalName: string, uploadTime: string,
                           info: Option<map<string, Value>>)

  /** The records file: missing, blank (only whitespace), not valid JSON, or a list. */
  datatype RecordsFile = Absent | Blank | Corrupt | Present(records: seq<Record>)

  /** `[record for record in records if record['filename'] not in names]`. */
  function Without(records: seq<Record>, names: set<string>): (r: seq<Record>)
    ensures |r| <= |records|
    ensures forall x :: x in r <==> x in records && x.filename !in names
  {
    if records == [] then []
    else (if records[0].filename !in names then [records[0]] else []) + Without(records[1..], names)
  }

  /** The filter keeps the order: it distributes over concatenation. */
  lemma {:induction false} WithoutAppend(a: seq<Record>, b: seq<Record>, names: set<string>)
    ensures Without(a + b, names) == Without(a, names) + Without(b, names)
  {
    if a == [] {
      assert a + b == b;
    } else {
      assert (a + b)[0] == a[0];
      assert (a + b)[1..] == a[1..] + b;
      WithoutAppend(a[1..], b, names);
    }
  }

  /** Records whose names are not filtered out are kept as they are. */
  lemma {:induction false} WithoutNothing(records: seq<Record>, names: set<string>)
    requires forall x :: x in records ==> x.filename !in names
    ensures Without(records, names) == records
  {
    if records != [] {
      assert records[0] in records;
      forall x | x in records[1..] ensures x.filename !in names {
        assert x in records;
      }
      WithoutNothing(records[1..], names);
    }
  }

  /** Deleting twice is deleting once. */
  lemma WithoutTwice(records: seq<Record>, names: set<string>)
    ensures Without(Without(records, names), names) == Without(records, names)
  {
    WithoutNothing(Without(records, names), names);
  }

  /** `delete_image_record` when it gets the lock: whether it reports success and the list
      it writes back. A blank file counts as an empty list; a file that is not JSON makes
      every retry raise, so the result is a failure with nothing written. */
  function DeleteImageRecord(file: RecordsFile, filename: string): (r: (bool, Option<seq<Record>>))
    ensures r.0 <==> !file.Corrupt?
    ensures r.1.Some? <==> file.Blank? || file.Present?
    ensures r.1.Some? ==> forall x :: x in r.1.value <==> file.Present? && x in file.records && x.filename != filename
  {
    match file
    case Absent => (true, None)
    case Blank => (true, Some([]))
    case Corrupt => (false, None)
    case Present(records) => (true, Some(Without(records, {filename})))
  }

  /** `save_image_record`: the list it writes. A file that is missing or cannot be parsed
      (a blank one included) counts as an empty list. */
  function SaveImageRecord(file: RecordsFile, record: Record): (written: seq<Record>)
    ensures |written| >= 1 && written[|written| - 1] == record
    ensures file.Present? ==> written[..|written| - 1] == file.records
    ensures !file.Present? ==> written == [record]
  {
    (if file.Present? then file.records else []) + [record]
  }

  /** Deleting a name right after saving a record under it removes that record and every
      older record of the same name, and leaves the rest in order. */
  lemma SaveThenDelete(records: seq<Record>, record: Record)
    ensures DeleteImageRecord(Present(SaveImageRecord(Present(records), record)), record.filename) ==
            (true, Some(Without(records, {record.filename})))
  {
    var names := {record.filename};
    assert SaveImageRecord(Present(records), record) == records + [record];
    WithoutAppend(records, [record], names);
    assert [record][1..] == [];
    assert Without([record], names) == Without([], names);
    var kept := Without(records, names);
    assert Without(records + [record], names) == kept + [] == kept;
    assert DeleteImageRecord(Present(records + [record]), record.filename) == (true, Some(kept));
  }

  // ---------------------------------------------------------------- synchronisation

  /** What `Image.open` reads from a file of the folder: width, height and size in bytes, or
      nothing when the file cannot be opened. */
  type Reader = string -> Option<(nat, nat, nat)>

  /** A new record can be made for the file: it opens, and its height is not zero (the
      aspect ratio divides by it). */
  predicate Readable(read: Reader, f: string) {
    read(f).Some? && read(f).value.1 != 0
  }

  /** The record `sync_files` makes for a file found in the folder. */
  function NewRecord(f: string, facts: (nat, nat, nat), now: string): Record {
    Record(f, f, now, Some(map["width" := Int(facts.0), "height" := Int(facts.1), "file_size" := Int(facts.2)]))
  }

  /** The image files of a folder listing. */
  function ImageFiles(listing: seq<string>): set<string> {
    set f | f in listing && ListedAsImage(f)
  }

  /** `{record['filename'] for record in records}`. */
  function Filenames(records: seq<Record>): set<string> {
    set r | r in records :: r.filename
  }

  /** The names of a run of records, taken from the back. */
  function NamesOf(records: seq<Record>): set<string> {
    if records == [] then {} else NamesOf(records[..|records| - 1]) + {records[|records| - 1].filename}
  }

  datatype SyncReport = SyncFailed | Synced(removed: set<string>, added: set<string>, records: seq<Record>)

  /** `appended` holds one new record for each readable file of `names`, and nothing else. */
  predicate NewRecordsFor(appended: seq<Record>, names: set<string>, read: Reader, now: string) {
    && NamesOf(appended) == (set f | f in names && Readable(read, f))
    && |appended| == |NamesOf(appended)|
    && forall r :: r in appended ==> Readable(read, r.filename) && r == NewRecord(r.filename, read(r.filename).value, now)
  }

  /** One more file of the loop over the files to add. */
  lemma NewRecordsStep(appended: seq<Record>, names: set<string>, f: string, read: Reader, now: string)
    requires NewRecordsFor(appended, names, read, now) && f !in names
    ensures Readable(read, f) ==> NewRecordsFor(appended + [NewRecord(f, read(f).value, now)], names + {f}, read, now)
    ensures !Readable(read, f) ==> NewRecordsFor(appended, names + {f}, read, now)
  {
    if Readable(read, f) {
      var r := NewRecord(f, read(f).value, now);
      var longer := appended + [r];
      assert longer[..|appended|] == appended;
      assert NamesOf(longer) == NamesOf(appended) + {f};
      assert f !in NamesOf(appended);
    } else {
      assert (set g | g in names + {f} && Readable(read, g)) == (set g | g in names && Readable(read, g));
    }
  }

  /** Moving one name from the files still to do to the files done keeps their union. */
  lemma MoveOne(done: set<string>, todo: set<string>, f: string)
    requires f in todo && done !! todo
    ensures (done + {f}) + (todo - {f}) == done + todo && (done + {f}) !! (todo - {f})
  {
  }

  /** The loop of `sync_files` that makes the new records, in the order `pick` chooses. */
  method NewRecords(added: set<string>, read: Reader, now: string) returns (appended: seq<Record>)
    ensures NewRecordsFor(appended, added, read, now)
  {
    appended := [];
    var done: set<string> := {};
    var todo := added;
    assert (set f | f in done && Readable(read, f)) == {};
    while todo != {}
      invariant done + todo == added && done !! todo
      invariant NewRecordsFor(appended, done, read, now)
      decreases |todo|
    {
      var f :| f in todo;
      MoveOne(done, todo, f);
      NewRecordsStep(appended, done, f, read, now);
      if Readable(read, f) {
        appended := appended + [NewRecord(f, read(f).value, now)];
      }
      done := done + {f};
      todo := todo - {f};
    }
  }

  /** `sync_files`: records of files that are gone are dropped, in order; image files without
      a record get a new record at the end, in an order the set iteration chooses, unless
      they cannot be read. */
  method SyncFiles(listing: seq<string>, file: RecordsFile, read: Reader, now: string)
    returns (report: SyncReport)
    ensures report.SyncFailed? <==> file.Blank? || file.Corrupt?
    ensures report.Synced? ==>
      var records := if file.Present? then file.records else [];
      var kept := Without(records, report.removed);
      && report.removed == Filenames(records) - ImageFiles(listing)
      && report.added == ImageFiles(listing) - Filenames(records)
      && |kept| <= |report.records| && report.records[..|kept|] == kept
      && NewRecordsFor(report.records[|kept|..], report.added, read, now)
  {
    if file.Blank? || file.Corrupt? {
      return SyncFailed;
    }
    var records := if file.Present? then file.records else [];
    var actual := ImageFiles(listing);
    var recorded := Filenames(records);
    var removed := recorded - actual;
    var added := actual - recorded;
    var kept := Without(records, removed);
    var appended := NewRecords(added, read, now);
    report := Synced(removed, added, kept + appended);
    assert report.records[|kept|..] == appended;
    assert report.records[..|kept|] == kept;
  }

  /** What a synchronisation leaves: nothing is both dropped and added, and every record it
      writes names an image file that is in the folder. */
  lemma SyncResult(listing: seq<string>, records: seq<Record>, removed: set<string>, added: set<string>,
                   appended: seq<Record>, read: Reader, now: string)
    requires removed == Filenames(records) - ImageFiles(listing)
    requires added == ImageFiles(listing) - Filenames(records)
    requires NewRecordsFor(appended, added, read, now)
    ensures removed !! added
    ensures forall r :: r in Without(records, removed) + appended ==> r.filename in ImageFiles(listing)
    ensures forall f :: f in ImageFiles(listing) && f !in Filenames(records) && Readable(read, f) ==>
              f in NamesOf(appended)
  {
    forall r | r in Without(records, removed) + appended ensures r.filename in ImageFiles(listing) {
      if r in Without(records, removed) {
        assert r in records;
      } else {
        NamesOfMembers(appended, r);
      }
    }
  }

  lemma {:induction false} NamesOfMembers(records: seq<Record>, r: Record)
    requires r in records
    ensures r.filename in NamesOf(records)
  {
    var last := records[|records| - 1];
    if r != last {
      assert records == records[..|records| - 1] + [last];
      NamesOfMembers(records[..|records| - 1], r);
    }
  }

  // ---------------------------------------------------------------- statistics

  datatype Stats = Stats(totalImages: nat, totalSize: int, distribution: map<string, nat>)

  /** What `total_size += info.get('file_size', 0)` adds for a record, or `None` when that
      line raises: a null `image_info` has no `get`, and a size that is null or text cannot
      be added to an int (a boolean adds as 0 or 1). */
  function SizeTerm(r: Record): Option<int> {
    match r.info
    case None => None
    case Some(info) =>
      match Get(info, "file_size", Int(0))
      case Int(n) => Some(n)
      case Bool(b) => Some(if b then 1 else 0)
      case _ => None
  }

  /** `f"{info.get('width', 0)}x{info.get('height', 0)}"`. */
  function SizeKey(info: map<string, Value>): string {
    Show(Get(info, "width", Int(0))) + "x" + Show(Get(info, "height", Int(0)))
  }

  /** `size_distribution.get(size_key, 0)`. */
  function CountOf(m: map<string, nat>, key: string): nat {
    if key in m then m[key] else 0
  }

  predicate AllSized(rs: seq<Record>) {
    forall i :: 0 <= i < |rs| ==> SizeTerm(rs[i]).Some?
  }

  /** How many records the statistics loop gets through before one raises. */
  function SizedPrefix(rs: seq<Record>): (n: nat)
    ensures n <= |rs| && AllSized(rs[..n])
    ensures n < |rs| ==> SizeTerm(rs[n]).None?
  {
    if rs == [] || SizeTerm(rs[0]).None? then 0
    else
      var n := SizedPrefix(rs[1..]);
      assert forall i :: 1 <= i < n + 1 ==> rs[..n + 1][i] == rs[1..][..n][i - 1] == rs[i];
      n + 1
  }

  /** The size total and the size histogram of records that all get through the loop. */
  function Tally(rs: seq<Record>): (int, map<string, nat>)
    requires AllSized(rs)
  {
    if rs == [] then (0, map[]) else TallyAdd(Tally(rs[..|rs| - 1]), rs[|rs| - 1])
  }

  /** One pass of the statistics loop: add the record's size and count its size key. */
  function TallyAdd(acc: (int, map<string, nat>), r: Record): (int, map<string, nat>)
    requires SizeTerm(r).Some?
  {
    var key := SizeKey(r.info.value);
    (acc.0 + SizeTerm(r).value, acc.1[key := CountOf(acc.1, key) + 1])
  }

  /** The answer of `get_stats`; a file that is not a JSON list gives zeros. */
  function StatsOf(file: RecordsFile): Stats {
    match file
    case Present(rs) =>
      var t := Tally(rs[..SizedPrefix(rs)]);
      Stats(|rs|, t.0, t.1)
    case _ => Stats(0, 0, map[])
  }

  /** `get_stats`: the record count is taken before the loop, so a record that raises
      leaves it whole while the size total and the histogram stop short. */
  method GetStats(file: RecordsFile) returns (stats: Stats)
    ensures stats == StatsOf(file)
  {
    if !file.Present? {
      return Stats(0, 0, map[]);
    }
    var records := file.records;
    var totalSize := 0;
    var distribution: map<string, nat> := map[];
    var i := 0;
    // the loop ends at the first record whose size term raises
    while i < |records| && SizeTerm(records[i]).Some?
      invariant i <= |records| && AllSized(records[..i])
      invariant (totalSize, distribution) == Tally(records[..i])
    {
      var key := SizeKey(records[i].info.value);
      var total', distribution' := totalSize + SizeTerm(records[i]).value, distribution[key := CountOf(distribution, key) + 1];
      TallyStep(records, i, totalSize, distribution, total', distribution');
      totalSize, distribution := total', distribution';
      i := i + 1;
    }
    SizedPrefixIs(records, i);
    stats := Stats(|records|, totalSize, distribution);
  }

  /** The tally of one more record that gets through the loop. */
  lemma TallyStep(rs: seq<Record>, i: nat, total: int, dist: map<string, nat>, total': int, dist': map<string, nat>)
    requires i < |rs| && AllSized(rs[..i]) && SizeTerm(rs[i]).Some?
    requires Tally(rs[..i]) == (total, dist)
    requires (total', dist') == TallyAdd((total, dist), rs[i])
    ensures AllSized(rs[..i + 1])
    ensures Tally(rs[..i + 1]) == (total', dist')
  {
    AllSizedSnoc(rs, i);
    var longer := rs[..i + 1];
    assert longer[..|longer| - 1] == rs[..i] && longer[|longer| - 1] == rs[i];
  }

  /** One more record that gets through the loop keeps the prefix free of raising ones. */
  lemma AllSizedSnoc(rs: seq<Record>, i: nat)
    requires i < |rs| && AllSized(rs[..i]) && SizeTerm(rs[i]).Some?
    ensures AllSized(rs[..i + 1])
  {
    var longer := rs[..i + 1];
    forall j | 0 <= j < |longer| ensures SizeTerm(longer[j]).Some? {
      assert longer[j] == rs[j];
      if j < i {
        assert rs[..i][j] == rs[j];
      }
    }
  }

  /** The first record that raises is where SizedPrefix stops. */
  lemma {:induction false} SizedPrefixIs(rs: seq<Record>, n: nat)
    requires n <= |rs| && AllSized(rs[..n])
    requires n < |rs| ==> SizeTerm(rs[n]).None?
    ensures SizedPrefix(rs) == n
  {
    var m := SizedPrefix(rs);
  }

  /** The sum of the counts of a histogram. */
  ghost function MapSum(m: map<string, nat>): nat
    decreases |m|
  {
    if m == map[] then 0
    else
      var k :| k in m;
      assert |m - {k}| < |m| by {
        assert (m - {k}).Keys == m.Keys - {k};
      }
      m[k] + MapSum(m - {k})
  }

  /** The sum does not depend on which key is taken first. */
  lemma {:induction false} MapSumRemove(m: map<string, nat>, k: string)
    requires k in m
    ensures MapSum(m) == m[k] + MapSum(m - {k})
    decreases |m|
  {
    var j :| j in m && MapSum(m) == m[j] + MapSum(m - {j});
    if j != k {
      assert (m - {j}).Keys == m.Keys - {j};
      assert (m - {k}).Keys == m.Keys - {k};
      MapSumRemove(m - {j}, k);
      MapSumRemove(m - {k}, j);
      assert (m - {j}) - {k} == (m - {k}) - {j};
    }
  }

  /** One more record under `key` adds one to the sum. */
  lemma MapSumBump(m: map<string, nat>, key: string)
    ensures MapSum(m[key := CountOf(m, key) + 1]) == MapSum(m) + 1
  {
    var m' := m[key := CountOf(m, key) + 1];
    MapSumRemove(m', key);
    if key in m {
      MapSumRemove(m, key);
      assert m' - {key} == m - {key};
    } else {
      assert m' - {key} == m;
    }
  }

  lemma AllSizedInit(rs: seq<Record>)
    requires AllSized(rs) && rs != []
    ensures AllSized(rs[..|rs| - 1])
  {
    var init := rs[..|rs| - 1];
    forall i | 0 <= i < |init| ensures SizeTerm(init[i]).Some? {
      assert init[i] == rs[i];
    }
  }

  /** The counts of the histogram add up to the number of records tallied. */
  lemma {:induction false} TallyCount(rs: seq<Record>)
    requires AllSized(rs)
    ensures MapSum(Tally(rs).1) == |rs|
  {
    if rs != [] {
      var init := rs[..|rs| - 1];
      AllSizedInit(rs);
      TallyCount(init);
      MapSumBump(Tally(init).1, SizeKey(rs[|rs| - 1].info.value));
    }
  }

  /** Some record has size `key`. */
  predicate HasSize(rs: seq<Record>, key: string) {
    exists i :: 0 <= i < |rs| && rs[i].info.Some? && SizeKey(rs[i].info.value) == key
  }

  /** A size appears in the histogram exactly when some record has that size. */
  lemma {:induction false} TallyKeys(rs: seq<Record>, key: string)
    requires AllSized(rs)
    ensures key in Tally(rs).1 <==> HasSize(rs, key)
  {
    if rs != [] {
      var init := rs[..|rs| - 1];
      AllSizedInit(rs);
      TallyKeys(init, key);
      TallyLastKey(rs);
      HasSizeSnoc(rs, key);
    }
  }

  /** The last record tallied adds its own size to the histogram's keys. */
  lemma TallyLastKey(rs: seq<Record>)
    requires AllSized(rs) && rs != []
    ensures AllSized(rs[..|rs| - 1])
    ensures Tally(rs).1.Keys == Tally(rs[..|rs| - 1]).1.Keys + {SizeKey(rs[|rs| - 1].info.value)}
  {
    AllSizedInit(rs);
  }

  /** Some record of `rs` has size `key` when one before the last has, or the last has. */
  lemma HasSizeSnoc(rs: seq<Record>, key: string)
    requires rs != []
    ensures HasSize(rs, key) <==>
      HasSize(rs[..|rs| - 1], key) || (rs[|rs| - 1].info.Some? && SizeKey(rs[|rs| - 1].info.value) == key)
  {
    var init := rs[..|rs| - 1];
    if HasSize(init, key) {
      var i :| 0 <= i < |init| && init[i].info.Some? && SizeKey(init[i].info.value) == key;
      assert rs[i] == init[i];
    }
    if HasSize(rs, key) {
      var i :| 0 <= i < |rs| && rs[i].info.Some? && SizeKey(rs[i].info.value) == key;
      if i < |init| {
        assert init[i] == rs[i];
      }
    }
  }

  /** The size total taken front to back. */
  function SizeSum(rs: seq<Record>): int
    requires AllSized(rs)
  {
    if rs == [] then 0 else SizeTerm(rs[0]).value + SizeSum(rs[1..])
  }

  lemma {:induction false} SizeSumSnoc(rs: seq<Record>)
    requires AllSized(rs) && rs != []
    ensures AllSized(rs[..|rs| - 1])
    ensures SizeSum(rs) == SizeSum(rs[..|rs| - 1]) + SizeTerm(rs[|rs| - 1]).value
    decreases |rs|
  {
    if |rs| > 1 {
      assert rs[1..][..|rs| - 2] == rs[..|rs| - 1][1..];
      SizeSumSnoc(rs[1..]);
    }
  }

  lemma {:induction false} TallySize(rs: seq<Record>)
    requires AllSized(rs)
    ensures Tally(rs).0 == SizeSum(rs)
  {
    if rs != [] {
      SizeSumSnoc(rs);
      TallySize(rs[..|rs| - 1]);
    }
  }

  /** What `get_stats` reports for a list of records: the number of records, and, when no
      record raises, the sum of their sizes. The counts of the histogram add up to the
      record count exactly when no record raises; otherwise they count only the records
      before the first that does. */
  lemma StatsCorrect(rs: seq<Record>)
    ensures var s := StatsOf(Present(rs));
      && s.totalImages == |rs|
      && MapSum(s.distribution) == SizedPrefix(rs) <= |rs|
      && (MapSum(s.distribution) == |rs| <==> AllSized(rs))
      && (AllSized(rs) ==> s.totalSize == SizeSum(rs))
  {
    var n := SizedPrefix(rs);
    TallyCount(rs[..n]);
    if n == |rs| {
      assert rs[..n] == rs;
      TallySize(rs);
    } else {
      assert SizeTerm(rs[n]).None?;
    }
  }

  // ---------------------------------------------------------------- listing

  function UploadTimeOf(r: Record): string { r.uploadTime }

  /** `api_images`: the records, newest upload first; nothing when the file cannot be read. */
  function ApiImages(file: RecordsFile): (images: seq<Record>)
    ensures Sorting.Sorted(images, UploadTimeOf, true)
    ensures file.Present? ==> multiset(images) == multiset(file.records)
    ensures !file.Present? ==> images == []
  {
    if file.Present? then
      Sorting.SortByCorrect(file.records, UploadTimeOf, true);
      Sorting.SortBy(file.records, UploadTimeOf, true)
    else []
  }

  // ---------------------------------------------------------------- upload

  /** One file of an upload request: its name, and the width and height `get_image_info`
      reads from it, `None` when the image cannot be read. */
  datatype Upload = Upload(filename: string, size: Option<(nat, nat)>)

  datatype Outcome = Stored(name: string) | Unreadable | Unsupported

  datatype FileResult = FileResult(filename: string, outcome: Outcome)

  datatype UploadReport =
    | NothingChosen
    | Uploaded(success: bool, totalFiles: nat, successCount: nat, errorCount: nat, results: seq<FileResult>)

  /** The result entry says what became of the upload. */
  predicate Explains(u: Upload, r: FileResult) {
    r.filename == u.filename &&
    match r.outcome
    case Unsupported => !AllowedFile(u.filename)
    case Unreadable => AllowedFile(u.filename) && u.size.None?
    case Stored(name) =>
      && AllowedFile(u.filename) && u.size.Some?
      && Inventory.SizeInName(name) == Some(u.size.value)
      && AfterLast(name, '.') == ExtensionOf(u.filename)
  }

  /** One result per upload with a non-empty name, in order; none for an empty name. */
  predicate Explained(files: seq<Upload>, results: seq<FileResult>) {
    if files == [] then results == []
    else
      var u := files[|files| - 1];
      if u.filename == "" then Explained(files[..|files| - 1], results)
      else results != [] && Explains(u, results[|results| - 1]) &&
           Explained(files[..|files| - 1], results[..|results| - 1])
  }

  function NamedCount(files: seq<Upload>): nat {
    if files == [] then 0
    else NamedCount(files[..|files| - 1]) + (if files[|files| - 1].filename == "" then 0 else 1)
  }

  function StoredCount(results: seq<FileResult>): nat {
    if results == [] then 0
    else StoredCount(results[..|results| - 1]) + (if results[|results| - 1].outcome.Stored? then 1 else 0)
  }

  function StoredNames(results: seq<FileResult>): set<string> {
    if results == [] then {}
    else StoredNames(results[..|results| - 1]) +
         (if results[|results| - 1].outcome.Stored? then {results[|results| - 1].outcome.name} else {})
  }

  /** What becomes of one named file of the request: an extension outside the list is
      unsupported, an image that cannot be read is an error, and any other is stored under
      a name generated against the names already `stored`. */
  function UploadOutcome(u: Upload, stored: set<string>, draw: Suffix): Outcome {
    if !AllowedFile(u.filename) then Unsupported
    else if u.size.None? then Unreadable
    else Stored(GenerateFilename(u.filename, u.size.value.0, u.size.value.1, stored, draw))
  }

  /** The results of the upload loop over `files`: one per file with a name, in order, each
      stored name generated against the `folder` and the names the earlier files of the
      same request took, with the draw of the file's own turn. */
  function UploadResults(files: seq<Upload>, folder: set<string>, draws: nat -> Suffix): seq<FileResult> {
    if files == [] then []
    else
      var prev := UploadResults(files[..|files| - 1], folder, draws);
      var u := files[|files| - 1];
      if u.filename == "" then prev
      else prev + [FileResult(u.filename, UploadOutcome(u, folder + StoredNames(prev), draws(|files| - 1)))]
  }

  /** The body of the upload loop for one named file. */
  method StoreUpload(u: Upload, stored: set<string>, draw: Suffix) returns (outcome: Outcome)
    ensures outcome == UploadOutcome(u, stored, draw)
    ensures Explains(u, FileResult(u.filename, outcome))
    ensures outcome.Stored? ==>
      outcome.name == GenerateFilename(u.filename, u.size.value.0, u.size.value.1, stored, draw)
  {
    if !AllowedFile(u.filename) {
      outcome := Unsupported;
    } else if u.size.None? {
      outcome := Unreadable;
    } else {
      var name := GenerateFilename(u.filename, u.size.value.0, u.size.value.1, stored, draw);
      GeneratedNameSize(u.filename, u.size.value.0, u.size.value.1, stored, draw);
      GeneratedNameExtension(u.filename, u.size.value.0, u.size.value.1, stored, draw);
      outcome := Stored(name);
    }
  }

  /** The state of the upload loop after the files `done`. */
  predicate Progress(done: seq<Upload>, results: seq<FileResult>, successCount: nat, errorCount: nat,
                     stored: set<string>, folder: set<string>, draws: nat -> Suffix) {
    && results == UploadResults(done, folder, draws)
    && Explained(done, results)
    && successCount == StoredCount(results) && successCount + errorCount == |results|
    && stored == folder + StoredNames(results)
  }

  /** The upload loop after one more file of the request. */
  lemma ProgressStep(fs: seq<Upload>, i: nat, results: seq<FileResult>, successCount: nat, errorCount: nat,
                     stored: set<string>, folder: set<string>, draws: nat -> Suffix, entry: FileResult)
    requires i < |fs| && Progress(fs[..i], results, successCount, errorCount, stored, folder, draws)
    requires fs[i].filename != "" ==>
      entry == FileResult(fs[i].filename, UploadOutcome(fs[i], stored, draws(i))) && Explains(fs[i], entry)
    ensures fs[i].filename != "" ==>
      if entry.outcome.Stored? then
        Progress(fs[..i + 1], results + [entry], successCount + 1, errorCount, stored + {entry.outcome.name},
                 folder, draws)
      else
        Progress(fs[..i + 1], results + [entry], successCount, errorCount + 1, stored, folder, draws)
    ensures fs[i].filename == "" ==> Progress(fs[..i + 1], results, successCount, errorCount, stored, folder, draws)
  {
    assert fs[..i + 1][..i] == fs[..i];
    assert (results + [entry])[..|results|] == results;
  }

  /** `upload_image`: `folder` holds the names already stored and `draws(i)` is the random
      number for the i-th file. Each accepted and readable file is stored under its
      generated name; the others are reported as errors. */
  method UploadImage(files: Option<seq<Upload>>, folder: set<string>, draws: nat -> Suffix)
    returns (report: UploadReport, stored: set<string>)
    ensures report.NothingChosen? <==>
      files.None? || files.value == [] || (|files.value| == 1 && files.value[0].filename == "")
    ensures report.NothingChosen? ==> stored == folder
    ensures report.Uploaded? ==>
      && report.totalFiles == |files.value|
      && report.results == UploadResults(files.value, folder, draws)
      && Explained(files.value, report.results)
      && report.successCount == StoredCount(report.results)
      && report.successCount + report.errorCount == |report.results|
      && (report.success <==> report.successCount > 0)
      && stored == folder + StoredNames(report.results)
  {
    if files.None? || files.value == [] || (|files.value| == 1 && files.value[0].filename == "") {
      return NothingChosen, folder;
    }
    var fs := files.value;
    var results: seq<FileResult> := [];
    var successCount, errorCount := 0, 0;
    stored := folder;
    var i := 0;
    while i < |fs|
      invariant i <= |fs|
      invariant Progress(fs[..i], results, successCount, errorCount, stored, folder, draws)
    {
      var u := fs[i];
      if u.filename != "" {
        var outcome := StoreUpload(u, stored, draws(i));
        var entry := FileResult(u.filename, outcome);
        ProgressStep(fs, i, results, successCount, errorCount, stored, folder, draws, entry);
        if outcome.Stored? {
          stored := stored + {outcome.name};
          successCount := successCount + 1;
        } else {
          errorCount := errorCount + 1;
        }
        results := results + [entry];
      } else {
        ProgressStep(fs, i, results, successCount, errorCount, stored, folder, draws, FileResult("", Unsupported));
      }
      i := i + 1;
    }
    assert fs[..i] == fs;
    report := Uploaded(successCount > 0, |fs|, successCount, errorCount, results);
  }

  /** A single readable file whose plain name is free is stored under the plain name. */
  lemma FirstUpload(u: Upload, folder: set<string>, draws: nat -> Suffix)
    requires u.filename != "" && AllowedFile(u.filename) && u.size.Some?
    requires Stem(u.size.value.0, u.size.value.1) + "." + ExtensionOf(u.filename) !in folder
    ensures UploadResults([u], folder, draws) ==
      [FileResult(u.filename, Stored(Stem(u.size.value.0, u.size.value.1) + "." + ExtensionOf(u.filename)))]
  {
    var none := UploadResults([u][..0], folder, draws);
    assert none == [] && StoredNames(none) == {};
    assert Stem(u.size.value.0, u.size.value.1) + "" == Stem(u.size.value.0, u.size.value.1);
  }

  /** Two files of one size in one request, into a folder without the plain name: the first
      is stored under the plain name, and the second, which sees it, under a different one. */
  lemma SameRequestCollision(u: Upload, folder: set<string>, draws: nat -> Suffix)
    requires u.filename != "" && AllowedFile(u.filename) && u.size.Some?
    requires Stem(u.size.value.0, u.size.value.1) + "." + ExtensionOf(u.filename) !in folder
    ensures var r := UploadResults([u, u], folder, draws);
      && |r| == 2 && r[0].outcome.Stored? && r[1].outcome.Stored?
      && r[0].outcome.name == Stem(u.size.value.0, u.size.value.1) + "." + ExtensionOf(u.filename)
      && r[1].outcome.name != r[0].outcome.name
  {
    var plain := Stem(u.size.value.0, u.size.value.1) + "." + ExtensionOf(u.filename);
    FirstUpload(u, folder, draws);
    var first := UploadResults([u, u][..1], folder, draws);
    assert first == [FileResult(u.filename, Stored(plain))];
    assert StoredNames(first) == {plain} by {
      assert first[..0] == [];
    }
    var second := GenerateFilename(u.filename, u.size.value.0, u.size.value.1, folder + {plain}, draws(1));
    assert |second| > |plain|;
  }

  /** Every file with a name adds one to exactly one of the two counters, and a file without
      a name to neither: together they count the named files. */
  lemma {:induction false} UploadCounts(files: seq<Upload>, results: seq<FileResult>)
    requires Explained(files, results)
    ensures |results| == NamedCount(files)
  {
    if files != [] {
      if files[|files| - 1].filename == "" {
        UploadCounts(files[..|files| - 1], results);
      } else {
        UploadCounts(files[..|files| - 1], results[..|results| - 1]);
      }
    }
  }
}

=== FILE: inventory.dfy ===
/** Creative inventory (`WebsiteAdReplacer.load_replace_images`): which files of the
    replacement-image folder become creatives, the width and height read out of each name
    with the pattern `(?:google_|img_)(\d+)x(\d+)`, and the final order by filename. */
module Inventory {
  import opened Common
  import opened Strings
  import Sorting

  /** One replacement image: where it lives, its file name and the size its name declares. */
  datatype Creative = Creative(path: string, filename: string, width: nat, height: nat)

  // ---------------------------------------------------------------- the size pattern

  /** The end of the longest run of digits that starts at `i` (greedy `\d*`). */
  function DigitRunEnd(s: string, i: nat): (e: nat)
    requires i <= |s|
    ensures i <= e <= |s|
    ensures AllDigits(s[i..e])
    ensures e == |s| || !IsDigit(s[e])
    decreases |s| - i
  {
    if i < |s| && IsDigit(s[i]) then DigitRunEnd(s, i + 1) else i
  }

  /** Where the non-capturing group `(?:google_|img_)` ends when it matches at `p`. */
  function PrefixEnd(s: string, p: nat): (q: Option<nat>)
    requires p <= |s|
    ensures q.Some? ==> p < q.value <= |s|
  {
    if StartsWith(s[p..], "google_") then Some(p + 7)
    else if StartsWith(s[p..], "img_") then Some(p + 4)
    else None
  }

  /** The two groups of a match of the size pattern that starts exactly at `p`. Both digit
      groups are greedy; backtracking into them cannot help, because a shorter digit run is
      always followed by a digit, never by the `x` the pattern needs next. */
  function MatchAt(s: string, p: nat): Option<(nat, nat)>
    requires p <= |s|
  {
    match PrefixEnd(s, p)
    case None => None
    case Some(q) =>
      var e1 := DigitRunEnd(s, q);
      if e1 == q || e1 == |s| || s[e1] != 'x' then None
      else
        var e2 := DigitRunEnd(s, e1 + 1);
        if e2 == e1 + 1 then None
        else Some((DigitsValue(s[q..e1]), DigitsValue(s[e1 + 1..e2])))
  }

  /** `re.search` from position `p` on: the match that starts leftmost. */
  function SearchFrom(s: string, p: nat): (r: Option<(nat, nat)>)
    requires p <= |s|
    decreases |s| - p
  {
    var m := MatchAt(s, p);
    if m.Some? then m
    else if p == |s| then None
    else SearchFrom(s, p + 1)
  }

  /** No position in `[p, m)` starts a match. */
  predicate NoMatchBetween(s: string, p: nat, m: nat)
    requires p <= m <= |s|
  {
    forall q :: p <= q < m ==> MatchAt(s, q).None?
  }

  /** A search that finds something found it at a position where the pattern matches,
      with no match before it. */
  lemma {:induction false} SearchFromFound(s: string, p: nat) returns (m: nat)
    requires p <= |s| && SearchFrom(s, p).Some?
    ensures p <= m <= |s| && MatchAt(s, m) == SearchFrom(s, p) && NoMatchBetween(s, p, m)
    decreases |s| - p
  {
    if MatchAt(s, p).Some? {
      m := p;
    } else {
      m := SearchFromFound(s, p + 1);
      NoMatchStep(s, p, m);
    }
  }

  /** No match at `p` and none in `(p, m)` is none in `[p, m)`. */
  lemma NoMatchStep(s: string, p: nat, m: nat)
    requires p < m <= |s| && MatchAt(s, p).None? && NoMatchBetween(s, p + 1, m)
    ensures NoMatchBetween(s, p, m)
  {
    forall q | p <= q < m ensures MatchAt(s, q).None? {
      if q > p {
        assert p + 1 <= q < m;
      }
    }
  }

  /** A search that finds nothing has passed over every position. */
  lemma {:induction false} SearchFromNone(s: string, p: nat)
    requires p <= |s| && SearchFrom(s, p).None?
    ensures NoMatchBetween(s, p, |s|) && MatchAt(s, |s|).None?
    decreases |s| - p
  {
    var none := MatchAt(s, p);
    assert none.None?;
    if p < |s| {
      SearchFromNone(s, p + 1);
      assert NoMatchBetween(s, p + 1, |s|);
      forall q | p <= q < |s|
        ensures MatchAt(s, q).None?
      {
        if q > p {
          assert p + 1 <= q < |s|;
        }
      }
    }
  }

  /** The search result is the match at the leftmost position where the pattern matches,
      and no match at all only when it matches nowhere. */
  lemma SearchFromLeftmost(s: string, p: nat)
    requires p <= |s|
    ensures var r := SearchFrom(s, p);
      && (r.Some? ==> exists m :: p <= m <= |s| && MatchAt(s, m) == r && NoMatchBetween(s, p, m))
      && (r.None? ==> forall q :: p <= q <= |s| ==> MatchAt(s, q).None?)
  {
    if SearchFrom(s, p).Some? {
      var m := SearchFromFound(s, p);
    } else {
      SearchFromNone(s, p);
    }
  }

  /** `re.search(r'(?:google_|img_)(\d+)x(\d+)', filename)` as (group 1, group 2). */
  function SizeInName(filename: string): Option<(nat, nat)> {
    SearchFrom(filename, 0)
  }

  /** `filename.endswith(('.jpg', '.jpeg', '.png'))`, case-sensitive. */
  predicate HasCreativeExtension(filename: string) {
    EndsWith(filename, ".jpg") || EndsWith(filename, ".jpeg") || EndsWith(filename, ".png")
  }

  /** The creative one directory entry yields, if any (`os.path.join` with a `/`). */
  function ParseCreative(folder: string, filename: string): Option<Creative> {
    if !HasCreativeExtension(filename) then None
    else match SizeInName(filename)
      case None => None
      case Some(size) => Some(Creative(folder + "/" + filename, filename, size.0, size.1))
  }

  /** The creatives of a listing, in listing order (the appending loop before the sort). */
  function ParseAll(folder: string, listing: seq<string>): seq<Creative> {
    if listing == [] then []
    else match ParseCreative(folder, listing[0])
      case None => ParseAll(folder, listing[1..])
      case Some(c) => [c] + ParseAll(folder, listing[1..])
  }

  function FilenameOf(c: Creative): string { c.filename }

  /** `self.replace_images` after `load_replace_images`: nothing when the folder is missing,
      otherwise the parsed creatives sorted by filename. */
  function LoadedInventory(folderExists: bool, folder: string, listing: seq<string>): seq<Creative> {
    if !folderExists then [] else Sorting.SortBy(ParseAll(folder, listing), FilenameOf, false)
  }

  /** The number of names in a listing that yield a creative. */
  function CountParsable(folder: string, listing: seq<string>): nat {
    if listing == [] then 0
    else (if ParseCreative(folder, listing[0]).Some? then 1 else 0) + CountParsable(folder, listing[1..])
  }

  // ---------------------------------------------------------------- properties

  /** A run of digits that is not followed by a digit is exactly what the greedy group takes. */
  lemma {:induction false} DigitRunEndAt(s: string, i: nat, j: nat)
    requires i <= j <= |s|
    requires AllDigits(s[i..j])
    requires j == |s| || !IsDigit(s[j])
    ensures DigitRunEnd(s, i) == j
    decreases j - i
  {
    if i < j {
      assert IsDigit(s[i..j][0]);
      assert s[i + 1..j] == s[i..j][1..];
      DigitRunEndAt(s, i + 1, j);
    }
  }

  /** The groups of a match at `p`, given where the prefix and the two digit runs end. */
  lemma MatchAtGroups(s: string, p: nat, q: nat, e1: nat, e2: nat)
    requires p <= |s| && PrefixEnd(s, p) == Some(q)
    requires q < e1 && e1 + 1 < e2 <= |s| && s[e1] == 'x'
    requires AllDigits(s[q..e1]) && AllDigits(s[e1 + 1..e2])
    requires e2 == |s| || !IsDigit(s[e2])
    ensures MatchAt(s, p) == Some((DigitsValue(s[q..e1]), DigitsValue(s[e1 + 1..e2])))
  {
    DigitRunEndAt(s, q, e1);
    DigitRunEndAt(s, e1 + 1, e2);
    assert DigitRunEnd(s, q) == e1 && DigitRunEnd(s, e1 + 1) == e2;
  }

  /** A name that starts `img_<w>x<h>` or `google_<w>x<h>` followed by nothing or by a
      non-digit declares exactly `w` by `h`; the leftmost match is the one at the start. */
  lemma CanonicalNameSize(prefix: string, w: nat, h: nat, rest: string)
    requires prefix == "img_" || prefix == "google_"
    requires rest == [] || !IsDigit(rest[0])
    ensures SizeInName(prefix + NatToDecimal(w) + "x" + NatToDecimal(h) + rest) == Some((w, h))
  {
    LayoutMatch(prefix, NatToDecimal(w), NatToDecimal(h), rest);
    DecimalRoundTrip(w);
    DecimalRoundTrip(h);
  }

  /** The pattern matches `<prefix><dw>x<dh><rest>` at its start with the two digit runs as
      its groups. */
  lemma LayoutMatch(prefix: string, dw: string, dh: string, rest: string)
    requires prefix == "img_" || prefix == "google_"
    requires |dw| > 0 && |dh| > 0 && AllDigits(dw) && AllDigits(dh)
    requires rest == [] || !IsDigit(rest[0])
    ensures MatchAt(prefix + dw + "x" + dh + rest, 0) == Some((DigitsValue(dw), DigitsValue(dh)))
  {
    var s := prefix + dw + "x" + dh + rest;
    var e1 := |prefix| + |dw|;
    NameLayout(prefix, dw, dh, rest);
    PrefixAtStart(s, prefix);
    MatchAtGroups(s, 0, |prefix|, e1, e1 + 1 + |dh|);
  }

  /** The group `(?:google_|img_)` matches at the start of a name that begins with either. */
  lemma PrefixAtStart(s: string, prefix: string)
    requires prefix == "img_" || prefix == "google_"
    requires |prefix| <= |s| && s[..|prefix|] == prefix
    ensures PrefixEnd(s, 0) == Some(|prefix|)
  {
    assert s[0..] == s;
    if prefix == "img_" {
      assert s[0] == 'i';
      assert !StartsWith(s, "google_");
    }
  }

  /** Where the pieces of `<prefix><dw>x<dh><rest>` sit. */
  lemma NameLayout(prefix: string, dw: string, dh: string, rest: string)
    ensures var s := prefix + dw + "x" + dh + rest;
      var e1 := |prefix| + |dw|;
      var e2 := e1 + 1 + |dh|;
      && |s| == e2 + |rest|
      && s[..|prefix|] == prefix
      && s[|prefix|..e1] == dw && s[e1] == 'x' && s[e1 + 1..e2] == dh
      && (e2 < |s| ==> s[e2] == rest[0])
  {
    var head := prefix + dw;
    var mid := head + "x";
    var full := mid + dh;
    var s := full + rest;
    assert s[..|prefix|] == head[..|prefix|];
    assert s[|prefix|..|head|] == head[|prefix|..];
    assert s[|head|] == mid[|head|];
    assert s[|head| + 1..|full|] == full[|head| + 1..];
  }

  /** Every entry of ParseAll comes from a listed name, keeps that name and carries the size
      the leftmost match of the pattern gives; and every parsable name is represented. */
  lemma {:induction false} ParseAllMembers(folder: string, listing: seq<string>, c: Creative)
    ensures c in ParseAll(folder, listing) <==>
              exists k :: 0 <= k < |listing| && ParseCreative(folder, listing[k]) == Some(c)
  {
    if listing != [] {
      ParseAllMembers(folder, listing[1..], c);
      if c in ParseAll(folder, listing[1..]) {
        var k :| 0 <= k < |listing[1..]| && ParseCreative(folder, listing[1..][k]) == Some(c);
        assert ParseCreative(folder, listing[k + 1]) == Some(c);
      }
      if exists k :: 0 <= k < |listing| && ParseCreative(folder, listing[k]) == Some(c) {
        var k :| 0 <= k < |listing| && ParseCreative(folder, listing[k]) == Some(c);
        if k > 0 {
          assert listing[1..][k - 1] == listing[k];
        }
      }
    }
  }

  /** ParseAll read left to right: a name appended to the listing adds its creative, if
      any, at the end. */
  lemma {:induction false} ParseAllSnoc(folder: string, listing: seq<string>, name: string)
    ensures ParseAll(folder, listing + [name]) ==
      ParseAll(folder, listing) + (if ParseCreative(folder, name).Some? then [ParseCreative(folder, name).value] else [])
  {
    if listing != [] {
      assert (listing + [name])[1..] == listing[1..] + [name];
      ParseAllSnoc(folder, listing[1..], name);
    } else {
      assert [name][1..] == [];
    }
  }

  lemma {:induction false} ParseAllLength(folder: string, listing: seq<string>)
    ensures |ParseAll(folder, listing)| == CountParsable(folder, listing)
  {
    if listing != [] {
      ParseAllLength(folder, listing[1..]);
    }
  }

  /** What a loaded inventory is: exactly one creative per name that has a `.jpg`, `.jpeg`
      or `.png` ending and contains the size pattern (N valid and M invalid names give N
      creatives), each declaring the size of the leftmost match in its own name, in
      non-decreasing filename order; nothing at all when the folder is missing. */
  lemma InventoryCorrect(folderExists: bool, folder: string, listing: seq<string>)
    ensures var inv := LoadedInventory(folderExists, folder, listing);
      && (!folderExists ==> inv == [])
      && (folderExists ==> |inv| == CountParsable(folder, listing))
      && Sorting.Sorted(inv, FilenameOf, false)
      && (forall c :: c in inv ==>
            && HasCreativeExtension(c.filename)
            && SizeInName(c.filename) == Some((c.width, c.height))
            && c.path == folder + "/" + c.filename
            && c.filename in listing)
      && (folderExists ==> forall k :: 0 <= k < |listing| && ParseCreative(folder, listing[k]).Some? ==>
            ParseCreative(folder, listing[k]).value in inv)
  {
    var inv := LoadedInventory(folderExists, folder, listing);
    if folderExists {
      var parsed := ParseAll(folder, listing);
      Sorting.SortByCorrect(parsed, FilenameOf, false);
      ParseAllLength(folder, listing);
      assert |inv| == |multiset(inv)| == |multiset(parsed)| == |parsed|;
      forall c | c in inv
        ensures HasCreativeExtension(c.filename) && SizeInName(c.filename) == Some((c.width, c.height))
        ensures c.path == folder + "/" + c.filename && c.filename in listing
      {
        assert c in multiset(parsed);
        ParseAllMembers(folder, listing, c);
        var k :| 0 <= k < |listing| && ParseCreative(folder, listing[k]) == Some(c);
      }
      forall k | 0 <= k < |listing| && ParseCreative(folder, listing[k]).Some?
        ensures ParseCreative(folder, listing[k]).value in inv
      {
        ParseAllMembers(folder, listing, ParseCreative(folder, listing[k]).value);
        assert ParseCreative(folder, listing[k]).value in multiset(parsed);
      }
    }
  }
}

=== FILE: pipeline.dfy ===
/** How the parts fit together: the names the image manager gives uploads against the
    names the runner counts and the engine loads, and the settings the configuration
    manager saves against what the runner makes of them. */
module Pipeline {
  import opened Common
  import opened Strings
  import Inventory
  import ImageManager
  import ConfigManager
  import Runner

  // ---------------------------------------------------------------- image names

  /** A name without an `x` declares no size. */
  lemma {:induction false} NoSizeWithoutX(s: string, p: nat)
    requires p <= |s| && 'x' !in s
    ensures Inventory.SearchFrom(s, p).None?
    decreases |s| - p
  {
    if p < |s| {
      NoSizeWithoutX(s, p + 1);
    }
  }

  /** The runner counts `img_.jpg` as a replacement image, but the engine cannot read a
      size from it and never loads it. */
  lemma CountedButNotLoaded(folder: string)
    ensures Runner.Counted("img_.jpg")
    ensures Inventory.ParseCreative(folder, "img_.jpg").None?
  {
    var s := "img_.jpg";
    assert s[..4] == "img_";
    assert s[|s| - 4..] == ".jpg";
    assert 'x' !in s;
    NoSizeWithoutX(s, 0);
  }

  /** The engine loads `google_<w>x<h>.png` as a creative of that size, but the runner
      does not count it: a folder holding only such images fails the requirements check. */
  lemma LoadedButNotCounted(folder: string, w: nat, h: nat)
    ensures var name := "google_" + NatToDecimal(w) + "x" + NatToDecimal(h) + ".png";
      && !Runner.Counted(name)
      && Inventory.ParseCreative(folder, name) == Some(Inventory.Creative(folder + "/" + name, name, w, h))
  {
    var name := "google_" + NatToDecimal(w) + "x" + NatToDecimal(h) + ".png";
    assert name[..4] != "img_" by {
      assert name[..4][0] == 'g';
    }
    assert Inventory.HasCreativeExtension(name) by {
      assert name[|name| - 4..] == ".png";
    }
    Inventory.CanonicalNameSize("google_", w, h, ".png");
  }

  /** An upload stored by the image manager is counted by the runner exactly when its
      extension is png, jpg or jpeg, which is also when the engine loads it. */
  lemma UploadCounted(original: string, width: nat, height: nat, taken: set<string>, draw: ImageManager.Suffix)
    ensures var name := ImageManager.GenerateFilename(original, width, height, taken, draw);
      && (Runner.Counted(name) <==> ImageManager.ExtensionOf(original) in {"png", "jpg", "jpeg"})
      && (Runner.Counted(name) <==> Inventory.ParseCreative("data/replace_image", name).Some?)
  {
    var ext := ImageManager.ExtensionOf(original);
    var stem := ImageManager.Stem(width, height);
    var mark := if stem + "." + ext in taken then "_" + NatToDecimal(draw) else "";
    var name := ImageManager.GenerateFilename(original, width, height, taken, draw);
    assert name == (stem + mark) + "." + ext;
    assert name[..4] == "img_" by {
      assert name[..4] == stem[..4];
    }
    ImageManager.CreativeExtensionIff(stem + mark, ext);
    ImageManager.LoaderSeesUpload("data/replace_image", original, width, height, taken, draw);
  }

  // ---------------------------------------------------------------- settings

  /** The strings of a command as `subprocess.run` passes them on. */
  function Argv(cmd: seq<Value>): (argv: seq<string>)
    ensures |argv| == |cmd|
    ensures forall i :: 0 <= i < |cmd| && cmd[i].Str? ==> argv[i] == cmd[i].s
  {
    seq(|cmd|, i requires 0 <= i < |cmd| => Show(cmd[i]))
  }

  lemma ArgvAppend(x: seq<Value>, y: seq<Value>)
    ensures Argv(x + y) == Argv(x) + Argv(y)
  {
    assert forall i :: 0 <= i < |x| ==> (x + y)[i] == x[i];
    assert forall i :: |x| <= i < |x| + |y| ==> (x + y)[i] == y[i - |x|];
  }

  /** What argparse makes of one more `--option value` pair in front. */
  lemma ParseFront(flag: string, value: string, rest: seq<string>)
    ensures Runner.ParseArgs([flag, value] + rest) == Runner.Apply(flag, value, Runner.ParseArgs(rest))
  {
    assert ([flag, value] + rest)[2..] == rest;
  }

  /** The parsed options with the int option `flag` set to `n`. */
  function SetOption(args: Runner.Args, flag: string, n: Option<int>): Runner.Args
    requires flag in Runner.IntOptions
  {
    if flag == "--screenshots" then args.(screenshots := n)
    else if flag == "--articles" then args.(articles := n)
    else args.(screen := n)
  }

  /** `n` if it differs from `default`. */
  function Unless(n: int, default: int): Option<int> {
    if n == default then None else Some(n)
  }

  /** The option the configuration manager passes for an int setting is read back as
      that number, and left out when it is the runner's default. */
  lemma FlagStep(flag: string, n: int, default: int, rest: seq<string>, later: Runner.Args)
    requires flag in Runner.IntOptions && Runner.ParseArgs(rest) == Some(later)
    requires SetOption(later, flag, None) == later
    ensures Runner.ParseArgs(Argv(ConfigManager.Flag(flag, Int(n), default)) + rest) ==
            Some(SetOption(later, flag, Unless(n, default)))
  {
    FlagStrings(flag, n, default);
    if n == default {
      assert Argv(ConfigManager.Flag(flag, Int(n), default)) + rest == rest;
    } else {
      ParseFront(flag, IntToDecimal(n), rest);
      ApplyNumber(flag, n, later);
    }
  }

  /** The strings of the option written for an int setting. */
  lemma FlagStrings(flag: string, n: int, default: int)
    ensures Argv(ConfigManager.Flag(flag, Int(n), default)) ==
            if n == default then [] else [flag, IntToDecimal(n)]
  {
  }

  /** A count option read for the first time, from the decimal form of `n`. */
  lemma ApplyNumber(flag: string, n: int, later: Runner.Args)
    requires flag in Runner.IntOptions && SetOption(later, flag, None) == later
    ensures Runner.Apply(flag, IntToDecimal(n), Some(later)) == Some(SetOption(later, flag, Some(n)))
  {
    ConfigManager.DecimalStripped(n);
    IntDecimalRoundTrip(n);
  }

  lemma Regroup(p: seq<Value>, h: seq<Value>, x: seq<Value>, y: seq<Value>, z: seq<Value>)
    ensures (((p + h) + x) + y) + z == p + (h + (x + (y + z)))
  {
  }

  /** After the interpreter and the script name come the url option and the three
      optional ones, in that order. */
  lemma CommandTail(config: map<string, Value>)
    requires config.Keys >= {"url", "screenshots", "articles", "screen"}
    ensures ConfigManager.BuildCommand(config).value[2..] ==
      [Str("--url"), config["url"]] +
      (ConfigManager.Flag("--screenshots", config["screenshots"], 10) +
       (ConfigManager.Flag("--articles", config["articles"], 20) +
        ConfigManager.Flag("--screen", config["screen"], 1)))
  {
    var pre: seq<Value> := [Str("python"), Str("ad_replacer_runner.py")];
    var head: seq<Value> := [Str("--url"), config["url"]];
    var v1 := ConfigManager.Flag("--screenshots", config["screenshots"], 10);
    var v2 := ConfigManager.Flag("--articles", config["articles"], 20);
    var v3 := ConfigManager.Flag("--screen", config["screen"], 1);
    var tail := head + (v1 + (v2 + v3));
    assert [Str("python"), Str("ad_replacer_runner.py"), Str("--url"), config["url"]] == pre + head;
    Regroup(pre, head, v1, v2, v3);
    assert ConfigManager.BuildCommand(config).value == pre + tail;
    assert (pre + tail)[2..] == tail;
  }

  /** The strings of the three optional count flags, in `build_command`'s order. */
  function CountFlags(s: int, a: int, c: int): seq<string> {
    Argv(ConfigManager.Flag("--screenshots", Int(s), 10)) +
    (Argv(ConfigManager.Flag("--articles", Int(a), 20)) +
     Argv(ConfigManager.Flag("--screen", Int(c), 1)))
  }

  /** argparse reads each count flag back as its number, and a missing one as unset. */
  lemma CountFlagsParsed(s: int, a: int, c: int)
    ensures Runner.ParseArgs(CountFlags(s, a, c)) ==
            Some(Runner.Args(None, Unless(s, 10), Unless(a, 20), Unless(c, 1)))
  {
    var f3 := Argv(ConfigManager.Flag("--screen", Int(c), 1));
    var f2 := Argv(ConfigManager.Flag("--articles", Int(a), 20));
    var a3 := Runner.Args(None, None, None, Unless(c, 1));
    var a2 := a3.(articles := Unless(a, 20));
    assert f3 + [] == f3;
    FlagStep("--screen", c, 1, [], Runner.NoArgs);
    FlagStep("--articles", a, 20, f3, a3);
    FlagStep("--screenshots", s, 10, f2 + f3, a2);
  }

  /** The strings of the command after the interpreter and the script name. */
  lemma CommandArgv(config: map<string, Value>, u: string, s: int, a: int, c: int)
    requires config.Keys >= {"url", "screenshots", "articles", "screen"}
    requires config["url"] == Str(u) && config["screenshots"] == Int(s)
    requires config["articles"] == Int(a) && config["screen"] == Int(c)
    ensures Argv(ConfigManager.BuildCommand(config).value[2..]) == ["--url", u] + CountFlags(s, a, c)
  {
    var v3 := ConfigManager.Flag("--screen", Int(c), 1);
    var v2 := ConfigManager.Flag("--articles", Int(a), 20);
    var v1 := ConfigManager.Flag("--screenshots", Int(s), 10);
    var head: seq<Value> := [Str("--url"), Str(u)];
    CommandTail(config);
    ArgvAppend(v2, v3);
    ArgvAppend(v1, v2 + v3);
    ArgvAppend(head, v1 + (v2 + v3));
    assert Argv(head) == ["--url", u];
  }

  /** The options the runner reads from the command `build_command` makes from settings
      whose url is a string and whose counts are ints: the url, and each count that
      differs from the runner's default. */
  lemma CommandArgs(config: map<string, Value>, u: string, s: int, a: int, c: int)
    requires config.Keys >= {"url", "screenshots", "articles", "screen"}
    requires config["url"] == Str(u) && config["screenshots"] == Int(s)
    requires config["articles"] == Int(a) && config["screen"] == Int(c)
    ensures Runner.ParseArgs(Argv(ConfigManager.BuildCommand(config).value[2..])) ==
            Some(Runner.Args(Some(u), Unless(s, 10), Unless(a, 20), Unless(c, 1)))
  {
    CommandArgv(config, u, s, a, c);
    CountFlagsParsed(s, a, c);
    ParseFront("--url", u, CountFlags(s, a, c));
  }

  /** Running that command against the same settings file gives the runner the saved url
      and counts again: the options it leaves out are exactly the ones whose value the
      runner's merge falls back to. */
  lemma CommandRoundTrip(config: map<string, Value>, u: string, s: int, a: int, c: int)
    requires config.Keys >= {"url", "screenshots", "articles", "screen"}
    requires config["url"] == Str(u) && config["screenshots"] == Int(s)
    requires config["articles"] == Int(a) && config["screen"] == Int(c)
    ensures var args := Runner.ParseArgs(Argv(ConfigManager.BuildCommand(config).value[2..]));
      && args.Some?
      && var merged := Runner.Merge(args.value, Some(config));
         merged.url == Str(u) && merged.screenshots == Int(s) && merged.articles == Int(a) && merged.screen == Int(c)
  {
    CommandArgs(config, u, s, a, c);
    assert "url" in config;
  }

  /** Pressing ENTER at the fullscreen question stores `y` or `n`, and the runner reads
      either of them as off: a fullscreen setting kept that way always runs in a window. */
  lemma EnterTurnsFullscreenOff(config: map<string, Value>, a: ConfigManager.Answers, now: string, args: Runner.Args)
    requires a.fullscreen == ConfigManager.YesNo(Get(config, "fullscreen", Bool(true)))
    ensures var saved := ConfigManager.SaveConfig(ConfigManager.ApplyAnswers(config, a), now);
      Runner.Merge(args, Some(saved)).fullscreen == Bool(false)
  {
    var saved := ConfigManager.SaveConfig(ConfigManager.ApplyAnswers(config, a), now);
    assert saved["fullscreen"] == a.fullscreen;
    Runner.FullscreenStrings(saved, args);
  }
}

=== FILE: runner.dfy ===
/** The command-line runner (`src/ad_replacer_runner.py`): how the command-line options
    and the settings file are merged, which exit code `main` returns, the values the
    generated `config.py` carries, and the check for replacement images before a run. The
    folder listing, the existence of the engine module and whether the run raises are
    answers passed in as values. */
module Runner {
  import opened Common
  import opened Strings

  // ---------------------------------------------------------------- options

  /** The four options `main` declares; `None` for an option not given. */
  datatype Args = Args(url: Option<string>, screenshots: Option<int>, articles: Option<int>, screen: Option<int>)

  const NoArgs := Args(None, None, None, None)

  const IntOptions: set<string> := {"--screenshots", "--articles", "--screen"}

  /** One `--option value` pair in front of what the rest of the command line gave: the
      value is kept only when the rest does not give the option again. */
  function Apply(flag: string, value: string, later: Option<Args>): (r: Option<Args>)
    ensures r.Some? <==> later.Some? && (flag == "--url" || (flag in IntOptions && ParseInt(Strip(value)).Some?))
    ensures r.Some? && later.value.url.Some? ==> r.value.url == later.value.url
    ensures r.Some? && later.value.screenshots.Some? ==> r.value.screenshots == later.value.screenshots
    ensures r.Some? && later.value.articles.Some? ==> r.value.articles == later.value.articles
    ensures r.Some? && later.value.screen.Some? ==> r.value.screen == later.value.screen
  {
    var number := ParseInt(Strip(value));
    if later.None? then None
    else if flag == "--url" then
      Some(later.value.(url := if later.value.url.Some? then later.value.url else Some(value)))
    else if flag !in IntOptions || number.None? then None
    else if flag == "--screenshots" then
      Some(later.value.(screenshots := if later.value.screenshots.Some? then later.value.screenshots else number))
    else if flag == "--articles" then
      Some(later.value.(articles := if later.value.articles.Some? then later.value.articles else number))
    else
      Some(later.value.(screen := if later.value.screen.Some? then later.value.screen else number))
  }

  /** The command line after the program name, as argparse reads it with the options given
      as `--option value`: a later occurrence of an option wins, an int option takes what
      `int()` accepts, and anything else is a usage error (`None`, exit status 2). */
  function ParseArgs(argv: seq<string>): (r: Option<Args>)
    decreases |argv|
  {
    if argv == [] then Some(NoArgs)
    else if |argv| == 1 then None
    else Apply(argv[0], argv[1], ParseArgs(argv[2..]))
  }

  /** `a` holds `value` for the option `flag`, as argparse converts it. */
  predicate Holds(a: Args, flag: string, value: string) {
    && (flag == "--url" ==> a.url == Some(value))
    && (flag == "--screenshots" ==> a.screenshots == ParseInt(Strip(value)))
    && (flag == "--articles" ==> a.articles == ParseInt(Strip(value)))
    && (flag == "--screen" ==> a.screen == ParseInt(Strip(value)))
  }

  /** An option given once, on its own. */
  lemma ParseSingle(flag: string, value: string)
    requires flag == "--url" || flag in IntOptions
    ensures ParseArgs([flag, value]).Some? <==> flag == "--url" || ParseInt(Strip(value)).Some?
    ensures ParseArgs([flag, value]).Some? ==> Holds(ParseArgs([flag, value]).value, flag, value)
  {
    assert [flag, value][2..] == [];
  }

  /** An earlier pair does not undo the value a later one gave. */
  lemma ApplyKeeps(f: string, v: string, later: Args, flag: string, value: string)
    requires flag == "--url" || (flag in IntOptions && ParseInt(Strip(value)).Some?)
    requires Holds(later, flag, value)
    ensures Apply(f, v, Some(later)).Some? ==> Holds(Apply(f, v, Some(later)).value, flag, value)
  {
  }

  /** The last value given for each option is the one kept. */
  lemma {:induction false} ParseArgsLastWins(argv: seq<string>, flag: string, value: string)
    requires flag == "--url" || flag in IntOptions
    requires ParseArgs(argv).Some?
    ensures ParseArgs(argv + [flag, value]).Some? <==> flag == "--url" || ParseInt(Strip(value)).Some?
    ensures ParseArgs(argv + [flag, value]).Some? ==> Holds(ParseArgs(argv + [flag, value]).value, flag, value)
    decreases |argv|
  {
    var longer := argv + [flag, value];
    if argv == [] {
      assert longer == [flag, value];
      ParseSingle(flag, value);
    } else {
      assert longer[0] == argv[0] && longer[1] == argv[1];
      assert longer[2..] == argv[2..] + [flag, value];
      ParseArgsLastWins(argv[2..], flag, value);
      var later := ParseArgs(argv[2..] + [flag, value]);
      assert ParseArgs(longer) == Apply(argv[0], argv[1], later);
      if later.Some? && ParseArgs(longer).Some? {
        ApplyKeeps(argv[0], argv[1], later.value, flag, value);
      }
    }
  }

  // ---------------------------------------------------------------- settings file

  /** `load_config_if_exists`: the object in the file, or `None` when there is no file or
      it is not JSON. */
  function LoadConfigIfExists(file: ConfigFile): (config: Option<map<string, Value>>)
    ensures config.Some? <==> file.Loaded?
  {
    if file.Loaded? then Some(file.settings) else None
  }

  /** `if config:` on what `load_config_if_exists` returned: an empty object is false. */
  predicate ConfigTruthy(config: Option<map<string, Value>>) {
    config.Some? && config.value != map[]
  }

  // ---------------------------------------------------------------- merging

  /** What `main` runs with after merging. */
  datatype Settings = Settings(url: Value, screenshots: Value, articles: Value, screen: Value, fullscreen: Value)

  /** The strings a stored `fullscreen` counts as on. */
  const YesStrings: seq<string> := ["是", "true", "True", "yes", "Yes"]

  /** The fullscreen setting: a string is on exactly when it is one of YesStrings; any
      other value is used as it is. */
  function FullscreenOf(v: Value): (r: Value)
    ensures v.Str? ==> r == Bool(v.s in YesStrings)
    ensures !v.Str? ==> r == v
  {
    if v.Str? then Bool(v.s in YesStrings) else v
  }

  /** `args.x or default`: a value that is not given or is 0 falls back. */
  function OrDefault(x: Option<int>, default: int): int {
    if x.Some? && x.value != 0 then x.value else default
  }

  /** The merge of `main`: with a non-empty settings object, every option that was given
      wins over the object, which wins over 10, 20 and 1 (the url only when it is not
      empty); without one, options that are absent or 0 fall back to those defaults and
      fullscreen is on. */
  function Merge(args: Args, config: Option<map<string, Value>>): Settings {
    if ConfigTruthy(config) then
      var m := config.value;
      Settings(
        if args.url.Some? && args.url.value != "" then Str(args.url.value) else Get(m, "url", Null),
        if args.screenshots.Some? then Int(args.screenshots.value) else Get(m, "screenshots", Int(10)),
        if args.articles.Some? then Int(args.articles.value) else Get(m, "articles", Int(20)),
        if args.screen.Some? then Int(args.screen.value) else Get(m, "screen", Int(1)),
        FullscreenOf(Get(m, "fullscreen", Bool(true))))
    else
      Settings(
        if args.url.Some? then Str(args.url.value) else Null,
        Int(OrDefault(args.screenshots, 10)),
        Int(OrDefault(args.articles, 20)),
        Int(OrDefault(args.screen, 1)),
        Bool(true))
  }

  /** An option given on the command line decides the setting, except that without a
      settings object an explicit 0 falls back to the default; an option not given takes
      the stored value, or the default when there is none. A non-empty url on the command
      line wins; otherwise the stored url (or none) is taken when there is a settings
      object, and the command line's url, even an empty one, when there is not. */
  lemma MergePrecedence(args: Args, config: Option<map<string, Value>>)
    ensures var s := Merge(args, config);
      && (args.screenshots.Some? && (ConfigTruthy(config) || args.screenshots.value != 0) ==>
            s.screenshots == Int(args.screenshots.value))
      && (args.screenshots == Some(0) && !ConfigTruthy(config) ==> s.screenshots == Int(10))
      && (args.screenshots.None? ==>
            s.screenshots == if ConfigTruthy(config) then Get(config.value, "screenshots", Int(10)) else Int(10))
      && (args.articles.Some? && (ConfigTruthy(config) || args.articles.value != 0) ==>
            s.articles == Int(args.articles.value))
      && (args.articles == Some(0) && !ConfigTruthy(config) ==> s.articles == Int(20))
      && (args.articles.None? ==>
            s.articles == if ConfigTruthy(config) then Get(config.value, "articles", Int(20)) else Int(20))
      && (args.screen.Some? && (ConfigTruthy(config) || args.screen.value != 0) ==>
            s.screen == Int(args.screen.value))
      && (args.screen == Some(0) && !ConfigTruthy(config) ==> s.screen == Int(1))
      && (args.screen.None? ==>
            s.screen == if ConfigTruthy(config) then Get(config.value, "screen", Int(1)) else Int(1))
      && (args.url.Some? && args.url.value != "" ==> s.url == Str(args.url.value))
      && (ConfigTruthy(config) && (args.url.None? || args.url.value == "") ==>
            s.url == Get(config.value, "url", Null))
      && (!ConfigTruthy(config) ==> s.url == if args.url.Some? then Str(args.url.value) else Null)
  {
  }

  /** The fullscreen setting after the merge is on exactly when it is stored as true, as
      one of YesStrings, or not stored at all; `y` and `n` are both off. */
  lemma FullscreenStrings(m: map<string, Value>, args: Args)
    requires m != map[]
    ensures Merge(args, Some(m)).fullscreen == Bool(true) <==>
      !("fullscreen" in m) || m["fullscreen"] == Bool(true) ||
      (m["fullscreen"].Str? && m["fullscreen"].s in YesStrings)
    ensures "fullscreen" in m && m["fullscreen"] in {Str("y"), Str("n")} ==>
      Merge(args, Some(m)).fullscreen == Bool(false)
  {
  }

  // ---------------------------------------------------------------- generated config.py

  /** The values `create_config_file` writes into `config.py`. */
  datatype GeneratedConfig = GeneratedConfig(
    screenshotCount: Value, maxAttempts: Value, pageTimeout: Value, waitTime: Value,
    baseUrl: Value, newsCount: Value, maxFailures: Value, fullscreen: Value,
    debugMode: Value, buttonStyle: Value)

  /** `create_config_file`: each value is read from the data with its own default. */
  function CreateConfigFile(data: map<string, Value>): (g: GeneratedConfig)
    ensures "url" !in data ==> g.baseUrl == Str("")
    ensures "screenshots" !in data ==> g.screenshotCount == Int(30)
    ensures "articles" !in data ==> g.newsCount == Int(20)
    ensures "button_style" !in data ==> g.buttonStyle == Str("cross")
    ensures "max_attempts" !in data ==> g.maxAttempts == Int(50)
    ensures "page_timeout" !in data ==> g.pageTimeout == Int(15)
    ensures "wait_time" !in data ==> g.waitTime == Int(3)
    ensures "max_failures" !in data ==> g.maxFailures == Int(3)
    ensures "fullscreen" !in data ==> g.fullscreen == Bool(true)
    ensures "debug_mode" !in data ==> g.debugMode == Bool(true)
    ensures "url" in data ==> g.baseUrl == data["url"]
    ensures "screenshots" in data ==> g.screenshotCount == data["screenshots"]
    ensures "articles" in data ==> g.newsCount == data["articles"]
    ensures "button_style" in data ==> g.buttonStyle == data["button_style"]
    ensures "max_attempts" in data ==> g.maxAttempts == data["max_attempts"]
    ensures "page_timeout" in data ==> g.pageTimeout == data["page_timeout"]
    ensures "wait_time" in data ==> g.waitTime == data["wait_time"]
    ensures "max_failures" in data ==> g.maxFailures == data["max_failures"]
    ensures "fullscreen" in data ==> g.fullscreen == data["fullscreen"]
    ensures "debug_mode" in data ==> g.debugMode == data["debug_mode"]
  {
    GeneratedConfig(
      Get(data, "screenshots", Int(30)), Get(data, "max_attempts", Int(50)),
      Get(data, "page_timeout", Int(15)), Get(data, "wait_time", Int(3)),
      Get(data, "url", Str("")), Get(data, "articles", Int(20)),
      Get(data, "max_failures", Int(3)), Get(data, "fullscreen", Bool(true)),
      Get(data, "debug_mode", Bool(true)), Get(data, "button_style", Str("cross")))
  }

  /** The data `main` hands to `create_config_file`: the merged settings, and the stored
      button style and timings or their defaults. It has no `debug_mode` entry. */
  function ConfigData(s: Settings, config: Option<map<string, Value>>): (data: map<string, Value>)
    ensures "debug_mode" !in data
    ensures data.Keys == {"url", "screenshots", "articles", "button_style", "max_attempts", "page_timeout",
                          "wait_time", "max_failures", "fullscreen"}
    ensures data["url"] == s.url && data["screenshots"] == s.screenshots
    ensures data["articles"] == s.articles && data["fullscreen"] == s.fullscreen
  {
    var stored := if ConfigTruthy(config) then config.value else map[];
    map[]["url" := s.url]["screenshots" := s.screenshots]["articles" := s.articles]
         ["button_style" := Get(stored, "button_style", Str("cross"))]
         ["max_attempts" := Get(stored, "max_attempts", Int(50))]
         ["page_timeout" := Get(stored, "page_timeout", Int(15))]
         ["wait_time" := Get(stored, "wait_time", Int(3))]
         ["max_failures" := Get(stored, "max_failures", Int(3))]
         ["fullscreen" := s.fullscreen]
  }

  // ---------------------------------------------------------------- requirements

  /** The names `check_requirements` counts as replacement images. */
  predicate Counted(filename: string) {
    StartsWith(filename, "img_") &&
    (EndsWith(filename, ".jpg") || EndsWith(filename, ".jpeg") || EndsWith(filename, ".png"))
  }

  /** The counted names of a listing, in listing order. */
  function RunnerImages(listing: seq<string>): seq<string> {
    if listing == [] then []
    else RunnerImages(listing[..|listing| - 1]) +
         (if Counted(listing[|listing| - 1]) then [listing[|listing| - 1]] else [])
  }

  /** The counted names are exactly the listed names that pass the test. */
  lemma {:induction false} RunnerImagesMembers(listing: seq<string>, f: string)
    ensures f in RunnerImages(listing) <==> f in listing && Counted(f)
  {
    if listing != [] {
      var init := listing[..|listing| - 1];
      RunnerImagesMembers(init, f);
      assert listing == init + [listing[|listing| - 1]];
    }
  }

  /** The check passes when some image is counted and the engine module exists. */
  predicate RequirementsMet(listing: seq<string>, engineExists: bool) {
    RunnerImages(listing) != [] && engineExists
  }

  /** `check_requirements`: collects the counted names of the folder listing in order and
      passes when there is one and the engine module exists. */
  method CheckRequirements(listing: seq<string>, engineExists: bool) returns (ok: bool, images: seq<string>)
    ensures images == RunnerImages(listing)
    ensures ok <==> images != [] && engineExists
  {
    images := [];
    var i := 0;
    while i < |listing|
      invariant i <= |listing|
      invariant images == RunnerImages(listing[..i])
    {
      assert listing[..i + 1][..i] == listing[..i];
      if Counted(listing[i]) {
        images := images + [listing[i]];
      }
      i := i + 1;
    }
    assert listing[..i] == listing;
    ok := images != [] && engineExists;
  }

  // ---------------------------------------------------------------- main

  /** What one run of `main` ends with: its exit code, and the configuration it wrote
      before starting the engine, if it got that far. */
  datatype RunResult = RunResult(exit: int, written: Option<GeneratedConfig>)

  /** `main`: stops with 1 when neither a url nor a non-empty settings object is given and
      the settings file does not exist, when the merged url is empty, or when the
      requirements fail; otherwise writes `config.py` and runs the engine, ending with 1
      when it raises and 0 when it returns. */
  function Main(args: Args, file: ConfigFile, listing: seq<string>, engineExists: bool,
                engineRaises: bool): RunResult
  {
    var config := LoadConfigIfExists(file);
    if !(args.url.Some? && args.url.value != "") && !ConfigTruthy(config) && file.Missing? then
      RunResult(1, None)
    else
      var s := Merge(args, config);
      if !Truthy(s.url) then RunResult(1, None)
      else if !RequirementsMet(listing, engineExists) then RunResult(1, None)
      else RunResult(if engineRaises then 1 else 0, Some(CreateConfigFile(ConfigData(s, config))))
  }

  /** The run succeeds exactly when some url is available, the merged url is not empty,
      an image is counted, the engine exists and it does not raise; it writes `config.py`
      exactly when it gets to start the engine. */
  lemma MainExit(args: Args, file: ConfigFile, listing: seq<string>, engineExists: bool, engineRaises: bool)
    ensures var r := Main(args, file, listing, engineExists, engineRaises);
      var config := LoadConfigIfExists(file);
      var started := ((args.url.Some? && args.url.value != "") || ConfigTruthy(config) || !file.Missing?)
                     && Truthy(Merge(args, config).url) && RequirementsMet(listing, engineExists);
      && (r.exit == 0 <==> started && !engineRaises)
      && (r.exit == 0 || r.exit == 1)
      && (r.written.Some? <==> started)
  {
  }

  /** Without a url on the command line and without a settings file, the run stops before
      reading the listing. */
  lemma NoUrlNoFile(args: Args, listing: seq<string>, engineExists: bool, engineRaises: bool)
    requires args.url.None?
    ensures Main(args, Missing, listing, engineExists, engineRaises) == RunResult(1, None)
  {
  }

  /** The written `config.py` carries the merged url and counts, and its debug mode is
      always on: the stored `debug_mode` never reaches it. */
  lemma MainWrites(args: Args, file: ConfigFile, listing: seq<string>, engineExists: bool, engineRaises: bool)
    ensures var r := Main(args, file, listing, engineExists, engineRaises);
      var s := Merge(args, LoadConfigIfExists(file));
      r.written.Some? ==>
        && r.written.value.debugMode == Bool(true)
        && r.written.value.baseUrl == s.url
        && r.written.value.screenshotCount == s.screenshots
        && r.written.value.newsCount == s.articles
        && r.written.value.fullscreen == s.fullscreen
  {
  }
}

=== FILE: sorting.dfy ===
/** Python's `list.sort(key=..., reverse=...)` for string keys, as a stable insertion sort.
    Used for the creative inventory (by filename, ascending) and for the image list of the
    management interface (by upload time, newest first). */
module Sorting {
  import opened Strings

  /** `x` may stand before `y`: keys ascending, or descending when `desc` (`reverse=True`). */
  predicate Before<T>(key: T -> string, desc: bool, x: T, y: T) {
    if desc then LexLe(key(y), key(x)) else LexLe(key(x), key(y))
  }

  predicate Sorted<T>(s: seq<T>, key: T -> string, desc: bool) {
    forall i, j :: 0 <= i < j < |s| ==> Before(key, desc, s[i], s[j])
  }

  /** Places `x` in front of the first element it may precede, so that it lands before
      the elements whose key equals its own. */
  function Insert<T>(x: T, s: seq<T>, key: T -> string, desc: bool): seq<T> {
    if s == [] then [x]
    else if Before(key, desc, x, s[0]) then [x] + s
    else [s[0]] + Insert(x, s[1..], key, desc)
  }

  /** The sorted list; earlier elements are inserted last, in front of equal keys, which keeps
      the sort stable. */
  function SortBy<T>(s: seq<T>, key: T -> string, desc: bool): seq<T> {
    if s == [] then [] else Insert(s[0], SortBy(s[1..], key, desc), key, desc)
  }

  lemma BeforeTotal<T>(key: T -> string, desc: bool, x: T, y: T)
    ensures Before(key, desc, x, y) || Before(key, desc, y, x)
  {
    LexLeTotal(key(x), key(y));
  }

  lemma BeforeTransitive<T>(key: T -> string, desc: bool, x: T, y: T, z: T)
    requires Before(key, desc, x, y) && Before(key, desc, y, z)
    ensures Before(key, desc, x, z)
  {
    if desc {
      LexLeTransitive(key(z), key(y), key(x));
    } else {
      LexLeTransitive(key(x), key(y), key(z));
    }
  }

  lemma InsertCorrect<T>(x: T, s: seq<T>, key: T -> string, desc: bool)
    requires Sorted(s, key, desc)
    ensures multiset(Insert(x, s, key, desc)) == multiset(s) + multiset{x}
    ensures Sorted(Insert(x, s, key, desc), key, desc)
  {
    InsertPermutes(x, s, key, desc);
    InsertSorted(x, s, key, desc);
  }

  lemma {:induction false} InsertPermutes<T>(x: T, s: seq<T>, key: T -> string, desc: bool)
    ensures multiset(Insert(x, s, key, desc)) == multiset(s) + multiset{x}
  {
    if s != [] && !Before(key, desc, x, s[0]) {
      InsertPermutes(x, s[1..], key, desc);
      assert s == [s[0]] + s[1..];
    }
  }

  /** Every element of `Insert(x, t)` is `x` or an element of `t`. */
  lemma InsertFrom<T>(x: T, t: seq<T>, key: T -> string, desc: bool, j: nat)
    requires j < |Insert(x, t, key, desc)|
    ensures Insert(x, t, key, desc)[j] == x || Insert(x, t, key, desc)[j] in t
  {
    var u := Insert(x, t, key, desc);
    InsertPermutes(x, t, key, desc);
    assert u[j] in multiset(u);
  }

  lemma {:induction false} InsertSorted<T>(x: T, s: seq<T>, key: T -> string, desc: bool)
    requires Sorted(s, key, desc)
    ensures Sorted(Insert(x, s, key, desc), key, desc)
  {
    if s == [] {
    } else if Before(key, desc, x, s[0]) {
      var r := [x] + s;
      forall i, j | 0 <= i < j < |r| ensures Before(key, desc, r[i], r[j]) {
        if i == 0 && j > 1 {
          BeforeTransitive(key, desc, x, s[0], s[j - 1]);
        }
      }
    } else {
      BeforeTotal(key, desc, x, s[0]);
      var t := s[1..];
      InsertSorted(x, t, key, desc);
      var u := Insert(x, t, key, desc);
      var r := [s[0]] + u;
      assert r == Insert(x, s, key, desc);
      forall j | 0 <= j < |u| ensures Before(key, desc, s[0], u[j]) {
        InsertFrom(x, t, key, desc, j);
        if u[j] != x {
          var k :| 0 <= k < |t| && t[k] == u[j];
          assert s[k + 1] == u[j];
        }
      }
      forall i, j | 0 <= i < j < |r| ensures Before(key, desc, r[i], r[j]) {
        if i > 0 {
          assert r[i] == u[i - 1] && r[j] == u[j - 1];
        } else {
          assert r[j] == u[j - 1];
        }
      }
    }
  }

  /** The elements of `s` whose key is `k`, in their order in `s`. */
  function WithKey<T>(s: seq<T>, key: T -> string, k: string): seq<T> {
    if s == [] then [] else (if key(s[0]) == k then [s[0]] else []) + WithKey(s[1..], key, k)
  }

  /** `x` is placed in front of every element whose key equals its own. */
  lemma {:induction false} InsertStable<T>(x: T, t: seq<T>, key: T -> string, desc: bool, k: string)
    ensures WithKey(Insert(x, t, key, desc), key, k) == (if key(x) == k then [x] else []) + WithKey(t, key, k)
  {
    if t == [] {
      assert Insert(x, t, key, desc) == [x];
      assert WithKey([x], key, k) == (if key(x) == k then [x] else []) + WithKey([], key, k);
    } else if Before(key, desc, x, t[0]) {
      var r := [x] + t;
      assert Insert(x, t, key, desc) == r && r[0] == x && r[1..] == t;
    } else {
      LexLeTotal(key(x), key(x));
      assert key(x) == k ==> key(t[0]) != k;
      var u := Insert(x, t[1..], key, desc);
      InsertStable(x, t[1..], key, desc, k);
      var r := [t[0]] + u;
      assert Insert(x, t, key, desc) == r && r[0] == t[0] && r[1..] == u;
      assert WithKey(r, key, k) == (if key(t[0]) == k then [t[0]] else []) + WithKey(u, key, k);
      assert WithKey(t, key, k) == (if key(t[0]) == k then [t[0]] else []) + WithKey(t[1..], key, k);
    }
  }

  /** The result is sorted by the key and is a permutation of the input, and the sort is
      stable: the elements sharing a key keep their order. */
  lemma {:induction false} SortByCorrect<T>(s: seq<T>, key: T -> string, desc: bool)
    ensures Sorted(SortBy(s, key, desc), key, desc)
    ensures multiset(SortBy(s, key, desc)) == multiset(s)
    ensures forall k :: WithKey(SortBy(s, key, desc), key, k) == WithKey(s, key, k)
  {
    if s != [] {
      SortByCorrect(s[1..], key, desc);
      InsertCorrect(s[0], SortBy(s[1..], key, desc), key, desc);
      assert s == [s[0]] + s[1..];
      forall k ensures WithKey(SortBy(s, key, desc), key, k) == WithKey(s, key, k) {
        InsertStable(s[0], SortBy(s[1..], key, desc), key, desc, k);
      }
    }
  }
}

=== FILE: strings.dfy ===
/** Text helpers shared by the engine and the tools: ASCII case folding, substring
    tests, whitespace stripping, decimal rendering and parsing of integers (Python's
    `str(n)` and `int(s)`), and Python's ordering of `str` values. */
module Strings {
  import opened Common

  predicate IsDigit(c: char) { '0' <= c <= '9' }

  predicate AllDigits(s: string) { forall i :: 0 <= i < |s| ==> IsDigit(s[i]) }

  function LowerChar(c: char): char {
    if 'A' <= c <= 'Z' then (c as int + 32) as char else c
  }

  /** `s.lower()` / `s.toLowerCase()` restricted to ASCII letters. */
  function Lower(s: string): (r: string)
    ensures |r| == |s|
    ensures forall i {:trigger r[i]} :: 0 <= i < |s| ==> r[i] == LowerChar(s[i])
  {
    seq(|s|, i requires 0 <= i < |s| => LowerChar(s[i]))
  }

  predicate StartsWith(s: string, prefix: string) {
    |prefix| <= |s| && s[..|prefix|] == prefix
  }

  predicate EndsWith(s: string, suffix: string) {
    |suffix| <= |s| && s[|s| - |suffix|..] == suffix
  }

  /** `k` occurs in `s` at index `i`. */
  predicate OccursAt(s: string, k: string, i: int) {
    0 <= i && i + |k| <= |s| && s[i..i + |k|] == k
  }

  /** Python's `k in s`, JavaScript's `s.includes(k)`. */
  predicate Contains(s: string, k: string) {
    exists i :: 0 <= i <= |s| && OccursAt(s, k, i)
  }

  /** An occurrence of a longer keyword carries an occurrence of any of its own substrings. */
  lemma ContainsInside(s: string, k: string, sub: string, j: nat)
    requires Contains(s, k)
    requires OccursAt(k, sub, j)
    ensures Contains(s, sub)
  {
    var i :| 0 <= i <= |s| && OccursAt(s, k, i);
    assert 0 <= i && i + |k| <= |s| && s[i..i + |k|] == k;
    assert j + |sub| <= |k| && k[j..j + |sub|] == sub;
    forall t | 0 <= t < |sub| ensures s[i + j + t] == sub[t] {
      assert sub[t] == k[j + t] == s[i..i + |k|][j + t];
    }
    assert s[i + j..i + j + |sub|] == sub;
    assert OccursAt(s, sub, i + j);
  }

  // ---------------------------------------------------------------- whitespace

  /** The ASCII characters `str.strip()` removes: space, tab, line feed, vertical tab,
      form feed, carriage return and the four separators `\x1c` to `\x1f`. */
  predicate IsSpace(c: char) {
    c == ' ' || '\t' <= c <= '\r' || '\U{1C}' <= c <= '\U{1F}'
  }

  function TrimLeft(s: string): (r: string)
    ensures |r| <= |s| && r == s[|s| - |r|..]
    ensures r == [] || !IsSpace(r[0])
    ensures forall i :: 0 <= i < |s| - |r| ==> IsSpace(s[i])
  {
    if s != [] && IsSpace(s[0]) then TrimLeft(s[1..]) else s
  }

  function TrimRight(s: string): (r: string)
    ensures |r| <= |s| && r == s[..|r|]
    ensures r == [] || !IsSpace(r[|r| - 1])
    ensures forall i :: |r| <= i < |s| ==> IsSpace(s[i])
  {
    if s != [] && IsSpace(s[|s| - 1]) then TrimRight(s[..|s| - 1]) else s
  }

  /** `s.strip()`: the longest slice of `s` that neither starts nor ends with whitespace. */
  function Strip(s: string): (r: string)
    ensures r == [] || (!IsSpace(r[0]) && !IsSpace(r[|r| - 1]))
    ensures r == [] <==> forall i :: 0 <= i < |s| ==> IsSpace(s[i])
    decreases |s|
  {
    if s != [] && IsSpace(s[0]) then Strip(s[1..]) else TrimRight(s)
  }

  /** `strip()` is `lstrip()` followed by `rstrip()`: the input without its leading and
      trailing whitespace, nothing else removed and nothing added. */
  lemma {:induction false} StripTrims(s: string)
    ensures Strip(s) == TrimRight(TrimLeft(s))
    decreases |s|
  {
    if s != [] && IsSpace(s[0]) {
      StripTrims(s[1..]);
    }
  }

  // ---------------------------------------------------------------- decimal numbers

  function DigitChar(d: nat): (c: char)
    requires d < 10
    ensures IsDigit(c)
  {
    ('0' as int + d) as char
  }

  function DigitValue(c: char): nat
    requires IsDigit(c)
  {
    c as int - '0' as int
  }

  /** `str(n)` for a non-negative int: its decimal digits, most significant first. */
  function NatToDecimal(n: nat): (r: string)
    ensures |r| >= 1 && AllDigits(r)
    decreases n
  {
    if n < 10 then [DigitChar(n)] else NatToDecimal(n / 10) + [DigitChar(n % 10)]
  }

  /** The number a run of decimal digits denotes (leading zeros allowed, as in `int("007")`). */
  function DigitsValue(s: string): nat
    requires AllDigits(s)
  {
    if s == [] then 0 else 10 * DigitsValue(s[..|s| - 1]) + DigitValue(s[|s| - 1])
  }

  /** Reading back the digits of `str(n)` gives `n`. */
  lemma {:induction false} DecimalRoundTrip(n: nat)
    ensures DigitsValue(NatToDecimal(n)) == n
    decreases n
  {
    if n >= 10 {
      var s := NatToDecimal(n);
      assert s[..|s| - 1] == NatToDecimal(n / 10);
      DecimalRoundTrip(n / 10);
    }
  }

  /** `str(i)` for any int. */
  function IntToDecimal(i: int): string {
    if i < 0 then "-" + NatToDecimal(-i) else NatToDecimal(i)
  }

  /** `int(s)` on an already stripped string: an optional sign and at least one digit;
      anything else is the `ValueError` case, `None` here. */
  function ParseInt(s: string): (r: Option<int>)
    ensures r.Some? ==> |s| > 0
  {
    if |s| > 1 && (s[0] == '-' || s[0] == '+') && AllDigits(s[1..]) then
      var magnitude: int := DigitsValue(s[1..]);
      Some(if s[0] == '-' then -magnitude else magnitude)
    else if |s| > 0 && AllDigits(s) then
      Some(DigitsValue(s))
    else
      None
  }

  /** `int(str(i)) == i`. */
  lemma IntDecimalRoundTrip(i: int)
    ensures ParseInt(IntToDecimal(i)) == Some(i)
  {
    var s := IntToDecimal(i);
    if i < 0 {
      assert s[1..] == NatToDecimal(-i);
      DecimalRoundTrip(-i);
    } else {
      assert IsDigit(s[0]);
      DecimalRoundTrip(i);
    }
  }

  // ---------------------------------------------------------------- ordering

  /** Python's `a <= b` on `str`: lexicographic by code point, a proper prefix first. */
  predicate LexLe(a: string, b: string)
    decreases |a|
  {
    |a| == 0 || (|b| > 0 && (a[0] < b[0] || (a[0] == b[0] && LexLe(a[1..], b[1..]))))
  }

  lemma {:induction false} LexLeTotal(a: string, b: string)
    ensures LexLe(a, b) || LexLe(b, a)
    decreases |a|
  {
    if |a| > 0 && |b| > 0 && a[0] == b[0] {
      LexLeTotal(a[1..], b[1..]);
    }
  }

  lemma {:induction false} LexLeTransitive(a: string, b: string, c: string)
    requires LexLe(a, b) && LexLe(b, c)
    ensures LexLe(a, c)
    decreases |a|
  {
    if |a| > 0 && a[0] == b[0] && b[0] == c[0] {
      LexLeTransitive(a[1..], b[1..], c[1..]);
    }
  }

  lemma {:induction false} LexLeAntisymmetric(a: string, b: string)
    requires LexLe(a, b) && LexLe(b, a)
    ensures a == b
    decreases |a|
  {
    if |a| > 0 {
      LexLeAntisymmetric(a[1..], b[1..]);
      assert a == [a[0]] + a[1..] && b == [b[0]] + b[1..];
    }
  }

  // ---------------------------------------------------------------- splitting

  /** `s.rsplit(c, 1)[1]` when `c in s`: the text after the last occurrence of `c`. */
  function AfterLast(s: string, c: char): (r: string)
    ensures |r| <= |s| && r == s[|s| - |r|..]
    ensures c !in r
    ensures c in s ==> |r| < |s| && s[|s| - |r| - 1] == c
    ensures c !in s ==> r == s
  {
    if s == [] then []
    else if s[|s| - 1] == c then []
    else AfterLast(s[..|s| - 1], c) + [s[|s| - 1]]
  }

  // ---------------------------------------------------------------- display

  /** `str(v)`, which is also what an f-string shows for `v`. */
  function Show(v: Value): string {
    match v
    case Null => "None"
    case Bool(b) => if b then "True" else "False"
    case Int(i) => IntToDecimal(i)
    case Str(t) => t
  }
}

=== FILE: surface.dfy ===
/** The page as `scan_entire_page_for_ads` sees it: which elements the tree walker visits,
    the size test, the ad-likeness test, and the position text that later becomes part of
    the de-duplication key. The scan loop itself is a method of `Engine.AdReplacer`. */
module Surface {
  import opened Common
  import opened Strings
  import opened Dom

  /** `getBoundingClientRect()`: rendered size and viewport offsets. */
  datatype Rect = Rect(width: real, height: real, top: real, left: real)

  /** One element below `<body>`, in document order: its tag and the attributes the scan
      reads, its rectangle (`None` when the size script raises for it), its computed
      `display`, `visibility` and `opacity`, whether an ancestor was rejected by the walker
      (which skips the whole subtree), and what lies below it (`box`). */
  datatype Element = Element(tag: string, className: string, id: string, src: string,
                             rect: Option<Rect>, display: string, visibility: string,
                             opacity: string, hiddenAncestor: bool, box: Container)

  /** The tree walker's filter. */
  predicate WalkerAccepts(e: Element) {
    !e.hiddenAncestor && e.display != "none" && e.visibility != "hidden" && e.opacity != "0"
  }

  /** Visible, and of the creative's size once width and height are rounded. */
  predicate SizeMatches(r: Rect, width: int, height: int) {
    r.width > 0.0 && r.height > 0.0 && JsRound(r.width) == width && JsRound(r.height) == height
  }

  const AdKeywords: seq<string> := ["ad", "advertisement", "banner", "google", "ads", "ad-", "-ad"]

  /** Some keyword occurs in the lower-cased class, id or source. */
  predicate HasAdKeyword(e: Element) {
    exists k :: 0 <= k < |AdKeywords| &&
      (Contains(Lower(e.className), AdKeywords[k]) || Contains(Lower(e.id), AdKeywords[k]) ||
       Contains(Lower(e.src), AdKeywords[k]))
  }

  predicate IsAdLike(e: Element) {
    HasAdKeyword(e) || Lower(e.tag) in {"img", "iframe", "div"} || HasBackground(e.box.background)
  }

  /** The scan reports exactly the elements this holds for. */
  predicate Reported(e: Element, width: int, height: int) {
    WalkerAccepts(e) && e.rect.Some? && SizeMatches(e.rect.value, width, height) && IsAdLike(e)
  }

  // ---------------------------------------------------------------- position text

  /** Python's round-half-to-even of a non-negative real. */
  function RoundHalfEven(x: real): (r: nat)
    requires x >= 0.0
    ensures (r as real) - 0.5 <= x <= (r as real) + 0.5
    ensures x - (r as real) == 0.5 || (r as real) - x == 0.5 ==> r % 2 == 0
  {
    var f := x.Floor;
    var frac := x - f as real;
    if frac < 0.5 then f
    else if frac > 0.5 then f + 1
    else if f % 2 == 0 then f else f + 1
  }

  /** `format(x, '.0f')`: the nearest integer, ties to even, with the minus sign of a
      negative input kept even when the digits round to zero. */
  function Format0f(x: real): string {
    if x < 0.0 then "-" + NatToDecimal(RoundHalfEven(-x)) else NatToDecimal(RoundHalfEven(x))
  }

  function Position(r: Rect): string {
    "top:" + Format0f(r.top) + ", left:" + Format0f(r.left)
  }

  /** One entry of the scan's result: the element (by its place on the page), the rounded
      size and the position text. */
  datatype Match = Match(handle: nat, width: int, height: int, position: string)

  // ---------------------------------------------------------------- lemmas

  /** The seven keywords come down to three: "ad" is inside "advertisement", "ads", "ad-" and
      "-ad", so an element is keyword-marked iff one of its fields contains "ad", "banner" or
      "google". */
  lemma KeywordsCollapse(e: Element)
    ensures HasAdKeyword(e) <==>
      (exists f :: f in [Lower(e.className), Lower(e.id), Lower(e.src)] && CoreKeyword(f))
  {
    var fields := [Lower(e.className), Lower(e.id), Lower(e.src)];
    if HasAdKeyword(e) {
      var k :| 0 <= k < |AdKeywords| &&
        (Contains(fields[0], AdKeywords[k]) || Contains(fields[1], AdKeywords[k]) ||
         Contains(fields[2], AdKeywords[k]));
      var f := if Contains(fields[0], AdKeywords[k]) then fields[0]
               else if Contains(fields[1], AdKeywords[k]) then fields[1] else fields[2];
      assert f in fields;
      KeywordGivesCore(f, k);
    } else {
      forall f | f in fields
        ensures !CoreKeyword(f)
      {
        assert AdKeywords[0] == "ad" && AdKeywords[2] == "banner" && AdKeywords[3] == "google";
      }
    }
  }

  /** A field contains "ad", "banner" or "google". */
  predicate CoreKeyword(f: string) {
    Contains(f, "ad") || Contains(f, "banner") || Contains(f, "google")
  }

  /** Each of the seven keywords carries one of the three core ones. */
  lemma KeywordGivesCore(f: string, k: nat)
    requires k < |AdKeywords| && Contains(f, AdKeywords[k])
    ensures CoreKeyword(f)
  {
    var kw := AdKeywords[k];
    if k == 1 || k == 4 || k == 5 {
      assert kw[0..2] == "ad";
      ContainsInside(f, kw, "ad", 0);
    } else if k == 6 {
      assert kw[1..3] == "ad";
      ContainsInside(f, kw, "ad", 1);
    }
  }

  /** Any visible `div` of the right size is reported, keyword or not. */
  lemma VisibleDivIsReported(e: Element, width: int, height: int)
    requires WalkerAccepts(e) && e.rect.Some? && SizeMatches(e.rect.value, width, height)
    requires e.tag == "DIV"
    ensures Reported(e, width, height)
  {
    assert Lower(e.tag) == "div";
  }

  /** Rounding in the size test: an element up to half a pixel off either way passes. */
  lemma SizeToleratesHalfPixel(r: Rect, width: int, height: int)
    requires width > 0 && height > 0
    requires width as real - 0.5 <= r.width < width as real + 0.5
    requires height as real - 0.5 <= r.height < height as real + 0.5
    ensures SizeMatches(r, width, height)
  {
  }

  /** The `:.0f` text reads back as an integer within half a pixel of the offset, and it
      starts with a minus sign exactly when the offset is negative. */
  lemma Format0fReadsBack(x: real)
    ensures var v := ParseInt(Format0f(x));
      v.Some? && (v.value as real) - 0.5 <= x <= (v.value as real) + 0.5
    ensures Format0f(x)[0] == '-' <==> x < 0.0
  {
    if x < 0.0 {
      var n := RoundHalfEven(-x);
      assert Format0f(x)[1..] == NatToDecimal(n);
      DecimalRoundTrip(n);
    } else {
      var n := RoundHalfEven(x);
      assert IntToDecimal(n) == Format0f(x);
      IntDecimalRoundTrip(n);
      assert IsDigit(Format0f(x)[0]);
    }
  }

  /** Position text round trip: a whole-number offset is written as its decimal digits. */
  lemma PositionOfWholeOffsets(top: nat, left: nat, width: real, height: real)
    ensures Position(Rect(width, height, top as real, left as real)) ==
      "top:" + NatToDecimal(top) + ", left:" + NatToDecimal(left)
  {
  }

  /** A small negative offset keeps its sign: -0.4 is written "-0", not "0". */
  lemma NegativeZeroPosition()
    ensures Format0f(-0.4) == "-0"
  {
    assert RoundHalfEven(0.4) == 0;
  }
}
